=== FILE: README.md ===
# ticksnap coin unification, modelled in Dafny

ticksnap is a desktop dashboard that shows Upbit (`KRW-XXX`) and Binance
(`XXXUSDT`) markets side by side. Its core merges the two exchanges' market
listings into one table with a row per coin. The table is sorted by the
larger of the two 24-hour trade values. Bulk REST polls and single socket
pushes then keep it current. This project models that core as immutable
datatypes and pure functions:

- `Types`: markets, tickers, table rows (`Coin`), and the derived `maxTradeVolume`.
- `DataManager`: the main feed.
  - the coin mapping (a JS `Map`, kept here as entries plus insertion order);
  - the initial table;
  - the in-place bulk refresh with its "skip favourites while a socket is open" rule;
  - the two single-row push handlers;
  - the subscription lists.
- `SymbolMatcher`: the pairing of the two listings (`matchSymbols`) and the merged table built from it (`combineExchangeData`).
- `UnifiedExchange`: the service that caches a matching for 30 seconds, lists socket symbols and looks coins up.
- `UpbitApi` and `BinanceApi`: the pure parts of the REST clients. These are the listing filters, the ticker filter, the ticker conversion and the kline time.
- `BinanceSocket`: the Binance stream client as a state machine. It covers the `isConnecting` guard, the reconnect counter capped at five, `hasSymbolsChanged` and the stream-message converter.
- `FavoriteSlice`, `RegisteredCoinSlice`, `CoinSlice` and `Storage`: the Redux reducers and their stored-list loading.
- `MarketBlock`: the market list view, covering tab filtering, the display sort, the click target and the trade-volume unit.
- `Js`, `Strings`, `Seqs`, `Sorting`, `Wrappers`: JavaScript semantics the source relies on.
  - `a || b` falls back on `0`, `undefined` and `""`.
  - `String.replace` removes only the first occurrence.
  - `Array.prototype.sort` is stable; the model uses an insertion sort.
  - `indexOf` followed by `splice(i, 1)` removes the first occurrence.

Parsed numbers are `real`. A value JavaScript may see as `undefined` is `Option<real>`. A REST call that throws is an absent response (`None`). Every client answers that with an empty list. The clock is a parameter. Whether a socket is open is a boolean input.

The two table builders differ on empty rows. `createUnifiedData` emits a row only when a ticker was found on at least one side (src/services/DataManager.ts:182-186). `combineExchangeData` emits a row for every matched pair (src/utils/symbolMatcher.ts:121-154). When both of a pair's tickers are missing, that row has neither side and volume 0 (`SymbolMatcher.MatchedEntryMayHaveNoSide`).

## Model

| member | source | states |
|---|---|---|
| DataManager.ExtractCoinSymbolCases | src/services/DataManager.ts:141-149 | A code starting with `KRW-` loses those four characters. Otherwise a code ending in `USDT` has the first `USDT` it contains removed. Otherwise the code is unchanged. |
| DataManager.ExtractKrwMarket | src/services/DataManager.ts:142-144 | Extracting `KRW-` + coin gives the coin back (the KRW half of the round trip). |
| DataManager.ExtractUsdtPair | src/services/DataManager.ts:145-147 | A base + `USDT` symbol extracts to the base when no earlier `USDT` occurs and it does not start with `KRW-`. |
| DataManager.ExtractDropsFirstUsdt | src/services/DataManager.ts:146 | `replace` removes the first occurrence, not the suffix: `USDTBUSDT` gives `BUSDT`. |
| DataManager.ExtractorsAgreeOnKrw | src/services/DataManager.ts:141-144 | On `KRW-` codes this extractor agrees with the symbol matcher's. |
| DataManager.ExtractorsDifferOnUsdt | src/utils/symbolMatcher.ts:4-6 | On `BTCUSDT` the two extractors disagree: only DataManager's strips `USDT`. |
| DataManager.Assign | src/services/DataManager.ts:122-136 | One `forEach` step creates the key when it is new, with the other side empty. It sets this exchange's code, leaves every other key unchanged and only appends to the insertion order. |
| DataManager.AssignAllKeys | src/services/DataManager.ts:122-137 | After a `forEach`, the keys are the old keys plus the canonical symbols of the codes. |
| DataManager.AssignAllSide | src/services/DataManager.ts:122-137 | After a `forEach`, this side of a key holds the last code with that key (last write wins). Keys no code touches keep their entry. |
| DataManager.AssignAllOtherSide | src/services/DataManager.ts:122-137 | After a `forEach`, the other exchange's side is unchanged on old keys and empty on new ones. |
| DataManager.AssignAllOrder | src/services/DataManager.ts:124-127 | A key joins the insertion order when it is first written. Later writes to it leave the order alone. |
| DataManager.LastWithKeys | src/services/DataManager.ts:122-137 | A key has a last code exactly when it is among the codes' keys. |
| DataManager.CreateDynamicMapping | src/services/DataManager.ts:118-138 | The key set is exactly the canonical symbols of the Upbit and Binance markets. Each key's `upbit`/`binance` holds the last market code with that key, or nothing. |
| DataManager.CreateDynamicMappingOrder | src/services/DataManager.ts:118-138 | The `Map`'s iteration order lists each canonical symbol once. Symbols appear in order of first occurrence among the Upbit codes followed by the Binance symbols. |
| DataManager.Lookup | src/services/DataManager.ts:183-184 | An absent or empty mapped code looks nothing up. Otherwise the result is the first ticker whose market is that code. |
| DataManager.TickerSide | src/services/DataManager.ts:194-215 | A side copies the ticker's market, price and change fields. Its volume is `acc_trade_price_24h`, or `acc_trade_price` when the former is 0 or missing. |
| DataManager.CoinName | src/services/DataManager.ts:231-237 | The Korean name of the Upbit listing whose code is the ticker's market. The coin symbol when there is no Upbit ticker or no such listing. |
| DataManager.EntryFor | src/services/DataManager.ts:182-223 | A key yields a row exactly when a ticker is found on either side. That row has exactly the found sides, the key as its symbol, and volume equal to the larger side volume. |
| DataManager.Entries | src/services/DataManager.ts:182-224 | Every key with a ticker yields its row, and only such rows appear. Rows are distinct by coin symbol when the keys are. |
| DataManager.CreateUnifiedData | src/services/DataManager.ts:178-228 | The table is sorted non-increasingly by `maxTradeVolume` and has unique coin symbols. Each row has a side and a consistent volume. It has one row for each mapping key with a ticker. |
| DataManager.CreateUnifiedDataStable | src/services/DataManager.ts:227 | Rows of equal volume keep the mapping's key order (the sort is stable). |
| DataManager.RefreshSide | src/services/DataManager.ts:297-307 | A refreshed side keeps its symbol and takes everything else from the ticker. |
| DataManager.RefreshSideIdempotent | src/services/DataManager.ts:297-322 | Refreshing twice from the same ticker is refreshing once. |
| DataManager.PolledSide | src/services/DataManager.ts:295-322 | A side is refreshed only when it exists and its mapped ticker was found. It is never added or removed. |
| DataManager.UpdateCoin | src/services/DataManager.ts:280-329 | A coin that is unmapped, or a favourite while either socket is open, is returned unchanged. Otherwise its symbol, name and side symbols are kept, its sides are polled, and its volume is the larger side volume. |
| DataManager.UpdateUnifiedData | src/services/DataManager.ts:279-331 | The bulk refresh keeps length and order. It keeps each coin's symbol, name and side symbols, and never adds a side. It skips favourites while any socket is open. Every other mapped coin takes both sides from the fresh tickers, as `PolledSide` states, with a consistent volume. |
| DataManager.UpdateUnifiedDataIdempotent | src/services/DataManager.ts:279-331 | A second poll with the same tickers changes nothing. |
| DataManager.IndexOfCoin | src/services/DataManager.ts:460 | `findIndex`: the first row with the coin symbol, or none when no row has it. |
| DataManager.UpbitPushTarget | src/services/DataManager.ts:455-462 | A missing message or empty code targets nothing. Otherwise the target is the first row with the code's canonical symbol, provided that row has an Upbit side. |
| DataManager.HandleUpbitPush | src/services/DataManager.ts:455-494 | Without a target the table is unchanged. Otherwise only the target's Upbit side and volume change, the side keeps its symbol, and the volume is the larger side volume. |
| DataManager.BinancePushTarget | src/services/DataManager.ts:497-506 | The same rule for stream messages and the Binance side. |
| DataManager.StreamSide | src/services/DataManager.ts:508-526 | The Binance side written from a stream message keeps its symbol. Its sign-based change and magnitudes give back the signed change, a zero change has change price 0, and its volume is the quote volume. |
| DataManager.StreamSideMatchesConverter | src/services/BinanceWebSocketService.ts:89-111 | The side a push writes equals the side a poll writes from the socket service's converted ticker. |
| DataManager.HandleBinancePush | src/services/DataManager.ts:497-538 | Without a target the table is unchanged. Otherwise only the target's Binance side and volume change, and the volume is the larger side volume. |
| DataManager.FavoriteCode | src/services/DataManager.ts:358-360 | A favourite subscribes on an exchange exactly when its mapping has a non-empty code there. |
| DataManager.Subscriptions | src/services/DataManager.ts:354-361 | One code per favourite that has a truthy mapped code, in favourites order and with repeats kept: the codes of the favourites that pass that test, element by element. |
| DataManager.SubscriptionsAppend | src/services/DataManager.ts:356-360 | Each favourite pushes its own code, so the list for two runs of favourites is the two lists joined. |
| DataManager.PushSubscriptions | src/services/DataManager.ts:347-374 | No favourites, no subscriptions. Otherwise the Upbit and Binance lists built from the mapping. |
| DataManager.PolledBinanceSymbols | src/services/DataManager.ts:264 | The first 100 listed Binance symbols, in order: min(100, \|markets\|) of them. |
| DataManager.PolledTickersListed | src/services/DataManager.ts:264-266 | Every converted polled ticker belongs to one of the first 100 listed symbols. |
| DataManager.PolledBinanceTickers | src/services/DataManager.ts:264-266 | A failed fetch gives no tickers. Otherwise row k is the conversion of the k-th ticker the filtered fetch returns, which keeps, in order and with their counts, the tickers of the first 100 symbols. With none listed the symbol list is empty, so every ticker is kept, converted. |
| SymbolMatcher.ExtractCoinSymbolCases | src/utils/symbolMatcher.ts:4-6 | The first `KRW-` is removed wherever it occurs. A code without `KRW-` is unchanged. There is no `USDT` handling. |
| SymbolMatcher.FindBinanceSymbol | src/utils/symbolMatcher.ts:9-13 | Returns coin + `USDT` exactly when a Binance market has that symbol, and nothing otherwise. |
| SymbolMatcher.SplitUpbitPartitions | src/utils/symbolMatcher.ts:36-54 | Every Upbit market lands in exactly one of matched / Upbit-only (as multisets of codes). |
| SymbolMatcher.SplitUpbitKeepsOrder | src/utils/symbolMatcher.ts:36-54 | Both buckets keep the listing order. |
| SymbolMatcher.SplitUpbitClassifies | src/utils/symbolMatcher.ts:37-53 | A matched pair comes from a listed market whose USDT pair exists on Binance. An Upbit-only coin comes from one whose pair does not. |
| SymbolMatcher.UnclaimedBinance | src/utils/symbolMatcher.ts:57-66 | Binance-only is, in order, exactly the Binance markets whose symbol no pair claimed, with coin = base asset. Each appears as many times as in the listing. |
| SymbolMatcher.MatchSymbols | src/utils/symbolMatcher.ts:16-73 | The bucket sizes sum to the Upbit listing size and partition its codes in order. Each pair and Upbit-only coin is classified correctly. Binance-only is exactly the unclaimed Binance markets, in order and with their counts. |
| SymbolMatcher.MatchedEntry | src/utils/symbolMatcher.ts:121-155 | A pair's row has its coin and name. It has a side exactly when that ticker is found, and volume max(Upbit 24h value or 0, Binance value or 0). |
| SymbolMatcher.MatchedEntryMayHaveNoSide | src/utils/symbolMatcher.ts:121-154 | A pair with no tickers still yields a row, with neither side and volume 0. |
| SymbolMatcher.UpbitOnlyEntries | src/utils/symbolMatcher.ts:158-178 | An Upbit-only coin yields a row exactly when its ticker is found. The rows follow the listing order: row i belongs to the i-th Upbit-only coin that has a ticker. |
| SymbolMatcher.TopBinanceItems | src/utils/symbolMatcher.ts:181-188 | The qualifying items (a ticker above 1,000,000), sorted by volume from the highest, cut to the first 50. The result is a sub-multiset of the qualifying items, has length min(50, qualifying), and is sorted. None is left out for a qualifying item with a larger volume. When fewer than 50 are kept, all qualifying items are kept. |
| SymbolMatcher.TopBinanceItemsStable | src/utils/symbolMatcher.ts:187-188 | The sort is stable and then cut: the kept items of any one volume are a prefix, in listing order, of the qualifying items of that volume. |
| SymbolMatcher.TopIsHighest | src/utils/symbolMatcher.ts:187-188 | Taking the first 50 of a descending permutation keeps the highest-volume items. |
| SymbolMatcher.BinanceOnlyEntries | src/utils/symbolMatcher.ts:181-205 | Binance-only rows have only a Binance side, volume above 1,000,000, and name = coin. Row i is the row of the i-th kept item. They are a sub-multiset of the qualifying items' rows, min(50, qualifying) of them, sorted by volume, and the highest by volume. |
| SymbolMatcher.BinanceOnlyEntriesStable | src/utils/symbolMatcher.ts:181-205 | The Binance-only rows of any one volume are a prefix, in listing order, of the qualifying items' rows of that volume. |
| SymbolMatcher.EntriesOfSubMultiset | src/utils/symbolMatcher.ts:188-204 | Building a row per item keeps a sub-multiset of items a sub-multiset of rows. |
| SymbolMatcher.CombineExchangeData | src/utils/symbolMatcher.ts:99-209 | The merged table is sorted non-increasingly and is a permutation of matched + Upbit-only + Binance-only rows. Every pair yields its row. The length is between \|matched\| and \|matched\| + \|upbitOnly\| + min(50, \|binanceOnly\|). |
| SymbolMatcher.CombineExchangeDataStable | src/utils/symbolMatcher.ts:208 | Rows of equal volume keep their build order: matched rows, then Upbit-only rows, then Binance-only rows. |
| SymbolMatcher.MatchedEntriesConsistent | src/utils/symbolMatcher.ts:125-131 | Every matched row's `maxTradeVolume` is the larger of its side volumes. |
| SymbolMatcher.CombinedVolumesConsistent | src/utils/symbolMatcher.ts:125-200 | With non-negative Upbit volumes, every merged row's volume is the larger of its side volumes. |
| UnifiedExchange.InitializeMarkets | src/services/UnifiedExchangeService.ts:13-37 | Caches exactly the KRW and USDT-perpetual listings of the two responses (empty when a fetch fails), their matching and the current time. |
| UnifiedExchange.ReinitExactlyWhenStale | src/services/UnifiedExchangeService.ts:10-45 | After initialising at time t, a re-initialisation is due exactly when now - t > 30000. |
| UnifiedExchange.ResetClock | src/services/UnifiedExchangeService.ts:117 | The reset zeroes `lastUpdateTime` and keeps the cache. |
| UnifiedExchange.ResetClockForcesReinit | src/services/UnifiedExchangeService.ts:117 | After the reset, any time past 30000 counts as stale. |
| UnifiedExchange.ForceUpdate | src/services/UnifiedExchangeService.ts:116-119 | Caches the freshly fetched and filtered listings and re-matches them at the current time, after which nothing is stale for 30000 ms. |
| UnifiedExchange.BinanceSymbols | src/services/UnifiedExchangeService.ts:80-83 | The matched Binance symbols, then those of the first 50 Binance-only coins: \|matched\| + min(50, \|binanceOnly\|) symbols. |
| UnifiedExchange.UpbitSymbols | src/services/UnifiedExchangeService.ts:78 | The matched Upbit codes, then the Upbit-only codes. |
| UnifiedExchange.GetWebSocketSymbols | src/services/UnifiedExchangeService.ts:73-89 | No matching gives two empty lists. Otherwise it gives the Upbit and the Binance quote lists of the cached matching: \|matched\| + \|upbitOnly\| and at most \|matched\| + 50 entries. |
| UnifiedExchange.UpbitSymbolsArePermutation | src/services/UnifiedExchangeService.ts:78 | Under a coherent cache, the Upbit list is a reordering of the cached Upbit codes. |
| UnifiedExchange.BinanceSymbolsListed | src/services/UnifiedExchangeService.ts:80-83 | Under a coherent cache, every Binance symbol listed is a cached Binance market. |
| UnifiedExchange.BinanceSymbolsDisjoint | src/services/UnifiedExchangeService.ts:80-83 | No Binance-only symbol repeats a matched one. |
| UnifiedExchange.GetUnifiedTickers | src/services/UnifiedExchangeService.ts:40-70 | Re-initialises exactly when the cache is missing or stale, otherwise keeps it. The table is sorted, has a row for every matched pair, and has the merged-table length bounds. |
| UnifiedExchange.AllFetchesFailingGiveEmptyTable | src/services/UnifiedExchangeService.ts:40-69 | With every request failing, the answer is an empty table. |
| UnifiedExchange.GetCoinInfo | src/services/UnifiedExchangeService.ts:97-113 | Lookup order is matched, then Upbit-only (no Binance code), then Binance-only (no Upbit code, name = symbol). The answer is null exactly when no bucket has the coin. |
| UnifiedExchange.CoinInfoUpbitIsListed | src/services/UnifiedExchangeService.ts:97-106 | An Upbit code in the answer is a cached market whose canonical symbol is the coin. |
| UpbitApi.FetchMarkets | src/services/UpbitApi.ts:15-23 | Exactly the listings starting with `KRW`, in order. Each kept listing appears as many times as in the response. A failed request gives nothing. |
| BinanceApi.FetchBinanceMarkets | src/services/BinanceApi.ts:36-46 | Exactly the USDT / TRADING / PERPETUAL symbols, in order. Each kept listing appears as many times as in the response. A failed request gives nothing. |
| BinanceApi.AllTickers | src/services/BinanceApi.ts:53 | A single-object reply is wrapped as a one-element list. |
| BinanceApi.FetchBinanceTickers | src/services/BinanceApi.ts:49-64 | With a non-empty symbol list, exactly the tickers of those symbols, in order. Each kept ticker appears as many times as in the response. Otherwise all tickers. A failed request gives nothing. |
| BinanceApi.ConvertTickerToUpbitFormat | src/services/BinanceApi.ts:101-116 | The market is the symbol and the change is RISE/FALL/EVEN by the sign of the change. Change price and change rate are non-negative. Change and change price give back the signed change, and a zero change has change price 0. The signed rate is percent / 100, and both volumes are the quote volume. |
| BinanceApi.ConvertKeepsPriceChange | src/services/BinanceApi.ts:103-110 | The change and change price together give back the signed price change. |
| BinanceApi.ConvertAll | src/services/DataManager.ts:163 | Converts every ticker, keeping order and market codes. |
| BinanceApi.KlineTime | src/services/BinanceApi.ts:87 | The seconds value is the floor of milliseconds / 1000. |
| BinanceApi.FetchBinanceKlines | src/services/BinanceApi.ts:80-98 | One candle per row, with the time as the floor of milliseconds / 1000 and open, high, low, close and volume copied. A failed request gives nothing. |
| BinanceSocket.ConnectTo | src/services/BinanceWebSocketService.ts:13-41 | Does nothing while a connection attempt is in flight. Otherwise it stores the upper-cased symbols, then either reuses an open socket or starts connecting. |
| BinanceSocket.HandleOpen | src/services/BinanceWebSocketService.ts:43-47 | Opening ends the attempt and resets the counter to 0. |
| BinanceSocket.HandleClose | src/services/BinanceWebSocketService.ts:62-81 | A reconnect is scheduled only while fewer than 5 attempts were made. |
| BinanceSocket.HandleTimer | src/services/BinanceWebSocketService.ts:74-77 | The timer counts one attempt and calls `connect` with the stored symbols. While an attempt is in flight nothing else changes. Otherwise the symbols are upper-cased, and an open socket is reused or a new one is connecting. |
| BinanceSocket.Disconnected | src/services/BinanceWebSocketService.ts:121-131 | Afterwards both the socket and the timer are null. |
| BinanceSocket.UpperAllIdempotent | src/services/BinanceWebSocketService.ts:134-135 | Upper-casing an upper-cased list changes nothing. |
| BinanceSocket.HasSymbolsChanged | src/services/BinanceWebSocketService.ts:159-175 | Reports a change exactly when the two lists are not permutations of each other. |
| BinanceSocket.UpdateSymbolsTo | src/services/BinanceWebSocketService.ts:134-156 | A permutation of the current upper-cased list is a no-op. Otherwise the new upper-cased list is stored. |
| BinanceSocket.RunKeepsAttemptsBounded | src/services/BinanceWebSocketService.ts:43-81 | Over any sequence of events, the counter never exceeds 5, and a scheduled reconnect always has an attempt left. |
| BinanceSocket.FromInitialAttemptsBounded | src/services/BinanceWebSocketService.ts:6-7 | From a fresh service the counter stays within 0..5. |
| BinanceSocket.ConvertTickerData | src/services/BinanceWebSocketService.ts:89-111 | A missing message or symbol gives null. Otherwise the change is sign-based and its magnitudes are non-negative and give back the signed change; a zero change has change price 0. The signed rate is percent / 100 and the change rate is its magnitude. Both volumes are the quote volume. Previous close, high, low, volume and event time are copied. |
| FavoriteSlice.Initial | src/store/slices/favoriteSlice.ts:8-21 | A stored, parsable, non-empty value is loaded. Anything else gives an empty list. |
| FavoriteSlice.ToggleFavorite | src/store/slices/favoriteSlice.ts:27-36 | An absent id is appended. A present id loses its first occurrence only, and the list shrinks by one. |
| FavoriteSlice.ToggleKeepsOrder | src/store/slices/favoriteSlice.ts:29-35 | The other elements keep their relative order. |
| FavoriteSlice.ToggleFlipsMembership | src/store/slices/favoriteSlice.ts:29-36 | On a duplicate-free list, toggling flips this id's membership, leaves others alone and stays duplicate-free. |
| FavoriteSlice.ToggleTwiceRestores | src/store/slices/favoriteSlice.ts:31-35 | Toggling an absent id twice restores the list. |
| RegisteredCoinSlice.Initial | src/store/slices/registeredCoinSlice.ts:9-21 | A stored, parsable, non-empty value is loaded. Anything else gives the default coins. |
| RegisteredCoinSlice.MissingGivesDefaults | src/store/slices/registeredCoinSlice.ts:7-12 | With nothing stored the list is BTC, ETH, XRP, SOL, DOGE, without duplicates. |
| RegisteredCoinSlice.RegisterCoin | src/store/slices/registeredCoinSlice.ts:27-33 | Appends only when absent. Afterwards the symbol is present. |
| RegisteredCoinSlice.RegisterIdempotent | src/store/slices/registeredCoinSlice.ts:29-30 | Registering twice is registering once, and a duplicate-free list stays duplicate-free. |
| RegisteredCoinSlice.UnregisterCoin | src/store/slices/registeredCoinSlice.ts:34-40 | Removes the first occurrence when present, and otherwise does nothing. |
| RegisteredCoinSlice.RegisterThenUnregister | src/store/slices/registeredCoinSlice.ts:29-39 | Registering a new symbol and then unregistering it restores the list. |
| RegisteredCoinSlice.UnregisterRemoves | src/store/slices/registeredCoinSlice.ts:35-37 | On a duplicate-free list, the symbol is gone afterwards and the rest keeps its order. |
| CoinSlice.Initial | src/store/slices/coinSlice.ts:13-18 | Empty list, no selection, loading, no error. |
| CoinSlice.Reduce | src/store/slices/coinSlice.ts:25-44 | `setUnifiedCoins` replaces the list, stops loading and clears the error, keeping the selection. Each other action changes only its own field. |
| CoinSlice.SelectionSurvives | src/store/slices/coinSlice.ts:25-44 | Only `selectCoin` changes the selection. |
| CoinSlice.LastDeliveryWins | src/store/slices/coinSlice.ts:25-29 | After any history, a final delivery leaves the list loaded and error-free. |
| Storage.LoadList | src/store/slices/favoriteSlice.ts:10-11 | A stored, non-empty, parsable value is used. Anything else falls back. |
| MarketBlock.FavoriteSymbols | src/block/MarketBlock.tsx:21-30 | Each favourite is canonicalised exactly as DataManager's extractor does. |
| MarketBlock.FilteredData | src/block/MarketBlock.tsx:36-47 | The `all` tab is the table unchanged and `holdings` is empty. `favorites` keeps, in order, exactly the rows whose Upbit or Binance symbol (or `''` for a missing side) is a favourite, each as many times as in the table. |
| MarketBlock.EmptyFavoriteMatchesOneSided | src/block/MarketBlock.tsx:39 | An empty favourite marks every row missing a side. |
| MarketBlock.DisplayRows | src/block/MarketBlock.tsx:119-120 | The displayed rows are a permutation of the filtered rows, sorted non-increasingly by volume. |
| MarketBlock.DisplayRowsStable | src/block/MarketBlock.tsx:119-120 | Rows of equal volume keep their filtered order. |
| MarketBlock.Render | src/block/MarketBlock.tsx:112-120 | The holdings tab shows its pending notice. The all tab shows the loading message exactly when the table is empty. The favorites tab shows its empty notice exactly when no row is a favourite. Rows are shown exactly when the filtered list is non-empty, and they are the sorted filtered rows. |
| MarketBlock.SelectSymbol | src/block/MarketBlock.tsx:129 | The click target is the non-empty Upbit symbol, else the non-empty Binance symbol, else the coin symbol. |
| MarketBlock.SelectedFavoriteIsMarked | src/block/MarketBlock.tsx:123-129 | A row whose click target is a favourite shows as a favourite. |
| MarketBlock.FormatTradeVolume | src/block/MarketBlock.tsx:69-87 | The unit is 조 from 1e12, 억 from 1e8, 천만 from 1e7, 백만 from 1e6, else 원 (0 included). Scaled × unit size is the volume, and outside 원 the scaled value is at least 1. |
| MarketBlock.FormatTradeVolumeMonotone | src/block/MarketBlock.tsx:72-86 | A larger volume never gets a smaller unit, nor a smaller scaled value in the same unit. |
| Types.ChangeOf | src/services/BinanceApi.ts:109 | RISE, FALL or EVEN exactly by the sign of the change. |
| Types.ChangeRoundTrip | src/services/BinanceApi.ts:109-110 | Sign-based change with the absolute amount gives back the signed change. |
| Types.DerivedMaxVolume | src/services/DataManager.ts:218-220 | The row volume is the larger of the two side volumes, with a missing side or volume counting as 0. |
| Types.FindTicker | src/utils/symbolMatcher.ts:122-123 | `find` by market gives the first ticker with that market, or none when no ticker has it. |
| Types.SortByVolume | src/services/DataManager.ts:227 | The sort gives a permutation in non-increasing volume order. |
| Types.SortByVolumeStable | src/utils/symbolMatcher.ts:208 | Rows of equal volume keep their order. |
| Types.SortByVolumeDistinct | src/services/DataManager.ts:227 | Sorting keeps coin symbols unique. |

## Left out

- Sockets and timers are not run. The Upbit socket, subscribe messages and reconnect timers in DataManager, and the polling interval with its `isUpdating` guard, are not modelled. "A socket is open" is a boolean input, and Binance socket callbacks are events.
- DataManager's own socket reconnects (uncapped, every 5 seconds) are wiring of the same kind and are left out.
- HTTP requests, `localStorage` writes and Redux dispatch/selector glue are external I/O. Responses are parameters, and stored text is `Storage.Stored`, parsed or not.
- `JSON.parse` of a stored value that is valid JSON but not a list of strings is not modelled. Such a value is treated as unparsable.
- `parseFloat`, `NaN` and IEEE rounding are not modelled: numbers are already-parsed reals. `toFixed`/`toLocaleString` text formatting is not modelled. `MarketBlock.FormatTradeVolume` returns the exact scaled value and the unit.
- `toUpperCase` is modelled for ASCII letters only. String order in `sort()` is per `char`, not per UTF-16 code unit.
- `getTradeVolume` in MarketBlock is never called and is left out.
- The `catch` of `getUnifiedTickers` is not modelled. Every fetch it calls already answers an error with an empty list, so its failures show as missing tickers or markets (`UnifiedExchange.AllFetchesFailingGiveEmptyTable`).
- `initialize`, `updateFavoriteCoins` and the singleton accessors only sequence the modelled steps and are left out.
- UnifiedExchange.GetCoinInfo: states that the answer comes from an entry with the coin in the highest-priority bucket that has one, not that it is the first such entry in that bucket.
- UnifiedExchange.GetUnifiedTickers: states the length bounds and that every matched pair has a row; the full table is stated by `SymbolMatcher.CombineExchangeData`.
- BinanceSocket.UpdateSymbolsTo: states the stored symbols and the no-op case but not the socket and timer state after a reconnect, which `BinanceSocket.ConnectTo` and `BinanceSocket.Disconnected` state.

=== FILE: binance_api.dfy ===
/**
 * The pure parts of the Binance futures REST client: the market filter, the
 * client-side ticker filter, the conversion of a 24-hour ticker into Upbit's
 * ticker shape, and the kline time conversion. A request that fails is an
 * absent response (`None`); the client then returns an empty list.
 */
module BinanceApi {
  import opened Wrappers
  import opened Js
  import opened Types
  import Seqs

  /** The fields of `/fapi/v1/ticker/24hr` that the client reads, parsed. */
  datatype RawTicker = RawTicker(
    symbol: string,
    priceChange: real,
    priceChangePercent: real,
    lastPrice: real,
    prevClosePrice: real,
    quoteVolume: real)

  /** The ticker endpoint answers with a list, or with one object that the client wraps. */
  datatype TickerPayload = TickerList(tickers: seq<RawTicker>) | SingleTicker(ticker: RawTicker)

  /** A kline row as the endpoint sends it: open time in milliseconds, then OHLCV. */
  datatype KlineRow = KlineRow(openTimeMs: int, open: real, high: real, low: real, close: real, volume: real)

  /** A candle for the chart: `time` in whole seconds. */
  datatype Kline = Kline(time: int, open: real, high: real, low: real, close: real, volume: real)

  /** A USDT-quoted perpetual contract that is currently trading. */
  predicate IsUsdtPerpetual(s: SymbolInfo) {
    s.quoteAsset == "USDT" && s.status == "TRADING" && s.contractType == Some("PERPETUAL")
  }

  /** `fetchBinanceMarkets`: the USDT perpetuals of the exchange listing, in listing order. */
  function FetchBinanceMarkets(response: Option<seq<SymbolInfo>>): (r: seq<SymbolInfo>)
    ensures response.None? ==> r == []
    ensures response.Some? ==> Seqs.IsSubseq(r, response.value)
    ensures forall s :: s in r ==> IsUsdtPerpetual(s)
    ensures response.Some? ==>
              forall i :: 0 <= i < |response.value| && IsUsdtPerpetual(response.value[i]) ==> response.value[i] in r
    ensures response.Some? ==>
              forall s :: multiset(r)[s] == if IsUsdtPerpetual(s) then multiset(response.value)[s] else 0
  {
    match response
    case None => []
    case Some(symbols) => Seqs.Filter(symbols, IsUsdtPerpetual)
  }

  /** `Array.isArray(data) ? data : [data]`. */
  function AllTickers(payload: TickerPayload): (r: seq<RawTicker>)
    ensures payload.SingleTicker? ==> r == [payload.ticker]
    ensures payload.TickerList? ==> r == payload.tickers
  {
    match payload
    case TickerList(ts) => ts
    case SingleTicker(t) => [t]
  }

  predicate Listed(t: RawTicker, symbols: seq<string>) {
    t.symbol in symbols
  }

  /**
   * `fetchBinanceTickers(symbols)`: every ticker is fetched and, when a
   * non-empty symbol list is given, only the listed symbols are kept.
   */
  function FetchBinanceTickers(response: Option<TickerPayload>, symbols: Option<seq<string>>): (r: seq<RawTicker>)
    ensures response.None? ==> r == []
    ensures response.Some? && (symbols.None? || |symbols.value| == 0) ==> r == AllTickers(response.value)
    ensures response.Some? && symbols.Some? && |symbols.value| > 0 ==>
              && Seqs.IsSubseq(r, AllTickers(response.value))
              && (forall t :: t in r ==> t.symbol in symbols.value)
              && (forall t :: t in AllTickers(response.value) && t.symbol in symbols.value ==> t in r)
              && (forall t :: multiset(r)[t] == if t.symbol in symbols.value then multiset(AllTickers(response.value))[t] else 0)
  {
    match response
    case None => []
    case Some(payload) =>
      var all := AllTickers(payload);
      if symbols.Some? && |symbols.value| > 0 then
        var wanted := symbols.value;
        var r := Seqs.Filter(all, t => Listed(t, wanted));
        assert forall i :: 0 <= i < |all| && all[i].symbol in wanted ==> all[i] in r;
        r
      else all
  }

  /** `convertBinanceTickerToUpbitFormat`. */
  function ConvertTickerToUpbitFormat(raw: RawTicker): (r: Ticker)
    ensures r.market == raw.symbol
    ensures r.tradePrice == raw.lastPrice && r.prevClosingPrice == raw.prevClosePrice
    ensures r.change == Rise <==> raw.priceChange > 0.0
    ensures r.change == Fall <==> raw.priceChange < 0.0
    ensures r.change == Even <==> raw.priceChange == 0.0
    ensures r.changePrice >= 0.0 && r.changeRate >= 0.0
    ensures SignedAmount(r.change, r.changePrice) == raw.priceChange
    ensures raw.priceChange == 0.0 ==> r.changePrice == 0.0
    ensures r.signedChangeRate * 100.0 == raw.priceChangePercent
    ensures r.changeRate == r.signedChangeRate || r.changeRate == -r.signedChangeRate
    ensures r.accTradePrice == r.accTradePrice24h == Some(raw.quoteVolume)
  {
    var rate := raw.priceChangePercent / 100.0;
    ChangeRoundTrip(raw.priceChange);
    Ticker(
      market := raw.symbol,
      tradePrice := raw.lastPrice,
      prevClosingPrice := raw.prevClosePrice,
      change := ChangeOf(raw.priceChange),
      changePrice := Abs(raw.priceChange),
      changeRate := Abs(rate),
      signedChangeRate := rate,
      accTradePrice := Some(raw.quoteVolume),
      accTradePrice24h := Some(raw.quoteVolume))
  }

  /** `map(convertBinanceTickerToUpbitFormat)`. */
  function ConvertAll(raw: seq<RawTicker>): (r: seq<Ticker>)
    ensures |r| == |raw|
    ensures forall k :: 0 <= k < |raw| ==> r[k] == ConvertTickerToUpbitFormat(raw[k]) && r[k].market == raw[k].symbol
  {
    seq(|raw|, k requires 0 <= k < |raw| => ConvertTickerToUpbitFormat(raw[k]))
  }

  /** The converted ticker still determines the signed price change. */
  lemma ConvertKeepsPriceChange(raw: RawTicker)
    ensures var t := ConvertTickerToUpbitFormat(raw); SignedAmount(t.change, t.changePrice) == raw.priceChange
  {
    ChangeRoundTrip(raw.priceChange);
  }

  /** `Math.floor(ms / 1000)`: the second in which the candle opens. */
  function KlineTime(openTimeMs: int): (t: int)
    ensures t * 1000 <= openTimeMs < t * 1000 + 1000
  {
    openTimeMs / 1000
  }

  /** `fetchBinanceKlines`: one candle per row, times in seconds. */
  function FetchBinanceKlines(response: Option<seq<KlineRow>>): (r: seq<Kline>)
    ensures response.None? ==> r == []
    ensures response.Some? ==> |r| == |response.value|
    ensures response.Some? ==> forall i :: 0 <= i < |r| ==>
              && r[i].time * 1000 <= response.value[i].openTimeMs < r[i].time * 1000 + 1000
              && r[i].open == response.value[i].open
              && r[i].high == response.value[i].high
              && r[i].low == response.value[i].low
              && r[i].close == response.value[i].close
              && r[i].volume == response.value[i].volume
  {
    match response
    case None => []
    case Some(rows) =>
      seq(|rows|, i requires 0 <= i < |rows| =>
        Kline(KlineTime(rows[i].openTimeMs), rows[i].open, rows[i].high, rows[i].low, rows[i].close, rows[i].volume))
  }
}

=== FILE: binance_socket.dfy ===
/**
 * `BinanceWebSocketService` as a state machine. The socket and its timer are
 * not run: the socket's `open`/`close` callbacks and the reconnect timer's
 * expiry are events delivered to `Step`, and the socket itself is reduced to
 * its ready state.
 */
module BinanceSocket {
  import opened Wrappers
  import opened Types
  import Strings
  import Sorting

  /** At most this many timed reconnects follow a close before the service gives up. */
  const MaxReconnectAttempts: nat := 5

  /** `this.socket`: null, or a socket in some ready state. */
  datatype SocketState = NoSocket | Connecting | Open | Closed

  /** `this.reconnectTimer`: null, a scheduled reconnect, or the handle of one that already ran. */
  datatype TimerState = NoTimer | Scheduled | Spent

  datatype Service = Service(
    socket: SocketState,
    timer: TimerState,
    symbols: seq<string>,
    isConnecting: bool,
    reconnectAttempts: nat)

  datatype Event =
    | Connect(requested: seq<string>)
    | SocketOpened
    | SocketClosed
    | TimerExpired
    | Disconnect
    | UpdateSymbols(requested: seq<string>)

  /** `convertBinanceTickerData`'s result: an Upbit-shaped ticker plus the stream's extra fields. */
  datatype PushTicker = PushTicker(ticker: Ticker, highPrice: real, lowPrice: real, tradeVolume: real, timestamp: int)

  /** The state right after construction. */
  function Initial(): (s: Service)
    ensures s.socket == NoSocket && s.timer == NoTimer && s.symbols == []
    ensures !s.isConnecting && s.reconnectAttempts == 0
  {
    Service(NoSocket, NoTimer, [], false, 0)
  }

  function UpperAll(symbols: seq<string>): (r: seq<string>)
    ensures |r| == |symbols|
    ensures forall i :: 0 <= i < |r| ==> r[i] == Strings.ToUpper(symbols[i])
  {
    seq(|symbols|, i requires 0 <= i < |symbols| => Strings.ToUpper(symbols[i]))
  }

  lemma UpperAllIdempotent(symbols: seq<string>)
    ensures UpperAll(UpperAll(symbols)) == UpperAll(symbols)
  {
    forall i | 0 <= i < |symbols|
      ensures Strings.ToUpper(Strings.ToUpper(symbols[i])) == Strings.ToUpper(symbols[i])
    {
      Strings.ToUpperIdempotent(symbols[i]);
    }
  }

  /**
   * `connect(symbols)`: ignored while a connection attempt is in flight;
   * otherwise reuses an open socket or starts a new one.
   */
  function ConnectTo(s: Service, requested: seq<string>): (r: Service)
    ensures s.isConnecting ==> r == s
    ensures !s.isConnecting ==> r.symbols == UpperAll(requested) && r.timer == s.timer
    ensures !s.isConnecting && s.socket == Open ==> r.socket == Open && !r.isConnecting
    ensures !s.isConnecting && s.socket != Open ==> r.socket == Connecting && r.isConnecting
    ensures r.reconnectAttempts == s.reconnectAttempts
  {
    if s.isConnecting then s
    else
      var s1 := s.(isConnecting := true, symbols := UpperAll(requested));
      if s1.socket == Open then s1.(isConnecting := false)
      else s1.(socket := Connecting)
  }

  /** `onopen`: the attempt finished and the reconnect counter starts over. */
  function HandleOpen(s: Service): (r: Service)
    ensures r.socket == Open && !r.isConnecting && r.reconnectAttempts == 0
    ensures r.timer == s.timer && r.symbols == s.symbols
  {
    s.(socket := Open, isConnecting := false, reconnectAttempts := 0)
  }

  /** `onclose`: a reconnect is scheduled only while attempts remain. */
  function HandleClose(s: Service): (r: Service)
    ensures !r.isConnecting && r.reconnectAttempts == s.reconnectAttempts && r.symbols == s.symbols
    ensures s.reconnectAttempts < MaxReconnectAttempts ==> r.timer == Scheduled
    ensures s.reconnectAttempts >= MaxReconnectAttempts ==> r.timer == s.timer
  {
    var s1 := s.(isConnecting := false, socket := if s.socket == NoSocket then NoSocket else Closed);
    if s1.reconnectAttempts < MaxReconnectAttempts then s1.(timer := Scheduled) else s1
  }

  /** The reconnect timer's callback: count the attempt, then `connect(this.symbols)`. */
  function HandleTimer(s: Service): (r: Service)
    ensures s.timer != Scheduled ==> r == s
    ensures s.timer == Scheduled ==> r.reconnectAttempts == s.reconnectAttempts + 1 && r.timer == Spent
    ensures s.timer == Scheduled && s.isConnecting ==>
              r.symbols == s.symbols && r.socket == s.socket && r.isConnecting
    ensures s.timer == Scheduled && !s.isConnecting ==> r.symbols == UpperAll(s.symbols)
    ensures s.timer == Scheduled && !s.isConnecting && s.socket == Open ==> r.socket == Open && !r.isConnecting
    ensures s.timer == Scheduled && !s.isConnecting && s.socket != Open ==> r.socket == Connecting && r.isConnecting
  {
    if s.timer != Scheduled then s
    else
      var s1 := s.(reconnectAttempts := s.reconnectAttempts + 1, timer := Spent);
      ConnectTo(s1, s1.symbols)
  }

  /** `disconnect`: the socket is closed and dropped, a pending reconnect is cancelled. */
  function Disconnected(s: Service): (r: Service)
    ensures r.socket == NoSocket && r.timer == NoTimer
    ensures r.symbols == s.symbols && r.isConnecting == s.isConnecting
    ensures r.reconnectAttempts == s.reconnectAttempts
  {
    s.(socket := NoSocket, timer := NoTimer)
  }

  /** The default string order of `Array.prototype.sort`. */
  function SortStrings(xs: seq<string>): (r: seq<string>)
    ensures multiset(r) == multiset(xs)
    ensures Sorting.Sorted(r, Strings.LexLe)
  {
    LexLeIsOrder();
    Sorting.SortSorted(xs, Strings.LexLe);
    Sorting.Sort(xs, Strings.LexLe)
  }

  lemma LexLeIsOrder()
    ensures Sorting.TotalPreorder(Strings.LexLe)
    ensures Sorting.Antisymmetric(Strings.LexLe)
  {
    forall a, b
      ensures Strings.LexLe(a, b) || Strings.LexLe(b, a)
    {
      Strings.LexLeTotal(a, b);
    }
    forall a, b, c | Strings.LexLe(a, b) && Strings.LexLe(b, c)
      ensures Strings.LexLe(a, c)
    {
      Strings.LexLeTransitive(a, b, c);
    }
    forall a, b | Strings.LexLe(a, b) && Strings.LexLe(b, a)
      ensures a == b
    {
      Strings.LexLeAntisymmetric(a, b);
    }
  }

  /**
   * `hasSymbolsChanged`: different lengths, or some position where the two
   * sorted lists differ. This is exactly "not the same multiset".
   */
  function HasSymbolsChanged(oldSymbols: seq<string>, newSymbols: seq<string>): (changed: bool)
    ensures changed <==> multiset(oldSymbols) != multiset(newSymbols)
  {
    if |oldSymbols| != |newSymbols| then
      assert |multiset(oldSymbols)| != |multiset(newSymbols)|;
      true
    else
      var sortedOld, sortedNew := SortStrings(oldSymbols), SortStrings(newSymbols);
      var differ := exists i :: 0 <= i < |sortedOld| && sortedOld[i] != sortedNew[i];
      assert !differ ==> sortedOld == sortedNew;
      assert multiset(oldSymbols) == multiset(newSymbols) ==> sortedOld == sortedNew by {
        if multiset(oldSymbols) == multiset(newSymbols) {
          LexLeIsOrder();
          Sorting.SortedPermutationsEqual(sortedOld, sortedNew, Strings.LexLe);
        }
      }
      differ
  }

  /**
   * `updateSymbols`: upper-cases the request and does nothing when it is a
   * permutation of the current list; otherwise stores it, drops an open
   * socket and connects unless an attempt is already in flight.
   */
  function UpdateSymbolsTo(s: Service, requested: seq<string>): (r: Service)
    ensures multiset(UpperAll(requested)) == multiset(s.symbols) ==> r == s
    ensures multiset(UpperAll(requested)) != multiset(s.symbols) ==> r.symbols == UpperAll(requested)
    ensures r.reconnectAttempts == s.reconnectAttempts
  {
    var newSymbols := UpperAll(requested);
    if !HasSymbolsChanged(s.symbols, newSymbols) then s
    else
      var s1 := s.(symbols := newSymbols);
      var s2 := if s1.socket == Open then Disconnected(s1) else s1;
      UpperAllIdempotent(requested);
      if !s2.isConnecting then ConnectTo(s2, newSymbols) else s2
  }

  function Step(s: Service, e: Event): Service {
    match e
    case Connect(requested) => ConnectTo(s, requested)
    case SocketOpened => HandleOpen(s)
    case SocketClosed => HandleClose(s)
    case TimerExpired => HandleTimer(s)
    case Disconnect => Disconnected(s)
    case UpdateSymbols(requested) => UpdateSymbolsTo(s, requested)
  }

  function Run(s: Service, events: seq<Event>): Service
    decreases |events|
  {
    if |events| == 0 then s else Run(Step(s, events[0]), events[1..])
  }

  /** The counter never passes the cap, and a scheduled reconnect always has an attempt left. */
  predicate AttemptsBounded(s: Service) {
    s.reconnectAttempts <= MaxReconnectAttempts
    && (s.timer == Scheduled ==> s.reconnectAttempts < MaxReconnectAttempts)
  }

  lemma StepKeepsAttemptsBounded(s: Service, e: Event)
    requires AttemptsBounded(s)
    ensures AttemptsBounded(Step(s, e))
  {
  }

  /** Whatever the order of connects, opens, closes and timer expiries, at most five reconnects are counted. */
  lemma {:induction false} RunKeepsAttemptsBounded(s: Service, events: seq<Event>)
    requires AttemptsBounded(s)
    ensures AttemptsBounded(Run(s, events))
    ensures Run(s, events).reconnectAttempts <= MaxReconnectAttempts
    decreases |events|
  {
    if |events| > 0 {
      StepKeepsAttemptsBounded(s, events[0]);
      RunKeepsAttemptsBounded(Step(s, events[0]), events[1..]);
    }
  }

  /** From a fresh service the counter stays within 0..5. */
  lemma FromInitialAttemptsBounded(events: seq<Event>)
    ensures Run(Initial(), events).reconnectAttempts <= MaxReconnectAttempts
  {
    RunKeepsAttemptsBounded(Initial(), events);
  }

  /** `convertBinanceTickerData`: null for a missing message or symbol, else an Upbit-shaped ticker. */
  function ConvertTickerData(data: Option<StreamTicker>): (r: Option<PushTicker>)
    ensures data.None? || data.value.symbol == "" ==> r.None?
    ensures data.Some? && data.value.symbol != "" ==>
              && r.Some?
              && r.value.ticker.market == data.value.symbol
              && r.value.ticker.tradePrice == data.value.lastPrice
              && r.value.ticker.prevClosingPrice == data.value.prevClosePrice
              && (r.value.ticker.change == Rise <==> data.value.priceChange > 0.0)
              && (r.value.ticker.change == Fall <==> data.value.priceChange < 0.0)
              && r.value.ticker.changePrice >= 0.0 && r.value.ticker.changeRate >= 0.0
              && SignedAmount(r.value.ticker.change, r.value.ticker.changePrice) == data.value.priceChange
              && (data.value.priceChange == 0.0 ==> r.value.ticker.changePrice == 0.0)
              && r.value.ticker.signedChangeRate * 100.0 == data.value.priceChangePercent
              && (r.value.ticker.changeRate == r.value.ticker.signedChangeRate
                  || r.value.ticker.changeRate == -r.value.ticker.signedChangeRate)
              && r.value.ticker.accTradePrice == r.value.ticker.accTradePrice24h == Some(data.value.quoteVolume)
              && r.value.highPrice == data.value.highPrice && r.value.lowPrice == data.value.lowPrice
              && r.value.tradeVolume == data.value.volume && r.value.timestamp == data.value.eventTime
  {
    match data
    case None => None
    case Some(d) =>
      if d.symbol == "" then None
      else
        var rate := d.priceChangePercent / 100.0;
        ChangeRoundTrip(d.priceChange);
        Some(PushTicker(
          Ticker(
            market := d.symbol,
            tradePrice := d.lastPrice,
            prevClosingPrice := d.prevClosePrice,
            change := ChangeOf(d.priceChange),
            changePrice := Abs(d.priceChange),
            changeRate := Abs(rate),
            signedChangeRate := rate,
            accTradePrice := Some(d.quoteVolume),
            accTradePrice24h := Some(d.quoteVolume)),
          d.highPrice, d.lowPrice, d.volume, d.eventTime))
  }
}

=== FILE: coin_slice.dfy ===
/** The coin reducer: the unified table as last delivered, the selected market, and loading and error flags. */
module CoinSlice {
  import opened Wrappers
  import opened Types

  datatype State = State(
    unifiedCoins: seq<Coin>,
    selectedCoin: Option<string>,
    loading: bool,
    error: Option<string>)

  datatype Action =
    | SetUnifiedCoins(coins: seq<Coin>)
    | SelectCoin(symbol: string)
    | SetLoading(isLoading: bool)
    | SetError(message: Option<string>)

  /** Before the first delivery: no coins, nothing selected, loading, no error. */
  function Initial(): (s: State)
    ensures s.unifiedCoins == [] && s.selectedCoin.None? && s.loading && s.error.None?
  {
    State([], None, true, None)
  }

  /** The four reducers; each writes only the fields its action names. */
  function Reduce(s: State, a: Action): (r: State)
    ensures a.SetUnifiedCoins? ==>
              r.unifiedCoins == a.coins && !r.loading && r.error.None? && r.selectedCoin == s.selectedCoin
    ensures a.SelectCoin? ==>
              r.selectedCoin == Some(a.symbol)
              && r.unifiedCoins == s.unifiedCoins && r.loading == s.loading && r.error == s.error
    ensures a.SetLoading? ==>
              r.loading == a.isLoading
              && r.unifiedCoins == s.unifiedCoins && r.selectedCoin == s.selectedCoin && r.error == s.error
    ensures a.SetError? ==>
              r.error == a.message
              && r.unifiedCoins == s.unifiedCoins && r.selectedCoin == s.selectedCoin && r.loading == s.loading
  {
    match a
    case SetUnifiedCoins(coins) => s.(unifiedCoins := coins, loading := false, error := None)
    case SelectCoin(symbol) => s.(selectedCoin := Some(symbol))
    case SetLoading(isLoading) => s.(loading := isLoading)
    case SetError(message) => s.(error := message)
  }

  function ReduceAll(s: State, actions: seq<Action>): State
    decreases |actions|
  {
    if |actions| == 0 then s else ReduceAll(Reduce(s, actions[0]), actions[1..])
  }

  /** Data, loading and error actions never change the selection. */
  lemma {:induction false} SelectionSurvives(s: State, actions: seq<Action>)
    requires forall a :: a in actions ==> !a.SelectCoin?
    ensures ReduceAll(s, actions).selectedCoin == s.selectedCoin
    decreases |actions|
  {
    if |actions| > 0 {
      assert actions[0] in actions;
      assert forall a :: a in actions[1..] ==> a in actions;
      SelectionSurvives(Reduce(s, actions[0]), actions[1..]);
    }
  }

  /** Whatever came before, a delivery ending a run of actions leaves the table loaded and error-free. */
  lemma {:induction false} LastDeliveryWins(s: State, actions: seq<Action>, coins: seq<Coin>)
    ensures var r := ReduceAll(s, actions + [SetUnifiedCoins(coins)]);
            r.unifiedCoins == coins && !r.loading && r.error.None?
    decreases |actions|
  {
    if |actions| > 0 {
      assert (actions + [SetUnifiedCoins(coins)])[1..] == actions[1..] + [SetUnifiedCoins(coins)];
      LastDeliveryWins(Reduce(s, actions[0]), actions[1..], coins);
    } else {
      assert actions + [SetUnifiedCoins(coins)] == [SetUnifiedCoins(coins)];
    }
  }
}

=== FILE: data_manager.dfy ===
/**
 * `DataManager`: the main feed's coin table. Markets of both exchanges are
 * folded into a coin mapping keyed by canonical coin symbol; tickers are
 * merged into one entry per key, sorted by volume; bulk polls refresh the
 * entries in place and single push messages refresh one side of one entry.
 * Sockets, timers and fetches are not run: their results are parameters.
 */
module DataManager {
  import opened Wrappers
  import opened Js
  import opened Types
  import Strings
  import Seqs
  import Sorting
  import BinanceApi
  import SymbolMatcher
  import BinanceSocket

  /** A bulk poll asks Binance for the first this-many listed symbols only. */
  const PolledBinanceLimit: nat := 100

  // ---------------------------------------------------------------------------
  // extractCoinSymbol

  /**
   * This module's `extractCoinSymbol`: a `KRW-` prefix is dropped; otherwise a
   * symbol ending in `USDT` loses the FIRST `USDT` it contains (`replace`),
   * which is the suffix only when no earlier `USDT` occurs.
   */
  function ExtractCoinSymbol(symbol: string): string {
    if Strings.StartsWith(symbol, "KRW-") then Strings.ReplaceFirst(symbol, "KRW-", "")
    else if Strings.EndsWith(symbol, "USDT") then Strings.ReplaceFirst(symbol, "USDT", "")
    else symbol
  }

  /** The three cases of `extractCoinSymbol`. */
  lemma ExtractCoinSymbolCases(symbol: string)
    ensures Strings.StartsWith(symbol, "KRW-") ==> ExtractCoinSymbol(symbol) == symbol[4..]
    ensures !Strings.StartsWith(symbol, "KRW-") && Strings.EndsWith(symbol, "USDT") ==>
              && Strings.IndexOf(symbol, "USDT").Some?
              && var i := Strings.IndexOf(symbol, "USDT").value;
                 ExtractCoinSymbol(symbol) == symbol[..i] + symbol[i + 4..]
    ensures !Strings.StartsWith(symbol, "KRW-") && !Strings.EndsWith(symbol, "USDT") ==> ExtractCoinSymbol(symbol) == symbol
  {
    if Strings.StartsWith(symbol, "KRW-") {
      Strings.ReplacePrefix(symbol, "KRW-");
    } else if Strings.EndsWith(symbol, "USDT") {
      assert Strings.OccursAt(symbol, "USDT", |symbol| - 4);
    }
  }

  /** Prefixing `KRW-` and extracting gives the coin back. */
  lemma ExtractKrwMarket(coin: string)
    ensures ExtractCoinSymbol("KRW-" + coin) == coin
  {
    ExtractCoinSymbolCases("KRW-" + coin);
    assert ("KRW-" + coin)[..4] == "KRW-";
    assert ("KRW-" + coin)[4..] == coin;
  }

  /** A `USDT` pair whose base contains no `USDT` extracts to its base. */
  lemma ExtractUsdtPair(base: string)
    requires !Strings.StartsWith(base + "USDT", "KRW-")
    requires forall j: nat :: j < |base| ==> !Strings.OccursAt(base + "USDT", "USDT", j)
    ensures ExtractCoinSymbol(base + "USDT") == base
  {
    var s := base + "USDT";
    assert s[|s| - 4..] == "USDT";
    ExtractCoinSymbolCases(s);
    assert Strings.OccursAt(s, "USDT", |base|);
    var i := Strings.IndexOf(s, "USDT").value;
    assert i == |base|;
    assert s[..i] == base;
  }

  /** `replace` takes the first `USDT`, so a base starting with `USDT` keeps its suffix. */
  lemma ExtractDropsFirstUsdt()
    ensures ExtractCoinSymbol("USDTBUSDT") == "BUSDT"
  {
    var s := "USDTBUSDT";
    assert !Strings.StartsWith(s, "KRW-") by { assert s[..4] != "KRW-" by { assert s[0] != 'K'; } }
    assert s[|s| - 4..] == "USDT";
    ExtractCoinSymbolCases(s);
    assert Strings.OccursAt(s, "USDT", 0) by { assert s[0..4] == "USDT"; }
    assert Strings.IndexOf(s, "USDT").value == 0;
    assert s[4..] == "BUSDT";
  }

  /** On Upbit `KRW-` codes the two extractors agree. */
  lemma ExtractorsAgreeOnKrw(code: string)
    requires Strings.StartsWith(code, "KRW-")
    ensures ExtractCoinSymbol(code) == SymbolMatcher.ExtractCoinSymbol(code)
  {
    ExtractCoinSymbolCases(code);
    SymbolMatcher.ExtractCoinSymbolCases(code);
  }

  /** On a Binance symbol they differ: only this module strips `USDT`. */
  lemma ExtractorsDifferOnUsdt()
    ensures ExtractCoinSymbol("BTCUSDT") == "BTC"
    ensures SymbolMatcher.ExtractCoinSymbol("BTCUSDT") == "BTCUSDT"
  {
    var s := "BTCUSDT";
    assert !Strings.StartsWith(s, "KRW-") by { assert s[0] != 'K'; }
    assert s[|s| - 4..] == "USDT";
    assert "BTC" + "USDT" == s;
    forall j: nat | j < 3
      ensures !Strings.OccursAt(s, "USDT", j)
    {
      assert s[j..j + 4][0] == s[j];
      assert s[j] != 'U';
    }
    ExtractUsdtPair("BTC");
    forall j: nat
      ensures !Strings.OccursAt(s, "KRW-", j)
    {
      if j + 4 <= |s| {
        assert s[j..j + 4][0] == s[j];
        assert s[j] != 'K';
      }
    }
    SymbolMatcher.ExtractCoinSymbolCases(s);
  }

  // ---------------------------------------------------------------------------
  // createDynamicMapping

  datatype Exchange = Upbit | Binance

  function Other(ex: Exchange): Exchange {
    match ex
    case Upbit => Binance
    case Binance => Upbit
  }

  /** `SymbolMapping`: the market code on each exchange, when one was seen. */
  datatype SymbolMapping = SymbolMapping(upbit: Option<string>, binance: Option<string>)

  function SideOf(s: SymbolMapping, ex: Exchange): Option<string> {
    match ex
    case Upbit => s.upbit
    case Binance => s.binance
  }

  function WithSide(s: SymbolMapping, ex: Exchange, code: string): (r: SymbolMapping)
    ensures SideOf(r, ex) == Some(code) && SideOf(r, Other(ex)) == SideOf(s, Other(ex))
  {
    match ex
    case Upbit => s.(upbit := Some(code))
    case Binance => s.(binance := Some(code))
  }

  /** The `Map<string, SymbolMapping>`: its entries plus its insertion order. */
  datatype CoinMapping = CoinMapping(order: seq<string>, entries: map<string, SymbolMapping>)

  /** The order lists every key exactly once. */
  ghost predicate WellFormed(m: CoinMapping) {
    Seqs.NoDuplicates(m.order) && (forall k :: k in m.order <==> k in m.entries)
  }

  function EmptyMapping(): (m: CoinMapping)
    ensures WellFormed(m) && m.entries == map[]
  {
    CoinMapping([], map[])
  }

  /** A market code together with the key `extractCoinSymbol` gives it. */
  datatype Keyed = Keyed(key: string, code: string)

  function KeyedCodes(codes: seq<string>): (r: seq<Keyed>)
    ensures |r| == |codes| && forall i :: 0 <= i < |codes| ==> r[i] == Keyed(ExtractCoinSymbol(codes[i]), codes[i])
  {
    seq(|codes|, i requires 0 <= i < |codes| => Keyed(ExtractCoinSymbol(codes[i]), codes[i]))
  }

  function KeysOf(kcs: seq<Keyed>): set<string> {
    set kc | kc in kcs :: kc.key
  }

  /** The last code in `kcs` with key `key`: the one whose write survives. */
  function LastWith(kcs: seq<Keyed>, key: string): (r: Option<string>)
    ensures r.None? <==> forall i :: 0 <= i < |kcs| ==> kcs[i].key != key
    ensures r.Some? ==>
              exists i :: 0 <= i < |kcs| && kcs[i] == Keyed(key, r.value)
                && forall j :: i < j < |kcs| ==> kcs[j].key != key
  {
    if |kcs| == 0 then None
    else if kcs[|kcs| - 1].key == key then Some(kcs[|kcs| - 1].code)
    else LastWith(kcs[..|kcs| - 1], key)
  }

  lemma LastWithKeys(kcs: seq<Keyed>, key: string)
    ensures LastWith(kcs, key).Some? <==> key in KeysOf(kcs)
  {
    if key in KeysOf(kcs) {
      var kc :| kc in kcs && kc.key == key;
      var i :| 0 <= i < |kcs| && kcs[i] == kc;
    }
  }

  /** One step of `forEach`: create the key if new, then set this exchange's code. */
  function Assign(m: CoinMapping, ex: Exchange, kc: Keyed): (r: CoinMapping)
    requires WellFormed(m)
    ensures WellFormed(r)
    ensures r.entries.Keys == m.entries.Keys + {kc.key}
    ensures |m.order| <= |r.order| && r.order[..|m.order|] == m.order
    ensures SideOf(r.entries[kc.key], ex) == Some(kc.code)
    ensures forall k :: k in m.entries && k != kc.key ==> r.entries[k] == m.entries[k]
    ensures forall k :: k in m.entries ==> SideOf(r.entries[k], Other(ex)) == SideOf(m.entries[k], Other(ex))
    ensures kc.key !in m.entries ==> SideOf(r.entries[kc.key], Other(ex)).None?
  {
    if kc.key in m.entries then
      CoinMapping(m.order, m.entries[kc.key := WithSide(m.entries[kc.key], ex, kc.code)])
    else
      assert (m.order + [kc.key])[..|m.order|] == m.order;
      CoinMapping(m.order + [kc.key], m.entries[kc.key := WithSide(SymbolMapping(None, None), ex, kc.code)])
  }

  /** `forEach` over the codes: assigned in order, so the last write per key wins. */
  function AssignAll(m: CoinMapping, ex: Exchange, kcs: seq<Keyed>): (r: CoinMapping)
    requires WellFormed(m)
    ensures WellFormed(r)
    ensures |m.order| <= |r.order| && r.order[..|m.order|] == m.order
    decreases |kcs|
  {
    if |kcs| == 0 then m
    else
      var m1 := AssignAll(m, ex, kcs[..|kcs| - 1]);
      var r := Assign(m1, ex, kcs[|kcs| - 1]);
      assert r.order[..|m.order|] == r.order[..|m1.order|][..|m.order|];
      r
  }

  lemma KeysOfSnoc(kcs: seq<Keyed>)
    requires |kcs| > 0
    ensures KeysOf(kcs) == KeysOf(kcs[..|kcs| - 1]) + {kcs[|kcs| - 1].key}
  {
    assert kcs == kcs[..|kcs| - 1] + [kcs[|kcs| - 1]];
  }

  /** The keys after assigning are the old keys plus the codes' keys. */
  lemma {:induction false} AssignAllKeys(m: CoinMapping, ex: Exchange, kcs: seq<Keyed>)
    requires WellFormed(m)
    ensures AssignAll(m, ex, kcs).entries.Keys == m.entries.Keys + KeysOf(kcs)
    decreases |kcs|
  {
    if |kcs| > 0 {
      var init := kcs[..|kcs| - 1];
      AssignAllKeys(m, ex, init);
      KeysOfSnoc(kcs);
      assert AssignAll(m, ex, kcs) == Assign(AssignAll(m, ex, init), ex, kcs[|kcs| - 1]);
    }
  }

  /** Last write wins on this exchange's side; keys the codes do not touch keep their entry. */
  lemma {:induction false} AssignAllSide(m: CoinMapping, ex: Exchange, kcs: seq<Keyed>, key: string)
    requires WellFormed(m)
    requires key in m.entries || LastWith(kcs, key).Some?
    ensures key in AssignAll(m, ex, kcs).entries
    ensures LastWith(kcs, key).Some? ==> SideOf(AssignAll(m, ex, kcs).entries[key], ex) == LastWith(kcs, key)
    ensures LastWith(kcs, key).None? ==> AssignAll(m, ex, kcs).entries[key] == m.entries[key]
    decreases |kcs|
  {
    if |kcs| > 0 {
      var init := kcs[..|kcs| - 1];
      if kcs[|kcs| - 1].key != key || key in m.entries || LastWith(init, key).Some? {
        AssignAllSide(m, ex, init, key);
      }
    }
  }

  /** The other exchange's side is untouched on old keys and empty on new ones. */
  lemma {:induction false} AssignAllOtherSide(m: CoinMapping, ex: Exchange, kcs: seq<Keyed>, key: string)
    requires WellFormed(m)
    requires key in AssignAll(m, ex, kcs).entries
    ensures key in m.entries ==>
              SideOf(AssignAll(m, ex, kcs).entries[key], Other(ex)) == SideOf(m.entries[key], Other(ex))
    ensures key !in m.entries ==> SideOf(AssignAll(m, ex, kcs).entries[key], Other(ex)).None?
    decreases |kcs|
  {
    if |kcs| > 0 {
      var init := kcs[..|kcs| - 1];
      var m1 := AssignAll(m, ex, init);
      if key in m1.entries {
        AssignAllOtherSide(m, ex, init, key);
      } else {
        AssignAllKeys(m, ex, init);
      }
    }
  }

  function KeyList(kcs: seq<Keyed>): (r: seq<string>)
    ensures |r| == |kcs| && forall i :: 0 <= i < |kcs| ==> r[i] == kcs[i].key
  {
    seq(|kcs|, i requires 0 <= i < |kcs| => kcs[i].key)
  }

  /** A key enters the insertion order when first written; later writes leave the order alone. */
  lemma {:induction false} AssignAllOrder(m: CoinMapping, ex: Exchange, kcs: seq<Keyed>)
    requires WellFormed(m)
    ensures AssignAll(m, ex, kcs).order == Seqs.AppendNew(m.order, KeyList(kcs))
    decreases |kcs|
  {
    if |kcs| > 0 {
      var init := kcs[..|kcs| - 1];
      AssignAllOrder(m, ex, init);
      assert KeyList(kcs)[..|kcs| - 1] == KeyList(init);
      assert AssignAll(m, ex, kcs) == Assign(AssignAll(m, ex, init), ex, kcs[|kcs| - 1]);
    }
  }

  function MarketSymbols(ms: seq<SymbolInfo>): (r: seq<string>)
    ensures |r| == |ms| && forall i :: 0 <= i < |ms| ==> r[i] == ms[i].symbol
  {
    seq(|ms|, i requires 0 <= i < |ms| => ms[i].symbol)
  }

  /** The canonical symbols of a list of market codes. */
  function CanonicalSymbols(codes: seq<string>): (r: set<string>)
    ensures r == KeysOf(KeyedCodes(codes))
  {
    var kcs := KeyedCodes(codes);
    assert forall c :: c in codes ==> Keyed(ExtractCoinSymbol(c), c) in kcs by {
      forall c | c in codes ensures Keyed(ExtractCoinSymbol(c), c) in kcs {
        var i :| 0 <= i < |codes| && codes[i] == c;
        assert kcs[i] == Keyed(ExtractCoinSymbol(c), c);
      }
    }
    set c | c in codes :: ExtractCoinSymbol(c)
  }

  /** The last code in `codes` whose canonical symbol is `key`. */
  function LastCodeFor(codes: seq<string>, key: string): (r: Option<string>)
    ensures r.None? <==> forall i :: 0 <= i < |codes| ==> ExtractCoinSymbol(codes[i]) != key
    ensures r.Some? ==>
              exists i :: 0 <= i < |codes| && codes[i] == r.value && ExtractCoinSymbol(codes[i]) == key
                && forall j :: i < j < |codes| ==> ExtractCoinSymbol(codes[j]) != key
  {
    var kcs := KeyedCodes(codes);
    var r := LastWith(kcs, key);
    assert r.None? <==> forall i :: 0 <= i < |codes| ==> ExtractCoinSymbol(codes[i]) != key by {
      assert forall i :: 0 <= i < |codes| ==> kcs[i].key == ExtractCoinSymbol(codes[i]);
    }
    r
  }

  /**
   * `createDynamicMapping`: Upbit codes first, then Binance symbols, each
   * keyed by its canonical symbol. The key set is exactly the canonical
   * symbols seen, and each side holds the LAST code seen for that key.
   */
  function CreateDynamicMapping(upbitMarkets: seq<UpbitMarket>, binanceMarkets: seq<SymbolInfo>): (r: CoinMapping)
    ensures WellFormed(r)
    ensures r.entries.Keys == CanonicalSymbols(SymbolMatcher.MarketCodes(upbitMarkets)) + CanonicalSymbols(MarketSymbols(binanceMarkets))
    ensures forall k :: k in r.entries ==>
              && r.entries[k].upbit == LastCodeFor(SymbolMatcher.MarketCodes(upbitMarkets), k)
              && r.entries[k].binance == LastCodeFor(MarketSymbols(binanceMarkets), k)
  {
    var upbitCodes := KeyedCodes(SymbolMatcher.MarketCodes(upbitMarkets));
    var binanceCodes := KeyedCodes(MarketSymbols(binanceMarkets));
    var m1 := AssignAll(EmptyMapping(), Upbit, upbitCodes);
    var r := AssignAll(m1, Binance, binanceCodes);
    AssignAllKeys(EmptyMapping(), Upbit, upbitCodes);
    AssignAllKeys(m1, Binance, binanceCodes);
    forall k | k in r.entries
      ensures r.entries[k].upbit == LastWith(upbitCodes, k)
      ensures r.entries[k].binance == LastWith(binanceCodes, k)
    {
      LastWithKeys(upbitCodes, k);
      LastWithKeys(binanceCodes, k);
      AssignAllOtherSide(m1, Binance, binanceCodes, k);
      if k in m1.entries {
        AssignAllSide(EmptyMapping(), Upbit, upbitCodes, k);
        AssignAllOtherSide(EmptyMapping(), Upbit, upbitCodes, k);
      }
      AssignAllSide(m1, Binance, binanceCodes, k);
    }
    r
  }

  /** The canonical symbol of each code, in order. */
  function CanonicalList(codes: seq<string>): (r: seq<string>)
    ensures |r| == |codes| && forall i :: 0 <= i < |codes| ==> r[i] == ExtractCoinSymbol(codes[i])
  {
    seq(|codes|, i requires 0 <= i < |codes| => ExtractCoinSymbol(codes[i]))
  }

  /**
   * The mapping's insertion order lists each canonical symbol once, at its
   * first occurrence among the Upbit codes followed by the Binance symbols.
   */
  lemma CreateDynamicMappingOrder(upbitMarkets: seq<UpbitMarket>, binanceMarkets: seq<SymbolInfo>)
    ensures var keys := CanonicalList(SymbolMatcher.MarketCodes(upbitMarkets)) + CanonicalList(MarketSymbols(binanceMarkets));
            var order := CreateDynamicMapping(upbitMarkets, binanceMarkets).order;
            && order == Seqs.Dedup(keys)
            && forall i, j :: 0 <= i < j < |order| ==> Seqs.OccursBefore(keys, order[i], order[j])
  {
    var upbitCodes := KeyedCodes(SymbolMatcher.MarketCodes(upbitMarkets));
    var binanceCodes := KeyedCodes(MarketSymbols(binanceMarkets));
    var m1 := AssignAll(EmptyMapping(), Upbit, upbitCodes);
    AssignAllOrder(EmptyMapping(), Upbit, upbitCodes);
    AssignAllOrder(m1, Binance, binanceCodes);
    assert KeyList(upbitCodes) == CanonicalList(SymbolMatcher.MarketCodes(upbitMarkets));
    assert KeyList(binanceCodes) == CanonicalList(MarketSymbols(binanceMarkets));
    Seqs.AppendNewAppend([], KeyList(upbitCodes), KeyList(binanceCodes));
    Seqs.DedupFirstOccurrences(KeyList(upbitCodes) + KeyList(binanceCodes));
  }

  // ---------------------------------------------------------------------------
  // createUnifiedData

  /** `mapping.upbit ? ... : null`: an absent or empty code is falsy. */
  predicate JsPresent(code: Option<string>) {
    code.Some? && code.value != ""
  }

  /** The ticker for a mapped code, looked up only when the code is truthy. */
  function Lookup(tickers: seq<Ticker>, code: Option<string>): (r: Option<Ticker>)
    ensures !JsPresent(code) ==> r.None?
    ensures JsPresent(code) ==> r == FindTicker(tickers, code.value)
  {
    if JsPresent(code) then FindTicker(tickers, code.value) else None
  }

  /**
   * A side built from a ticker; the volume is `acc_trade_price_24h`, or
   * `acc_trade_price` when the former is missing or 0.
   */
  function TickerSide(t: Ticker): (s: Side)
    ensures s.symbol == t.market && s.price == t.tradePrice && s.change == t.change
    ensures s.changeRate == t.changeRate && s.changePrice == t.changePrice
    ensures Truthy(t.accTradePrice24h) ==> s.tradeVolume == t.accTradePrice24h
    ensures !Truthy(t.accTradePrice24h) ==> s.tradeVolume == t.accTradePrice
  {
    Side(t.market, t.tradePrice, t.change, t.changeRate, t.changePrice, Or(t.accTradePrice24h, t.accTradePrice))
  }

  predicate IsMarket(m: UpbitMarket, code: string) {
    m.market == code
  }

  /** `getCoinName`: the Korean name of the first Upbit listing of the ticker's market, else the symbol. */
  function CoinName(coinSymbol: string, upbitMarkets: seq<UpbitMarket>, upbitData: Option<Ticker>): (name: string)
    ensures upbitData.None? ==> name == coinSymbol
    ensures upbitData.Some? && (forall m :: m in upbitMarkets ==> m.market != upbitData.value.market) ==>
              name == coinSymbol
    ensures upbitData.Some? && (exists m :: m in upbitMarkets && m.market == upbitData.value.market) ==>
              exists i :: 0 <= i < |upbitMarkets| && upbitMarkets[i].market == upbitData.value.market
                && name == upbitMarkets[i].koreanName
                && forall j :: 0 <= j < i ==> upbitMarkets[j].market != upbitData.value.market
  {
    match upbitData
    case None => coinSymbol
    case Some(t) =>
      match Seqs.Find(upbitMarkets, m => IsMarket(m, t.market))
      case Some(m) => m.koreanName
      case None => coinSymbol
  }

  /** The entry `createUnifiedData` builds for one key, or none when neither ticker was found. */
  function EntryFor(
    m: CoinMapping, key: string, upbitMarkets: seq<UpbitMarket>,
    upbitTickers: seq<Ticker>, binanceTickers: seq<Ticker>): (r: Option<Coin>)
    requires key in m.entries
    ensures r.Some? <==>
              Lookup(upbitTickers, m.entries[key].upbit).Some? || Lookup(binanceTickers, m.entries[key].binance).Some?
    ensures r.Some? ==>
              && r.value.coinSymbol == key
              && (r.value.upbit.Some? || r.value.binance.Some?)
              && VolumeConsistent(r.value)
              && (r.value.upbit.Some? <==> Lookup(upbitTickers, m.entries[key].upbit).Some?)
              && (r.value.binance.Some? <==> Lookup(binanceTickers, m.entries[key].binance).Some?)
              && (r.value.upbit.Some? ==> r.value.upbit.value.symbol == m.entries[key].upbit.value)
              && (r.value.binance.Some? ==> r.value.binance.value.symbol == m.entries[key].binance.value)
  {
    var mapping := m.entries[key];
    var upbitData := Lookup(upbitTickers, mapping.upbit);
    var binanceData := Lookup(binanceTickers, mapping.binance);
    if upbitData.None? && binanceData.None? then None
    else
      var upbit := match upbitData case Some(t) => Some(TickerSide(t)) case None => None;
      var binance := match binanceData case Some(t) => Some(TickerSide(t)) case None => None;
      Some(Coin(key, CoinName(key, upbitMarkets, upbitData), upbit, binance, DerivedMaxVolume(upbit, binance)))
  }

  /** The entries for `keys`, in key order; keys without tickers are skipped. */
  function Entries(
    m: CoinMapping, keys: seq<string>, upbitMarkets: seq<UpbitMarket>,
    upbitTickers: seq<Ticker>, binanceTickers: seq<Ticker>): (r: seq<Coin>)
    requires forall k :: k in keys ==> k in m.entries
    ensures forall c :: c in r ==>
              c.coinSymbol in keys && EntryFor(m, c.coinSymbol, upbitMarkets, upbitTickers, binanceTickers) == Some(c)
    ensures forall k :: k in keys && EntryFor(m, k, upbitMarkets, upbitTickers, binanceTickers).Some? ==>
              EntryFor(m, k, upbitMarkets, upbitTickers, binanceTickers).value in r
    ensures Seqs.NoDuplicates(keys) ==> Seqs.DistinctBy(r, CoinSymbolOf)
  {
    if |keys| == 0 then []
    else
      var k := keys[0];
      var rest := Entries(m, keys[1..], upbitMarkets, upbitTickers, binanceTickers);
      assert forall x :: x in keys[1..] ==> x in keys;
      assert Seqs.NoDuplicates(keys) ==> k !in keys[1..];
      match EntryFor(m, k, upbitMarkets, upbitTickers, binanceTickers)
      case None => rest
      case Some(c) => [c] + rest
  }

  /**
   * `createUnifiedData`: one entry per mapping key that has a ticker on
   * either side, sorted by `maxTradeVolume` with ties in key order.
   */
  function CreateUnifiedData(
    m: CoinMapping, upbitMarkets: seq<UpbitMarket>,
    upbitTickers: seq<Ticker>, binanceTickers: seq<Ticker>): (r: seq<Coin>)
    requires WellFormed(m)
    ensures SortedByVolume(r)
    ensures Seqs.DistinctBy(r, CoinSymbolOf)
    ensures forall c :: c in r ==> (c.upbit.Some? || c.binance.Some?) && VolumeConsistent(c)
    ensures forall c :: c in r ==>
              c.coinSymbol in m.entries && EntryFor(m, c.coinSymbol, upbitMarkets, upbitTickers, binanceTickers) == Some(c)
    ensures forall k :: k in m.entries && EntryFor(m, k, upbitMarkets, upbitTickers, binanceTickers).Some? ==>
              EntryFor(m, k, upbitMarkets, upbitTickers, binanceTickers).value in r
  {
    var entries := Entries(m, m.order, upbitMarkets, upbitTickers, binanceTickers);
    SortByVolumeDistinct(entries);
    var r := SortByVolume(entries);
    assert forall c :: c in r <==> c in entries by {
      forall c ensures c in r <==> c in entries {
        assert c in r <==> c in multiset(r);
        assert c in entries <==> c in multiset(entries);
      }
    }
    r
  }

  /** Entries of equal volume come out in the mapping's key order. */
  lemma CreateUnifiedDataStable(
    m: CoinMapping, upbitMarkets: seq<UpbitMarket>,
    upbitTickers: seq<Ticker>, binanceTickers: seq<Ticker>, c: Coin)
    requires WellFormed(m)
    ensures Sorting.Ties(CreateUnifiedData(m, upbitMarkets, upbitTickers, binanceTickers), VolumeGe, c)
         == Sorting.Ties(Entries(m, m.order, upbitMarkets, upbitTickers, binanceTickers), VolumeGe, c)
  {
    SortByVolumeStable(Entries(m, m.order, upbitMarkets, upbitTickers, binanceTickers), c);
  }

  // ---------------------------------------------------------------------------
  // updateUnifiedData

  /** A side refreshed from a ticker: prices and volume replaced, the symbol kept. */
  function RefreshSide(side: Side, t: Ticker): (r: Side)
    ensures r.symbol == side.symbol
    ensures r == TickerSide(t).(symbol := side.symbol)
  {
    side.(price := t.tradePrice, change := t.change, changeRate := t.changeRate,
          changePrice := t.changePrice, tradeVolume := Or(t.accTradePrice24h, t.accTradePrice))
  }

  /** Refreshing twice from the same ticker is refreshing once. */
  lemma RefreshSideIdempotent(side: Side, t: Ticker)
    ensures RefreshSide(RefreshSide(side, t), t) == RefreshSide(side, t)
  {
  }

  /** One exchange's side after a poll: refreshed only when it exists and its mapped ticker was found. */
  function PolledSide(side: Option<Side>, code: Option<string>, tickers: seq<Ticker>): (r: Option<Side>)
    ensures r.Some? <==> side.Some?
    ensures r.Some? ==> r.value.symbol == side.value.symbol
    ensures side.Some? && Lookup(tickers, code).Some? ==> r == Some(RefreshSide(side.value, Lookup(tickers, code).value))
    ensures Lookup(tickers, code).None? ==> r == side
  {
    match Lookup(tickers, code)
    case Some(t) => if side.Some? then Some(RefreshSide(side.value, t)) else side
    case None => side
  }

  /** Whether the poll leaves this coin to the sockets: a favourite while ANY socket is open. */
  predicate SkippedByPoll(coin: Coin, favorites: seq<string>, upbitOpen: bool, binanceOpen: bool) {
    coin.coinSymbol in favorites && (upbitOpen || binanceOpen)
  }

  /** `updateUnifiedData`'s callback for one coin. */
  function UpdateCoin(
    coin: Coin, m: CoinMapping, favorites: seq<string>, upbitOpen: bool, binanceOpen: bool,
    upbitTickers: seq<Ticker>, binanceTickers: seq<Ticker>): (r: Coin)
    ensures r.coinSymbol == coin.coinSymbol && r.name == coin.name
    ensures (r.upbit.Some? <==> coin.upbit.Some?) && (r.binance.Some? <==> coin.binance.Some?)
    ensures r.upbit.Some? ==> r.upbit.value.symbol == coin.upbit.value.symbol
    ensures r.binance.Some? ==> r.binance.value.symbol == coin.binance.value.symbol
    ensures coin.coinSymbol !in m.entries || SkippedByPoll(coin, favorites, upbitOpen, binanceOpen) ==> r == coin
    ensures coin.coinSymbol in m.entries && !SkippedByPoll(coin, favorites, upbitOpen, binanceOpen) ==>
              && VolumeConsistent(r)
              && r.upbit == PolledSide(coin.upbit, m.entries[coin.coinSymbol].upbit, upbitTickers)
              && r.binance == PolledSide(coin.binance, m.entries[coin.coinSymbol].binance, binanceTickers)
  {
    if coin.coinSymbol !in m.entries then coin
    else if SkippedByPoll(coin, favorites, upbitOpen, binanceOpen) then coin
    else
      var mapping := m.entries[coin.coinSymbol];
      var upbit := PolledSide(coin.upbit, mapping.upbit, upbitTickers);
      var binance := PolledSide(coin.binance, mapping.binance, binanceTickers);
      coin.(upbit := upbit, binance := binance, maxTradeVolume := DerivedMaxVolume(upbit, binance))
  }

  /**
   * `updateUnifiedData`: every coin in place, same order; favourites are
   * skipped while either socket is open, sides are refreshed but never added.
   */
  function UpdateUnifiedData(
    coins: seq<Coin>, m: CoinMapping, favorites: seq<string>, upbitOpen: bool, binanceOpen: bool,
    upbitTickers: seq<Ticker>, binanceTickers: seq<Ticker>): (r: seq<Coin>)
    ensures |r| == |coins|
    ensures forall i :: 0 <= i < |r| ==>
              && r[i].coinSymbol == coins[i].coinSymbol && r[i].name == coins[i].name
              && (r[i].upbit.Some? <==> coins[i].upbit.Some?)
              && (r[i].binance.Some? <==> coins[i].binance.Some?)
              && (r[i].upbit.Some? ==> r[i].upbit.value.symbol == coins[i].upbit.value.symbol)
              && (r[i].binance.Some? ==> r[i].binance.value.symbol == coins[i].binance.value.symbol)
    ensures forall i :: 0 <= i < |r| && SkippedByPoll(coins[i], favorites, upbitOpen, binanceOpen) ==> r[i] == coins[i]
    ensures forall i :: 0 <= i < |r| && coins[i].coinSymbol !in m.entries ==> r[i] == coins[i]
    ensures forall i :: 0 <= i < |r| && VolumeConsistent(coins[i]) ==> VolumeConsistent(r[i])
    ensures forall i ::
              (0 <= i < |r| && coins[i].coinSymbol in m.entries && !SkippedByPoll(coins[i], favorites, upbitOpen, binanceOpen))
              ==> && VolumeConsistent(r[i])
                  && r[i].upbit == PolledSide(coins[i].upbit, m.entries[coins[i].coinSymbol].upbit, upbitTickers)
                  && r[i].binance == PolledSide(coins[i].binance, m.entries[coins[i].coinSymbol].binance, binanceTickers)
  {
    seq(|coins|, i requires 0 <= i < |coins| =>
      UpdateCoin(coins[i], m, favorites, upbitOpen, binanceOpen, upbitTickers, binanceTickers))
  }

  /** Polling twice with the same tickers changes nothing the first poll did not. */
  lemma UpdateUnifiedDataIdempotent(
    coins: seq<Coin>, m: CoinMapping, favorites: seq<string>, upbitOpen: bool, binanceOpen: bool,
    upbitTickers: seq<Ticker>, binanceTickers: seq<Ticker>)
    ensures var once := UpdateUnifiedData(coins, m, favorites, upbitOpen, binanceOpen, upbitTickers, binanceTickers);
            UpdateUnifiedData(once, m, favorites, upbitOpen, binanceOpen, upbitTickers, binanceTickers) == once
  {
    var once := UpdateUnifiedData(coins, m, favorites, upbitOpen, binanceOpen, upbitTickers, binanceTickers);
    var twice := UpdateUnifiedData(once, m, favorites, upbitOpen, binanceOpen, upbitTickers, binanceTickers);
    forall i | 0 <= i < |coins|
      ensures twice[i] == once[i]
    {
      var c := coins[i];
      if c.coinSymbol in m.entries && !SkippedByPoll(c, favorites, upbitOpen, binanceOpen) {
        var mapping := m.entries[c.coinSymbol];
        match Lookup(upbitTickers, mapping.upbit) {
          case Some(t) => if c.upbit.Some? { RefreshSideIdempotent(c.upbit.value, t); }
          case None =>
        }
        match Lookup(binanceTickers, mapping.binance) {
          case Some(t) => if c.binance.Some? { RefreshSideIdempotent(c.binance.value, t); }
          case None =>
        }
      }
    }
  }

  // ---------------------------------------------------------------------------
  // handleUpbitWebSocketData / handleBinanceWebSocketData

  predicate HasCoinSymbol(c: Coin, key: string) {
    c.coinSymbol == key
  }

  /** `findIndex` by coin symbol. */
  function IndexOfCoin(coins: seq<Coin>, key: string): (r: Option<nat>)
    ensures r.Some? ==> r.value < |coins| && coins[r.value].coinSymbol == key
    ensures r.Some? ==> forall j :: 0 <= j < r.value ==> coins[j].coinSymbol != key
    ensures r.None? ==> forall j :: 0 <= j < |coins| ==> coins[j].coinSymbol != key
  {
    Seqs.IndexWhere(coins, c => HasCoinSymbol(c, key))
  }

  /**
   * The entry an Upbit push message updates: the first coin whose symbol is
   * the message code's canonical symbol, provided that coin has an Upbit side.
   */
  function UpbitPushTarget(coins: seq<Coin>, msg: Option<Ticker>): (r: Option<nat>)
    ensures msg.None? || msg.value.market == "" ==> r.None?
    ensures r.Some? ==> r.value < |coins| && coins[r.value].upbit.Some?
    ensures msg.Some? && msg.value.market != "" ==>
              (r == match IndexOfCoin(coins, ExtractCoinSymbol(msg.value.market))
                    case Some(i) => if coins[i].upbit.Some? then Some(i) else None
                    case None => None)
  {
    match msg
    case None => None
    case Some(t) =>
      if t.market == "" then None
      else match IndexOfCoin(coins, ExtractCoinSymbol(t.market))
        case Some(i) => if coins[i].upbit.Some? then Some(i) else None
        case None => None
  }

  /** `handleUpbitWebSocketData`: only the target's Upbit side and volume change. */
  function HandleUpbitPush(coins: seq<Coin>, msg: Option<Ticker>): (r: seq<Coin>)
    ensures UpbitPushTarget(coins, msg).None? ==> r == coins
    ensures |r| == |coins|
    ensures UpbitPushTarget(coins, msg).Some? ==>
              var i := UpbitPushTarget(coins, msg).value;
              && (forall j :: 0 <= j < |r| && j != i ==> r[j] == coins[j])
              && r[i].coinSymbol == coins[i].coinSymbol && r[i].name == coins[i].name
              && r[i].binance == coins[i].binance
              && r[i].upbit == Some(RefreshSide(coins[i].upbit.value, msg.value))
              && r[i].upbit.value.symbol == coins[i].upbit.value.symbol
              && VolumeConsistent(r[i])
  {
    match UpbitPushTarget(coins, msg)
    case None => coins
    case Some(i) =>
      var coin := coins[i];
      var upbit := Some(RefreshSide(coin.upbit.value, msg.value));
      coins[i := coin.(upbit := upbit, maxTradeVolume := DerivedMaxVolume(upbit, coin.binance))]
  }

  /** The Binance entry a stream message updates, found the same way. */
  function BinancePushTarget(coins: seq<Coin>, msg: Option<StreamTicker>): (r: Option<nat>)
    ensures msg.None? || msg.value.symbol == "" ==> r.None?
    ensures r.Some? ==> r.value < |coins| && coins[r.value].binance.Some?
    ensures msg.Some? && msg.value.symbol != "" ==>
              (r == match IndexOfCoin(coins, ExtractCoinSymbol(msg.value.symbol))
                    case Some(i) => if coins[i].binance.Some? then Some(i) else None
                    case None => None)
  {
    match msg
    case None => None
    case Some(d) =>
      if d.symbol == "" then None
      else match IndexOfCoin(coins, ExtractCoinSymbol(d.symbol))
        case Some(i) => if coins[i].binance.Some? then Some(i) else None
        case None => None
  }

  /** The Binance side rebuilt from a stream message; the symbol is kept. */
  function StreamSide(side: Side, d: StreamTicker): (r: Side)
    ensures r.symbol == side.symbol && r.price == d.lastPrice
    ensures r.change == ChangeOf(d.priceChange)
    ensures r.changePrice >= 0.0 && SignedAmount(r.change, r.changePrice) == d.priceChange
    ensures d.priceChange == 0.0 ==> r.changePrice == 0.0
    ensures r.changeRate >= 0.0 && (r.changeRate * 100.0 == d.priceChangePercent || r.changeRate * 100.0 == -d.priceChangePercent)
    ensures r.tradeVolume == Some(d.quoteVolume)
  {
    ChangeRoundTrip(d.priceChange);
    Side(side.symbol, d.lastPrice, ChangeOf(d.priceChange), Abs(d.priceChangePercent / 100.0),
         Abs(d.priceChange), Some(d.quoteVolume))
  }

  /**
   * The push handler and the Binance socket service's converter agree: the
   * side a stream message writes equals the side a poll would write from
   * the converted ticker.
   */
  lemma StreamSideMatchesConverter(side: Side, d: StreamTicker)
    requires d.symbol != ""
    ensures StreamSide(side, d) == RefreshSide(side, BinanceSocket.ConvertTickerData(Some(d)).value.ticker)
  {
  }

  /** `handleBinanceWebSocketData`: only the target's Binance side and volume change. */
  function HandleBinancePush(coins: seq<Coin>, msg: Option<StreamTicker>): (r: seq<Coin>)
    ensures BinancePushTarget(coins, msg).None? ==> r == coins
    ensures |r| == |coins|
    ensures BinancePushTarget(coins, msg).Some? ==>
              var i := BinancePushTarget(coins, msg).value;
              && (forall j :: 0 <= j < |r| && j != i ==> r[j] == coins[j])
              && r[i].coinSymbol == coins[i].coinSymbol && r[i].name == coins[i].name
              && r[i].upbit == coins[i].upbit
              && r[i].binance == Some(StreamSide(coins[i].binance.value, msg.value))
              && r[i].binance.value.symbol == coins[i].binance.value.symbol
              && VolumeConsistent(r[i])
  {
    match BinancePushTarget(coins, msg)
    case None => coins
    case Some(i) =>
      var coin := coins[i];
      var binance := Some(StreamSide(coin.binance.value, msg.value));
      coins[i := coin.(binance := binance, maxTradeVolume := DerivedMaxVolume(coin.upbit, binance))]
  }

  // ---------------------------------------------------------------------------
  // connectWebSockets, polling

  /** The code a favourite subscribes to on one exchange, when its mapping has a truthy one. */
  function FavoriteCode(m: CoinMapping, ex: Exchange, coin: string): (r: Option<string>)
    ensures r.Some? <==> coin in m.entries && JsPresent(SideOf(m.entries[coin], ex))
    ensures r.Some? ==> r == SideOf(m.entries[coin], ex)
  {
    if coin in m.entries && JsPresent(SideOf(m.entries[coin], ex)) then SideOf(m.entries[coin], ex) else None
  }

  /** The favourites with a truthy mapped code on `ex`, in favourites order, repeats kept. */
  function SubscribedFavorites(m: CoinMapping, ex: Exchange, favorites: seq<string>): (r: seq<string>)
    ensures forall f :: f in r ==> f in favorites && FavoriteCode(m, ex, f).Some?
    ensures forall i :: 0 <= i < |favorites| && FavoriteCode(m, ex, favorites[i]).Some? ==> favorites[i] in r
  {
    Seqs.Filter(favorites, f => FavoriteCode(m, ex, f).Some?)
  }

  /** The `forEach` that pushes each favourite's code in turn. */
  function SubscriptionRun(m: CoinMapping, ex: Exchange, favorites: seq<string>): (r: seq<string>)
    ensures var subscribed := SubscribedFavorites(m, ex, favorites);
            |r| == |subscribed|
            && forall i :: 0 <= i < |r| ==> FavoriteCode(m, ex, subscribed[i]) == Some(r[i])
  {
    if |favorites| == 0 then []
    else
      var rest := SubscriptionRun(m, ex, favorites[1..]);
      match FavoriteCode(m, ex, favorites[0])
      case Some(code) => [code] + rest
      case None => rest
  }

  /**
   * The per-exchange subscription list `connectWebSockets` builds from the
   * favourites: one code per favourite that has one, in favourites order,
   * repeats kept.
   */
  function Subscriptions(m: CoinMapping, ex: Exchange, favorites: seq<string>): (r: seq<string>)
    ensures |r| <= |favorites|
    ensures forall s :: s in r ==> s != "" && exists f :: f in favorites && FavoriteCode(m, ex, f) == Some(s)
    ensures forall f :: f in favorites && FavoriteCode(m, ex, f).Some? ==> FavoriteCode(m, ex, f).value in r
    ensures var subscribed := SubscribedFavorites(m, ex, favorites);
            |r| == |subscribed|
            && forall i :: 0 <= i < |r| ==> FavoriteCode(m, ex, subscribed[i]) == Some(r[i])
  {
    var r := SubscriptionRun(m, ex, favorites);
    SubscriptionRunMembers(m, ex, favorites);
    r
  }

  lemma SubscriptionRunMembers(m: CoinMapping, ex: Exchange, favorites: seq<string>)
    ensures var r := SubscriptionRun(m, ex, favorites);
            && |r| <= |favorites|
            && (forall s :: s in r ==> s != "" && exists f :: f in favorites && FavoriteCode(m, ex, f) == Some(s))
            && (forall f :: f in favorites && FavoriteCode(m, ex, f).Some? ==> FavoriteCode(m, ex, f).value in r)
  {
    var r := SubscriptionRun(m, ex, favorites);
    var subscribed := SubscribedFavorites(m, ex, favorites);
    forall s | s in r
      ensures s != "" && exists f :: f in favorites && FavoriteCode(m, ex, f) == Some(s)
    {
      var k :| 0 <= k < |r| && r[k] == s;
      assert subscribed[k] in subscribed;
    }
    forall f | f in favorites && FavoriteCode(m, ex, f).Some?
      ensures FavoriteCode(m, ex, f).value in r
    {
      var i :| 0 <= i < |favorites| && favorites[i] == f;
      var k :| 0 <= k < |subscribed| && subscribed[k] == f;
      assert r[k] == FavoriteCode(m, ex, f).value;
    }
  }

  /** The list for a concatenation of favourites is the concatenation of the lists: each favourite pushes on its own. */
  lemma {:induction false} SubscriptionsAppend(m: CoinMapping, ex: Exchange, a: seq<string>, b: seq<string>)
    ensures Subscriptions(m, ex, a + b) == Subscriptions(m, ex, a) + Subscriptions(m, ex, b)
  {
    SubscriptionRunAppend(m, ex, a, b);
  }

  lemma {:induction false} SubscriptionRunAppend(m: CoinMapping, ex: Exchange, a: seq<string>, b: seq<string>)
    ensures SubscriptionRun(m, ex, a + b) == SubscriptionRun(m, ex, a) + SubscriptionRun(m, ex, b)
  {
    if |a| > 0 {
      assert (a + b)[1..] == a[1..] + b;
      SubscriptionRunAppend(m, ex, a[1..], b);
    } else {
      assert a + b == b;
    }
  }

  /** `connectWebSockets`: no favourites, no subscriptions; otherwise both lists from the mapping. */
  function PushSubscriptions(m: CoinMapping, favorites: seq<string>): (r: (seq<string>, seq<string>))
    ensures |favorites| == 0 ==> r == ([], [])
    ensures r.0 == Subscriptions(m, Upbit, favorites) && r.1 == Subscriptions(m, Binance, favorites)
  {
    if |favorites| == 0 then ([], [])
    else (Subscriptions(m, Upbit, favorites), Subscriptions(m, Binance, favorites))
  }

  /** `binanceMarkets.slice(0, 100).map(m => m.symbol)`. */
  function PolledBinanceSymbols(binanceMarkets: seq<SymbolInfo>): (r: seq<string>)
    ensures |r| <= PolledBinanceLimit && |r| <= |binanceMarkets|
    ensures forall i :: 0 <= i < |r| ==> r[i] == binanceMarkets[i].symbol
    ensures |r| == if |binanceMarkets| < PolledBinanceLimit then |binanceMarkets| else PolledBinanceLimit
  {
    Seqs.Take(MarketSymbols(binanceMarkets), PolledBinanceLimit)
  }

  lemma PolledTickersListed(binanceMarkets: seq<SymbolInfo>, raw: seq<BinanceApi.RawTicker>, r: seq<Ticker>)
    requires forall t :: t in raw ==> t.symbol in PolledBinanceSymbols(binanceMarkets)
    requires r == BinanceApi.ConvertAll(raw)
    ensures forall t :: t in r ==>
              exists i :: 0 <= i < |binanceMarkets| && i < PolledBinanceLimit && binanceMarkets[i].symbol == t.market
  {
    var symbols := PolledBinanceSymbols(binanceMarkets);
    forall t | t in r
      ensures exists i :: 0 <= i < |binanceMarkets| && i < PolledBinanceLimit && binanceMarkets[i].symbol == t.market
    {
      var k :| 0 <= k < |r| && r[k] == t;
      assert raw[k] in raw;
      var i :| 0 <= i < |symbols| && symbols[i] == raw[k].symbol;
    }
  }

  /**
   * The converted Binance tickers a poll works with: with any markets
   * listed, exactly the tickers of the first hundred listed symbols survive,
   * each converted. With none listed the symbol list is empty, and an empty
   * list makes the client keep every ticker.
   */
  function PolledBinanceTickers(binanceMarkets: seq<SymbolInfo>, response: Option<BinanceApi.TickerPayload>): (r: seq<Ticker>)
    ensures response.None? ==> r == []
    ensures |binanceMarkets| > 0 ==>
              forall t :: t in r ==>
                exists i :: 0 <= i < |binanceMarkets| && i < PolledBinanceLimit && binanceMarkets[i].symbol == t.market
    ensures response.Some? ==>
              forall t :: t in BinanceApi.AllTickers(response.value) && t.symbol in PolledBinanceSymbols(binanceMarkets) ==>
                BinanceApi.ConvertTickerToUpbitFormat(t) in r
    ensures response.Some? && |binanceMarkets| == 0 ==> r == BinanceApi.ConvertAll(BinanceApi.AllTickers(response.value))
    ensures var raw := BinanceApi.FetchBinanceTickers(response, Some(PolledBinanceSymbols(binanceMarkets)));
            |r| == |raw| && forall k :: 0 <= k < |r| ==> r[k] == BinanceApi.ConvertTickerToUpbitFormat(raw[k])
  {
    var symbols := PolledBinanceSymbols(binanceMarkets);
    var raw := BinanceApi.FetchBinanceTickers(response, Some(symbols));
    var r := BinanceApi.ConvertAll(raw);
    assert response.Some? ==>
             forall t :: t in BinanceApi.AllTickers(response.value) && t.symbol in symbols ==> t in raw by {
      if |binanceMarkets| > 0 {
        assert binanceMarkets[0].symbol == symbols[0];
      }
    }
    ConvertAllMembers(raw);
    if |binanceMarkets| > 0 then
      PolledTickersListed(binanceMarkets, raw, r);
      r
    else r
  }

  /** Every ticker in the list reappears, converted, in `ConvertAll`'s result. */
  lemma ConvertAllMembers(raw: seq<BinanceApi.RawTicker>)
    ensures forall t :: t in raw ==> BinanceApi.ConvertTickerToUpbitFormat(t) in BinanceApi.ConvertAll(raw)
  {
    var r := BinanceApi.ConvertAll(raw);
    forall t | t in raw
      ensures BinanceApi.ConvertTickerToUpbitFormat(t) in r
    {
      var k :| 0 <= k < |raw| && raw[k] == t;
      assert r[k] == BinanceApi.ConvertTickerToUpbitFormat(t);
    }
  }
}

=== FILE: favorite_slice.dfy ===
/** The favourites reducer: a list of market codes toggled on and off. */
module FavoriteSlice {
  import opened Wrappers
  import Seqs
  import Storage

  datatype State = State(favorites: seq<string>)

  /** `loadFavoritesFromStorage`: the stored list, or no favourites. */
  function Initial(stored: Storage.Stored): (s: State)
    ensures Storage.Usable(stored) ==> s.favorites == stored.parsed.value
    ensures !Storage.Usable(stored) ==> s.favorites == []
  {
    State(Storage.LoadList(stored, []))
  }

  /** `toggleFavorite`: an absent id is appended; a present one loses its first occurrence. */
  function ToggleFavorite(s: State, coinId: string): (r: State)
    ensures coinId !in s.favorites ==> r.favorites == s.favorites + [coinId]
    ensures coinId in s.favorites ==>
              && |r.favorites| == |s.favorites| - 1
              && multiset(r.favorites) == multiset(s.favorites) - multiset{coinId}
              && exists i :: 0 <= i < |s.favorites| && s.favorites[i] == coinId && coinId !in s.favorites[..i]
                   && r.favorites == s.favorites[..i] + s.favorites[i + 1..]
  {
    match Seqs.IndexOf(s.favorites, coinId)
    case None => State(s.favorites + [coinId])
    case Some(_) => State(Seqs.RemoveFirst(s.favorites, coinId))
  }

  /** The other favourites keep their relative order. */
  lemma ToggleKeepsOrder(s: State, coinId: string)
    ensures coinId in s.favorites ==> Seqs.IsSubseq(ToggleFavorite(s, coinId).favorites, s.favorites)
    ensures coinId !in s.favorites ==> ToggleFavorite(s, coinId).favorites[..|s.favorites|] == s.favorites
  {
    Seqs.RemoveFirstIsSubseq(s.favorites, coinId);
  }

  /** On a duplicate-free list, a toggle flips the id's membership, touches no other id, and keeps the list duplicate-free. */
  lemma ToggleFlipsMembership(s: State, coinId: string)
    requires Seqs.NoDuplicates(s.favorites)
    ensures var r := ToggleFavorite(s, coinId).favorites;
            && (coinId in r <==> coinId !in s.favorites)
            && (forall x :: x != coinId ==> (x in r <==> x in s.favorites))
            && Seqs.NoDuplicates(r)
  {
    var r := ToggleFavorite(s, coinId).favorites;
    if coinId in s.favorites {
      Seqs.RemoveFirstNoDuplicates(s.favorites, coinId);
      forall x | x != coinId
        ensures x in r <==> x in s.favorites
      {
        assert multiset(r)[x] == multiset(s.favorites)[x];
      }
    } else {
      Seqs.AppendNoDuplicates(s.favorites, coinId);
    }
  }

  /** Toggling an absent id twice gives the original list back. */
  lemma ToggleTwiceRestores(s: State, coinId: string)
    requires coinId !in s.favorites
    ensures ToggleFavorite(ToggleFavorite(s, coinId), coinId) == s
  {
    Seqs.RemoveFirstAfterAppend(s.favorites, coinId);
  }
}

=== FILE: js.dfy ===
/**
 * The few JavaScript value rules the dashboard's arithmetic depends on.
 * A numeric field that may be missing (`number | undefined`) is a `MaybeNum`;
 * numbers are already-parsed reals (NaN is not modelled).
 */
module Js {
  import opened Wrappers

  type MaybeNum = Option<real>

  /** JS truthiness of a possibly-missing number: `undefined` and 0 are falsy. */
  predicate Truthy(x: MaybeNum) {
    x.Some? && x.value != 0.0
  }

  /** JS truthiness of a string: only the empty string is falsy. */
  predicate TruthyStr(s: string) {
    s != ""
  }

  /** `a || b` on possibly-missing numbers: falls back to `b` when `a` is missing or 0. */
  function Or(a: MaybeNum, b: MaybeNum): (r: MaybeNum)
    ensures Truthy(a) ==> r == a
    ensures !Truthy(a) ==> r == b
  {
    if Truthy(a) then a else b
  }

  /** `x || 0`: a missing number reads as 0. */
  function OrZero(x: MaybeNum): (r: real)
    ensures x.Some? ==> r == x.value
    ensures x.None? ==> r == 0.0
  {
    if Truthy(x) then x.value else 0.0
  }

  /** `a || b || c` on strings, as used for picking a display symbol. */
  function OrStr(a: string, b: string): (r: string)
    ensures TruthyStr(a) ==> r == a
    ensures !TruthyStr(a) ==> r == b
  {
    if TruthyStr(a) then a else b
  }

  /** `Math.max` of two reals. */
  function Max(a: real, b: real): (r: real)
    ensures r >= a && r >= b
    ensures r == a || r == b
  {
    if a >= b then a else b
  }
}

=== FILE: market_block.dfy ===
/**
 * The pure helpers of the market list: favourite codes turned into coin
 * symbols for the data manager, the tab filter, the display order, the
 * market a row selects, and the unit a trade volume is shown in.
 */
module MarketBlock {
  import opened Wrappers
  import opened Js
  import opened Types
  import Strings
  import Seqs
  import Sorting
  import DataManager

  datatype Tab = All | Favorites | Holdings

  /** What the list area shows: one of three placeholder messages, or the rows. */
  datatype View = HoldingsPending | NoFavorites | LoadingMessage | Rows(coins: seq<Coin>)

  /** The units of `formatTradeVolume`: 조 (1e12), 억 (1e8), 천만 (1e7), 백만 (1e6) and plain 원. */
  datatype VolumeUnit = Jo | Eok | Cheonman | Baekman | Won

  /** The number shown (before `toFixed`) and its unit. */
  datatype FormattedVolume = FormattedVolume(scaled: real, unit: VolumeUnit)

  /** The favourites effect's own copy of the canonicalisation: `KRW-` prefix, else `USDT` ending, else as is. */
  function CanonicalFavorite(fav: string): string {
    if Strings.StartsWith(fav, "KRW-") then Strings.ReplaceFirst(fav, "KRW-", "")
    else if Strings.EndsWith(fav, "USDT") then Strings.ReplaceFirst(fav, "USDT", "")
    else fav
  }

  /** The coin symbols handed to the data manager agree, one by one, with the data manager's own extraction. */
  function FavoriteSymbols(favorites: seq<string>): (r: seq<string>)
    ensures |r| == |favorites|
    ensures forall i :: 0 <= i < |r| ==> r[i] == DataManager.ExtractCoinSymbol(favorites[i])
  {
    seq(|favorites|, i requires 0 <= i < |favorites| => CanonicalFavorite(favorites[i]))
  }

  /** `coin.upbit?.symbol || ''` (likewise for Binance). */
  function SideSymbol(side: Option<Side>): (r: string)
    ensures side.None? ==> r == ""
    ensures side.Some? ==> r == side.value.symbol
  {
    match side
    case None => ""
    case Some(s) => OrStr(s.symbol, "")
  }

  /** The favourites test of the list: either side's symbol (or '' for a missing side) is a favourite. */
  predicate IsFavoriteCoin(c: Coin, favorites: seq<string>) {
    SideSymbol(c.upbit) in favorites || SideSymbol(c.binance) in favorites
  }

  /** `getFilteredData`. */
  function FilteredData(tab: Tab, coins: seq<Coin>, favorites: seq<string>): (r: seq<Coin>)
    ensures tab == All ==> r == coins
    ensures tab == Holdings ==> r == []
    ensures tab == Favorites ==>
              && Seqs.IsSubseq(r, coins)
              && (forall c :: c in r ==> IsFavoriteCoin(c, favorites))
              && (forall c :: c in coins && IsFavoriteCoin(c, favorites) ==> c in r)
              && (forall c :: multiset(r)[c] == if IsFavoriteCoin(c, favorites) then multiset(coins)[c] else 0)
  {
    match tab
    case All => coins
    case Holdings => []
    case Favorites =>
      var keep := (c: Coin) => IsFavoriteCoin(c, favorites);
      var r := Seqs.Filter(coins, keep);
      assert forall c :: c in coins ==> exists i :: 0 <= i < |coins| && coins[i] == c;
      r
  }

  /** A favourites list holding '' matches every coin with a missing or empty-symbol side. */
  lemma EmptyFavoriteMatchesOneSided(c: Coin, favorites: seq<string>)
    requires "" in favorites && (c.upbit.None? || c.binance.None?)
    ensures IsFavoriteCoin(c, favorites)
  {
  }

  /** `[...filtered].sort((a, b) => b.maxTradeVolume - a.maxTradeVolume)`: a sorted copy. */
  function DisplayRows(filtered: seq<Coin>): (r: seq<Coin>)
    ensures SortedByVolume(r)
    ensures multiset(r) == multiset(filtered)
  {
    SortByVolume(filtered)
  }

  /** Rows of equal volume are shown in filter order. */
  lemma DisplayRowsStable(filtered: seq<Coin>, c: Coin)
    ensures Sorting.Ties(DisplayRows(filtered), VolumeGe, c) == Sorting.Ties(filtered, VolumeGe, c)
  {
    SortByVolumeStable(filtered, c);
  }

  /** The list area: a placeholder chosen by tab when nothing passes the filter, else the sorted rows. */
  function Render(tab: Tab, coins: seq<Coin>, favorites: seq<string>): (v: View)
    ensures tab == Holdings ==> v == HoldingsPending
    ensures tab == All ==> (v == LoadingMessage <==> |coins| == 0)
    ensures tab == Favorites ==> (v == NoFavorites <==> forall c :: c in coins ==> !IsFavoriteCoin(c, favorites))
    ensures v.Rows? <==> |FilteredData(tab, coins, favorites)| > 0
    ensures v.Rows? ==> SortedByVolume(v.coins) && |v.coins| > 0
    ensures v.Rows? ==> multiset(v.coins) == multiset(FilteredData(tab, coins, favorites))
  {
    var filtered := FilteredData(tab, coins, favorites);
    if |filtered| == 0 && tab == Holdings then HoldingsPending
    else if |filtered| == 0 && tab == Favorites then NoFavorites
    else if |filtered| == 0 then LoadingMessage
    else
      var rows := DisplayRows(filtered);
      assert |multiset(rows)| == |filtered|;
      assert tab == Favorites ==> filtered[0] in filtered;
      Rows(rows)
  }

  /** `coin.upbit?.symbol || coin.binance?.symbol || coin.coinSymbol`. */
  function SelectSymbol(c: Coin): (r: string)
    ensures c.upbit.Some? && c.upbit.value.symbol != "" ==> r == c.upbit.value.symbol
    ensures SideSymbol(c.upbit) == "" && c.binance.Some? && c.binance.value.symbol != "" ==> r == c.binance.value.symbol
    ensures SideSymbol(c.upbit) == "" && SideSymbol(c.binance) == "" ==> r == c.coinSymbol
  {
    OrStr(OrStr(SideSymbol(c.upbit), SideSymbol(c.binance)), c.coinSymbol)
  }

  /** A row whose selected market is a side's and is a favourite shows as a favourite. */
  lemma SelectedFavoriteIsMarked(c: Coin, favorites: seq<string>)
    requires SideSymbol(c.upbit) != "" || SideSymbol(c.binance) != ""
    requires SelectSymbol(c) in favorites
    ensures IsFavoriteCoin(c, favorites)
  {
  }

  /** What one unit is worth in 원. */
  function UnitSize(u: VolumeUnit): real {
    match u
    case Jo => 1000000000000.0
    case Eok => 100000000.0
    case Cheonman => 10000000.0
    case Baekman => 1000000.0
    case Won => 1.0
  }

  /** Units ordered from smallest to largest. */
  function UnitRank(u: VolumeUnit): nat {
    match u
    case Won => 0
    case Baekman => 1
    case Cheonman => 2
    case Eok => 3
    case Jo => 4
  }

  /** `formatTradeVolume`: the largest unit the volume reaches; 0 and small or negative volumes stay in 원. */
  function FormatTradeVolume(volume: real): (r: FormattedVolume)
    ensures r.scaled * UnitSize(r.unit) == volume
    ensures r.unit == Jo <==> volume >= 1000000000000.0
    ensures r.unit == Eok <==> 100000000.0 <= volume < 1000000000000.0
    ensures r.unit == Cheonman <==> 10000000.0 <= volume < 100000000.0
    ensures r.unit == Baekman <==> 1000000.0 <= volume < 10000000.0
    ensures r.unit == Won <==> volume < 1000000.0
    ensures r.unit != Won ==> 1.0 <= r.scaled
  {
    if volume == 0.0 then FormattedVolume(0.0, Won)
    else if volume >= 1000000000000.0 then FormattedVolume(volume / 1000000000000.0, Jo)
    else if volume >= 100000000.0 then FormattedVolume(volume / 100000000.0, Eok)
    else if volume >= 10000000.0 then FormattedVolume(volume / 10000000.0, Cheonman)
    else if volume >= 1000000.0 then FormattedVolume(volume / 1000000.0, Baekman)
    else FormattedVolume(volume, Won)
  }

  /** A larger volume never shows in a smaller unit, and within a unit a larger number means a larger volume. */
  lemma FormatTradeVolumeMonotone(v1: real, v2: real)
    requires v1 <= v2
    ensures UnitRank(FormatTradeVolume(v1).unit) <= UnitRank(FormatTradeVolume(v2).unit)
    ensures FormatTradeVolume(v1).unit == FormatTradeVolume(v2).unit ==>
              FormatTradeVolume(v1).scaled <= FormatTradeVolume(v2).scaled
  {
    var f1, f2 := FormatTradeVolume(v1), FormatTradeVolume(v2);
    if f1.unit == f2.unit {
      assert f1.scaled * UnitSize(f1.unit) <= f2.scaled * UnitSize(f1.unit);
    }
  }
}

=== FILE: registered_coin_slice.dfy ===
/** The registered-coins reducer: the coin symbols the user keeps on the board. */
module RegisteredCoinSlice {
  import opened Wrappers
  import Seqs
  import Storage

  /** The board's coins when nothing usable is stored. */
  const DefaultCoins: seq<string> := ["BTC", "ETH", "XRP", "SOL", "DOGE"]

  datatype State = State(registeredCoins: seq<string>)

  /** `loadRegisteredCoinsFromStorage`: the stored list, or the five default coins. */
  function Initial(stored: Storage.Stored): (s: State)
    ensures Storage.Usable(stored) ==> s.registeredCoins == stored.parsed.value
    ensures !Storage.Usable(stored) ==> s.registeredCoins == DefaultCoins
  {
    State(Storage.LoadList(stored, DefaultCoins))
  }

  /** With no stored item the board starts with BTC, ETH, XRP, SOL and DOGE, none twice. */
  lemma MissingGivesDefaults()
    ensures Initial(Storage.Missing).registeredCoins == ["BTC", "ETH", "XRP", "SOL", "DOGE"]
    ensures Seqs.NoDuplicates(Initial(Storage.Missing).registeredCoins)
  {
    var d := DefaultCoins;
    assert d[0][0] == 'B' && d[1][0] == 'E' && d[2][0] == 'X' && d[3][0] == 'S' && d[4][0] == 'D';
  }

  /** `registerCoin`: appends the symbol unless it is already registered. */
  function RegisterCoin(s: State, coinSymbol: string): (r: State)
    ensures coinSymbol in r.registeredCoins
    ensures coinSymbol in s.registeredCoins ==> r == s
    ensures coinSymbol !in s.registeredCoins ==> r.registeredCoins == s.registeredCoins + [coinSymbol]
  {
    if coinSymbol in s.registeredCoins then s else State(s.registeredCoins + [coinSymbol])
  }

  /** Registering twice is registering once, and registration keeps the list duplicate-free. */
  lemma RegisterIdempotent(s: State, coinSymbol: string)
    ensures RegisterCoin(RegisterCoin(s, coinSymbol), coinSymbol) == RegisterCoin(s, coinSymbol)
    ensures Seqs.NoDuplicates(s.registeredCoins) ==> Seqs.NoDuplicates(RegisterCoin(s, coinSymbol).registeredCoins)
  {
    if Seqs.NoDuplicates(s.registeredCoins) && coinSymbol !in s.registeredCoins {
      Seqs.AppendNoDuplicates(s.registeredCoins, coinSymbol);
    }
  }

  /** `unregisterCoin`: the first occurrence goes; an unregistered symbol changes nothing. */
  function UnregisterCoin(s: State, coinSymbol: string): (r: State)
    ensures coinSymbol !in s.registeredCoins ==> r == s
    ensures coinSymbol in s.registeredCoins ==>
              && |r.registeredCoins| == |s.registeredCoins| - 1
              && multiset(r.registeredCoins) == multiset(s.registeredCoins) - multiset{coinSymbol}
              && exists i :: 0 <= i < |s.registeredCoins| && s.registeredCoins[i] == coinSymbol
                   && coinSymbol !in s.registeredCoins[..i]
                   && r.registeredCoins == s.registeredCoins[..i] + s.registeredCoins[i + 1..]
  {
    match Seqs.IndexOf(s.registeredCoins, coinSymbol)
    case None => s
    case Some(_) => State(Seqs.RemoveFirst(s.registeredCoins, coinSymbol))
  }

  /** Registering a new symbol and unregistering it restores the list. */
  lemma RegisterThenUnregister(s: State, coinSymbol: string)
    requires coinSymbol !in s.registeredCoins
    ensures UnregisterCoin(RegisterCoin(s, coinSymbol), coinSymbol) == s
  {
    Seqs.RemoveFirstAfterAppend(s.registeredCoins, coinSymbol);
  }

  /** On a duplicate-free list, unregistering removes the symbol for good and keeps the rest in order. */
  lemma UnregisterRemoves(s: State, coinSymbol: string)
    requires Seqs.NoDuplicates(s.registeredCoins)
    ensures coinSymbol !in UnregisterCoin(s, coinSymbol).registeredCoins
    ensures Seqs.NoDuplicates(UnregisterCoin(s, coinSymbol).registeredCoins)
    ensures Seqs.IsSubseq(UnregisterCoin(s, coinSymbol).registeredCoins, s.registeredCoins)
  {
    Seqs.RemoveFirstNoDuplicates(s.registeredCoins, coinSymbol);
    Seqs.RemoveFirstIsSubseq(s.registeredCoins, coinSymbol);
  }
}

=== FILE: seqs.dfy ===
/**
 * The array methods the source leans on, as functions on sequences:
 * `findIndex`, `find`, `indexOf`, `filter`, `splice(i, 1)` and `slice(0, n)`.
 */
module Seqs {
  import opened Wrappers

  /** `a` is an order-preserving subsequence of `b`. */
  predicate IsSubseq<T(==)>(a: seq<T>, b: seq<T>)
    decreases |b|
  {
    |a| == 0 || (|b| > 0 && ((a[0] == b[0] && IsSubseq(a[1..], b[1..])) || IsSubseq(a, b[1..])))
  }

  /** `s.findIndex(p)`: the first index whose element satisfies `p`. */
  function IndexWhere<T>(s: seq<T>, p: T -> bool): (r: Option<nat>)
    ensures r.Some? ==> r.value < |s| && p(s[r.value])
    ensures r.Some? ==> forall j :: 0 <= j < r.value ==> !p(s[j])
    ensures r.None? ==> forall j :: 0 <= j < |s| ==> !p(s[j])
  {
    if |s| == 0 then None
    else if p(s[0]) then Some(0)
    else match IndexWhere(s[1..], p)
      case None => None
      case Some(i) => Some(i + 1)
  }

  /** `s.find(p)`: the first element satisfying `p`, if any. */
  function Find<T>(s: seq<T>, p: T -> bool): (r: Option<T>)
    ensures r.Some? ==> r.value in s && p(r.value)
    ensures r.Some? ==> exists i :: 0 <= i < |s| && s[i] == r.value && forall j :: 0 <= j < i ==> !p(s[j])
    ensures r.None? ==> forall x :: x in s ==> !p(x)
  {
    match IndexWhere(s, p)
    case None => None
    case Some(i) => Some(s[i])
  }

  /** `s.indexOf(x)`. */
  function IndexOf<T(==)>(s: seq<T>, x: T): (r: Option<nat>)
    ensures r.Some? ==> r.value < |s| && s[r.value] == x
    ensures r.Some? ==> x !in s[..r.value]
    ensures r.None? <==> x !in s
  {
    IndexWhere(s, y => y == x)
  }

  /** `s.splice(i, 1)` on a copy: the element at `i` is removed. */
  function RemoveAt<T>(s: seq<T>, i: nat): (r: seq<T>)
    requires i < |s|
    ensures |r| == |s| - 1
    ensures forall j :: 0 <= j < i ==> r[j] == s[j]
    ensures forall j :: i <= j < |r| ==> r[j] == s[j + 1]
  {
    s[..i] + s[i + 1..]
  }

  /** `s.filter(p)`. */
  function Filter<T(==)>(s: seq<T>, p: T -> bool): (r: seq<T>)
    ensures |r| <= |s|
    ensures IsSubseq(r, s)
    ensures forall x :: x in r ==> x in s && p(x)
    ensures forall i :: 0 <= i < |s| && p(s[i]) ==> s[i] in r
    ensures multiset(r) <= multiset(s)
    ensures forall x :: x in multiset(s) ==> multiset(r)[x] == if p(x) then multiset(s)[x] else 0
  {
    if |s| == 0 then []
    else
      assert s == [s[0]] + s[1..];
      if p(s[0]) then [s[0]] + Filter(s[1..], p)
      else Filter(s[1..], p)
  }

  /** `s.slice(0, n)`. */
  function Take<T>(s: seq<T>, n: nat): (r: seq<T>)
    ensures |r| == if n < |s| then n else |s|
    ensures forall i :: 0 <= i < |r| ==> r[i] == s[i]
  {
    if n < |s| then s[..n] else s
  }

  /** No two elements share the same `f`-image. */
  predicate DistinctBy<T, K(==)>(s: seq<T>, f: T -> K) {
    forall i, j :: 0 <= i < j < |s| ==> f(s[i]) != f(s[j])
  }

  /** No element occurs twice. */
  predicate NoDuplicates<T(==)>(s: seq<T>) {
    forall i, j :: 0 <= i < j < |s| ==> s[i] != s[j]
  }

  /** `s.indexOf(x)` followed by `splice(index, 1)` when found: the first `x` goes, if there is one. */
  function RemoveFirst<T(==)>(s: seq<T>, x: T): (r: seq<T>)
    ensures x !in s ==> r == s
    ensures x in s ==> |r| == |s| - 1
    ensures x in s ==> exists i :: 0 <= i < |s| && s[i] == x && x !in s[..i] && r == s[..i] + s[i + 1..]
    ensures multiset(r) == multiset(s) - multiset{x}
  {
    match IndexOf(s, x)
    case None =>
      assert multiset(s)[x] == 0;
      s
    case Some(i) =>
      assert s == s[..i] + [x] + s[i + 1..];
      s[..i] + s[i + 1..]
  }

  lemma IsSubseqRefl<T>(s: seq<T>)
    ensures IsSubseq(s, s)
    decreases |s|
  {
    if |s| > 0 {
      IsSubseqRefl(s[1..]);
    }
  }

  /** Dropping one position leaves an order-preserving subsequence. */
  lemma {:induction false} DropOneIsSubseq<T>(s: seq<T>, i: nat)
    requires i < |s|
    ensures IsSubseq(s[..i] + s[i + 1..], s)
    decreases i
  {
    var r := s[..i] + s[i + 1..];
    if i == 0 {
      assert r == s[1..];
      IsSubseqRefl(s[1..]);
    } else {
      DropOneIsSubseq(s[1..], i - 1);
      assert r[0] == s[0];
      assert r[1..] == s[1..][..i - 1] + s[1..][i..];
    }
  }

  /** Removing the first `x` keeps the remaining elements in their order. */
  lemma RemoveFirstIsSubseq<T>(s: seq<T>, x: T)
    ensures IsSubseq(RemoveFirst(s, x), s)
  {
    match IndexOf(s, x)
    case None =>
      IsSubseqRefl(s);
    case Some(i) =>
      DropOneIsSubseq(s, i);
  }

  /** Appending an absent element and removing it again restores the sequence. */
  lemma RemoveFirstAfterAppend<T>(s: seq<T>, x: T)
    requires x !in s
    ensures RemoveFirst(s + [x], x) == s
  {
    var t := s + [x];
    var i :| 0 <= i < |t| && t[i] == x && x !in t[..i] && RemoveFirst(t, x) == t[..i] + t[i + 1..];
    assert forall k :: 0 <= k < |s| ==> t[k] == s[k] && s[k] != x;
    assert t[..|s|] == s;
  }

  /** Dropping one position of a duplicate-free sequence leaves it duplicate-free and without the dropped element. */
  lemma {:induction false} RemoveAtNoDuplicates<T>(s: seq<T>, i: nat)
    requires NoDuplicates(s) && i < |s|
    ensures NoDuplicates(RemoveAt(s, i))
    ensures s[i] !in RemoveAt(s, i)
  {
    var r := RemoveAt(s, i);
    forall a, b | 0 <= a < b < |r|
      ensures r[a] != r[b]
    {
      var a', b' := if a < i then a else a + 1, if b < i then b else b + 1;
      assert r[a] == s[a'] && r[b] == s[b'];
    }
    forall k | 0 <= k < |r|
      ensures r[k] != s[i]
    {
      var k' := if k < i then k else k + 1;
      assert r[k] == s[k'];
    }
  }

  /** On a duplicate-free sequence the removal leaves no copy of `x`, and no duplicates. */
  lemma {:induction false} RemoveFirstNoDuplicates<T>(s: seq<T>, x: T)
    requires NoDuplicates(s)
    ensures NoDuplicates(RemoveFirst(s, x))
    ensures x !in RemoveFirst(s, x)
  {
    match IndexOf(s, x)
    case None =>
    case Some(i) =>
      assert RemoveFirst(s, x) == RemoveAt(s, i);
      RemoveAtNoDuplicates(s, i);
  }

  /** Appending an absent element keeps a sequence duplicate-free. */
  lemma AppendNoDuplicates<T>(s: seq<T>, x: T)
    requires NoDuplicates(s) && x !in s
    ensures NoDuplicates(s + [x])
  {
  }
  /** `d` followed by the elements of `s` that are new, each at its first occurrence. */
  function AppendNew<T(==)>(d: seq<T>, s: seq<T>): (r: seq<T>)
    ensures |d| <= |r| && r[..|d|] == d
    ensures forall i :: 0 <= i < |r| ==> r[i] in d || r[i] in s
    ensures forall i :: 0 <= i < |s| ==> s[i] in r
    ensures NoDuplicates(d) ==> NoDuplicates(r)
    decreases |s|
  {
    if |s| == 0 then d
    else
      var init, x := s[..|s| - 1], s[|s| - 1];
      assert s == init + [x];
      var e := AppendNew(d, init);
      if x in e then e
      else
        assert (e + [x])[..|d|] == e[..|d|];
        e + [x]
  }

  /** The distinct elements of `s` in order of first occurrence. */
  function Dedup<T(==)>(s: seq<T>): (r: seq<T>)
    ensures NoDuplicates(r)
    ensures forall i :: 0 <= i < |r| ==> r[i] in s
    ensures forall i :: 0 <= i < |s| ==> s[i] in r
  {
    AppendNew([], s)
  }

  /** `x` occurs in `s` before the first occurrence of `y`. */
  predicate OccursBefore<T(==)>(s: seq<T>, x: T, y: T) {
    exists p :: 0 <= p < |s| && s[p] == x && y !in s[..p + 1]
  }

  lemma OccursBeforeSnoc<T>(s: seq<T>, z: T, x: T, y: T)
    requires OccursBefore(s, x, y)
    ensures OccursBefore(s + [z], x, y)
  {
    var p :| 0 <= p < |s| && s[p] == x && y !in s[..p + 1];
    assert (s + [z])[..p + 1] == s[..p + 1];
  }

  /** Appending `b` after appending `a` is appending `a + b`. */
  lemma {:induction false} AppendNewAppend<T>(d: seq<T>, a: seq<T>, b: seq<T>)
    ensures AppendNew(AppendNew(d, a), b) == AppendNew(d, a + b)
    decreases |b|
  {
    if |b| == 0 {
      assert a + b == a;
    } else {
      var init, x := b[..|b| - 1], b[|b| - 1];
      AppendNewAppend(d, a, init);
      var e := AppendNew(d, a + init);
      assert AppendNew(AppendNew(d, a), b) == if x in e then e else e + [x];
      assert (a + b)[..|a + b| - 1] == a + init && (a + b)[|a + b| - 1] == x;
      assert AppendNew(d, a + b) == if x in e then e else e + [x];
    }
  }

  /** `Dedup` lists its elements in the order of their first occurrences. */
  lemma {:induction false} DedupFirstOccurrences<T>(s: seq<T>)
    ensures var r := Dedup(s);
            forall i, j :: 0 <= i < j < |r| ==> OccursBefore(s, r[i], r[j])
    decreases |s|
  {
    if |s| > 0 {
      var init, x := s[..|s| - 1], s[|s| - 1];
      assert s == init + [x];
      DedupFirstOccurrences(init);
      var d := Dedup(init);
      var r := Dedup(s);
      assert r == if x in d then d else d + [x];
      forall i, j | 0 <= i < j < |r|
        ensures OccursBefore(s, r[i], r[j])
      {
        if j < |d| {
          OccursBeforeSnoc(init, x, r[i], r[j]);
        } else {
          var p :| 0 <= p < |init| && init[p] == r[i];
          assert x !in init;
          assert s[..p + 1] == init[..p + 1];
        }
      }
    }
  }
}

=== FILE: sorting.dfy ===
/**
 * `Array.prototype.sort`, which is stable, as an insertion sort on sequences.
 * `le(a, b)` means "a may stand before b": for the dashboard's
 * `(a, b) => b.maxTradeVolume - a.maxTradeVolume` comparator it is
 * `a.maxTradeVolume >= b.maxTradeVolume`; for the default string sort it is
 * the lexicographic order.
 */
module Sorting {
  import opened Seqs

  ghost predicate TotalPreorder<T(!new)>(le: (T, T) -> bool) {
    && (forall a, b :: le(a, b) || le(b, a))
    && (forall a, b, c :: le(a, b) && le(b, c) ==> le(a, c))
  }

  ghost predicate Antisymmetric<T(!new)>(le: (T, T) -> bool) {
    forall a, b :: le(a, b) && le(b, a) ==> a == b
  }

  predicate Sorted<T>(s: seq<T>, le: (T, T) -> bool) {
    forall i, j :: 0 <= i < j < |s| ==> le(s[i], s[j])
  }

  /** The elements of `s` that the order cannot tell apart from `c`, in their order in `s`. */
  function Ties<T>(s: seq<T>, le: (T, T) -> bool, c: T): seq<T> {
    if |s| == 0 then []
    else (if le(s[0], c) && le(c, s[0]) then [s[0]] else []) + Ties(s[1..], le, c)
  }

  /** Places `x` after every element of `s` that may stand before it. */
  function Insert<T>(x: T, s: seq<T>, le: (T, T) -> bool): (r: seq<T>)
    ensures |r| == |s| + 1
    ensures multiset(r) == multiset(s) + multiset{x}
  {
    if |s| == 0 then [x]
    else if le(s[0], x) then
      assert s == [s[0]] + s[1..];
      [s[0]] + Insert(x, s[1..], le)
    else [x] + s
  }

  /** Stable insertion sort: a permutation of `s`. */
  function Sort<T>(s: seq<T>, le: (T, T) -> bool): (r: seq<T>)
    ensures |r| == |s|
    ensures multiset(r) == multiset(s)
  {
    if |s| == 0 then []
    else
      assert s == s[..|s| - 1] + [s[|s| - 1]];
      Insert(s[|s| - 1], Sort(s[..|s| - 1], le), le)
  }

  lemma {:induction false} InsertSorted<T(!new)>(x: T, s: seq<T>, le: (T, T) -> bool)
    requires TotalPreorder(le)
    requires Sorted(s, le)
    ensures Sorted(Insert(x, s, le), le)
  {
    if |s| > 0 && le(s[0], x) {
      var t := s[1..];
      InsertSorted(x, t, le);
      var r := Insert(x, t, le);
      forall y | y in r
        ensures le(s[0], y)
      {
        assert y in multiset(r);
        if y != x {
          assert y in multiset(t);
        }
      }
      assert Insert(x, s, le) == [s[0]] + r;
    } else if |s| > 0 {
      assert le(x, s[0]);
    }
  }

  /** The sort's result is ordered by `le`. */
  lemma {:induction false} SortSorted<T(!new)>(s: seq<T>, le: (T, T) -> bool)
    requires TotalPreorder(le)
    ensures Sorted(Sort(s, le), le)
  {
    if |s| > 0 {
      SortSorted(s[..|s| - 1], le);
      InsertSorted(s[|s| - 1], Sort(s[..|s| - 1], le), le);
    }
  }

  lemma TiesCons<T>(a: T, t: seq<T>, le: (T, T) -> bool, c: T)
    ensures Ties([a] + t, le, c) == Ties([a], le, c) + Ties(t, le, c)
  {
    assert ([a] + t)[1..] == t;
    assert [a][1..] == [];
  }

  lemma {:induction false} TiesAppend<T>(a: seq<T>, b: seq<T>, le: (T, T) -> bool, c: T)
    ensures Ties(a + b, le, c) == Ties(a, le, c) + Ties(b, le, c)
  {
    if |a| > 0 {
      assert a + b == [a[0]] + (a[1..] + b);
      assert a == [a[0]] + a[1..];
      TiesCons(a[0], a[1..] + b, le, c);
      TiesAppend(a[1..], b, le, c);
      TiesCons(a[0], a[1..], le, c);
    } else {
      assert a + b == b;
    }
  }

  /** The ties of the first `n` elements are a prefix of the ties of the whole sequence. */
  lemma TiesTake<T>(s: seq<T>, n: nat, le: (T, T) -> bool, c: T)
    ensures Ties(Take(s, n), le, c) <= Ties(s, le, c)
  {
    if n < |s| {
      assert s == s[..n] + s[n..];
      TiesAppend(s[..n], s[n..], le, c);
    }
  }

  lemma {:induction false} TiesNone<T>(s: seq<T>, le: (T, T) -> bool, c: T)
    requires forall i :: 0 <= i < |s| ==> !(le(s[i], c) && le(c, s[i]))
    ensures Ties(s, le, c) == []
  {
    if |s| > 0 {
      TiesNone(s[1..], le, c);
    }
  }

  /** When `x` goes in front of `s`, nothing in `s` ties with a `c` that `x` ties with. */
  lemma FrontTies<T(!new)>(x: T, s: seq<T>, le: (T, T) -> bool, c: T)
    requires TotalPreorder(le)
    requires Sorted(s, le)
    requires |s| > 0 && !le(s[0], x)
    ensures Ties([x] + s, le, c) == Ties(s, le, c) + Ties([x], le, c)
  {
    assert ([x] + s)[1..] == s;
    if le(x, c) && le(c, x) {
      forall i | 0 <= i < |s|
        ensures !le(s[i], c)
      {
        if i > 0 {
          assert le(s[0], s[i]);
        }
      }
      TiesNone(s, le, c);
    }
  }

  lemma {:induction false} SortedTail<T>(s: seq<T>, le: (T, T) -> bool)
    requires Sorted(s, le) && |s| > 0
    ensures Sorted(s[1..], le)
  {
    forall i, j | 0 <= i < j < |s| - 1
      ensures le(s[1..][i], s[1..][j])
    {
      assert s[1..][i] == s[i + 1] && s[1..][j] == s[j + 1];
    }
  }

  /** The step of `InsertStable` where `x` passes the head of `s`. */
  lemma {:induction false} InsertStableStep<T>(x: T, s: seq<T>, le: (T, T) -> bool, c: T)
    requires |s| > 0 && le(s[0], x)
    requires Ties(Insert(x, s[1..], le), le, c) == Ties(s[1..], le, c) + Ties([x], le, c)
    ensures Ties(Insert(x, s, le), le, c) == Ties(s, le, c) + Ties([x], le, c)
  {
    var a, b, d := Ties([s[0]], le, c), Ties(s[1..], le, c), Ties([x], le, c);
    var rest := Insert(x, s[1..], le);
    assert Ties(Insert(x, s, le), le, c) == a + Ties(rest, le, c) by {
      assert Insert(x, s, le) == [s[0]] + rest;
      TiesCons(s[0], rest, le, c);
    }
    assert Ties(s, le, c) == a + b by {
      assert s == [s[0]] + s[1..];
      TiesCons(s[0], s[1..], le, c);
    }
    assert a + (b + d) == (a + b) + d;
  }

  lemma {:induction false} InsertStable<T(!new)>(x: T, s: seq<T>, le: (T, T) -> bool, c: T)
    requires TotalPreorder(le)
    requires Sorted(s, le)
    ensures Ties(Insert(x, s, le), le, c) == Ties(s, le, c) + Ties([x], le, c)
  {
    if |s| == 0 {
    } else if le(s[0], x) {
      SortedTail(s, le);
      InsertStable(x, s[1..], le, c);
      InsertStableStep(x, s, le, c);
    } else {
      assert Insert(x, s, le) == [x] + s;
      FrontTies(x, s, le, c);
    }
  }

  /** Stability: elements the order ties keep their input order. */
  lemma {:induction false} SortStable<T(!new)>(s: seq<T>, le: (T, T) -> bool, c: T)
    requires TotalPreorder(le)
    ensures Ties(Sort(s, le), le, c) == Ties(s, le, c)
  {
    if |s| > 0 {
      var init, last := s[..|s| - 1], s[|s| - 1];
      var sorted := Sort(init, le);
      assert Sort(s, le) == Insert(last, sorted, le);
      assert Ties(sorted, le, c) == Ties(init, le, c) by {
        SortStable(init, le, c);
      }
      assert Ties(Insert(last, sorted, le), le, c) == Ties(sorted, le, c) + Ties([last], le, c) by {
        SortSorted(init, le);
        InsertStable(last, sorted, le, c);
      }
      assert Ties(s, le, c) == Ties(init, le, c) + Ties([last], le, c) by {
        assert s == init + [last];
        TiesAppend(init, [last], le, c);
      }
    }
  }

  /** The first element of a sorted sequence stands before every element of it. */
  lemma SortedHead<T(!new)>(a: seq<T>, le: (T, T) -> bool, x: T)
    requires TotalPreorder(le)
    requires Sorted(a, le) && |a| > 0 && x in a
    ensures le(a[0], x)
  {
    var i :| 0 <= i < |a| && a[i] == x;
    if i > 0 {
      assert le(a[0], a[i]);
    }
  }

  lemma TailMultiset<T>(a: seq<T>)
    requires |a| > 0
    ensures multiset(a[1..]) == multiset(a) - multiset{a[0]}
  {
    assert a == [a[0]] + a[1..];
  }

  /** Two sorted permutations of each other start with the same element. */
  lemma {:induction false} SortedHeadsEqual<T(!new)>(a: seq<T>, b: seq<T>, le: (T, T) -> bool)
    requires TotalPreorder(le) && Antisymmetric(le)
    requires Sorted(a, le) && Sorted(b, le)
    requires multiset(a) == multiset(b) && |a| > 0 && |b| > 0
    ensures a[0] == b[0]
  {
    assert a[0] in multiset(b) && b[0] in multiset(a);
    SortedHead(b, le, a[0]);
    SortedHead(a, le, b[0]);
  }

  /** Under an antisymmetric order, a sorted permutation is unique. */
  lemma {:induction false} SortedPermutationsEqual<T(!new)>(a: seq<T>, b: seq<T>, le: (T, T) -> bool)
    requires TotalPreorder(le) && Antisymmetric(le)
    requires Sorted(a, le) && Sorted(b, le)
    requires multiset(a) == multiset(b)
    ensures a == b
    decreases |a|
  {
    assert |a| == |multiset(a)| == |multiset(b)| == |b|;
    if |a| > 0 {
      SortedHeadsEqual(a, b, le);
      TailMultiset(a);
      TailMultiset(b);
      SortedTail(a, le);
      SortedTail(b, le);
      SortedPermutationsEqual(a[1..], b[1..], le);
      assert a == [a[0]] + a[1..];
      assert b == [b[0]] + b[1..];
    }
  }

  lemma {:induction false} InsertDistinct<T, K>(x: T, s: seq<T>, le: (T, T) -> bool, f: T -> K)
    requires DistinctBy(s, f)
    requires forall y :: y in s ==> f(y) != f(x)
    ensures DistinctBy(Insert(x, s, le), f)
  {
    if |s| > 0 && le(s[0], x) {
      var t := s[1..];
      InsertDistinct(x, t, le, f);
      var r := Insert(x, t, le);
      forall y | y in r
        ensures f(s[0]) != f(y)
      {
        assert y in multiset(r);
        if y != x {
          assert y in multiset(t);
          var k :| 0 <= k < |t| && t[k] == y;
          assert s[k + 1] == y;
        }
      }
      assert Insert(x, s, le) == [s[0]] + r;
    }
  }

  /** Sorting keeps a projection duplicate-free. */
  lemma {:induction false} SortDistinct<T, K>(s: seq<T>, le: (T, T) -> bool, f: T -> K)
    requires DistinctBy(s, f)
    ensures DistinctBy(Sort(s, le), f)
  {
    if |s| > 0 {
      var init, last := s[..|s| - 1], s[|s| - 1];
      SortDistinct(init, le, f);
      forall y | y in Sort(init, le)
        ensures f(y) != f(last)
      {
        assert y in multiset(Sort(init, le));
        var k :| 0 <= k < |init| && init[k] == y;
        assert s[k] == y;
      }
      InsertDistinct(last, Sort(init, le), le, f);
    }
  }
}

=== FILE: storage.dfy ===
/**
 * Reading a string list back from `localStorage`. The read and the JSON
 * parse are not run: their outcome is the `Stored` value.
 */
module Storage {
  import opened Wrappers

  /**
   * `localStorage.getItem(key)`: no item, or its text together with what
   * `JSON.parse` made of it (`None` when parsing throws).
   */
  datatype Stored = Missing | Item(text: string, parsed: Option<seq<string>>)

  /** The stored list is used only when the text is non-empty (truthy) and parses. */
  predicate Usable(stored: Stored) {
    stored.Item? && stored.text != "" && stored.parsed.Some?
  }

  /** `stored ? JSON.parse(stored) : fallback`, with a throwing parse also giving `fallback`. */
  function LoadList(stored: Stored, fallback: seq<string>): (r: seq<string>)
    ensures Usable(stored) ==> r == stored.parsed.value
    ensures !Usable(stored) ==> r == fallback
  {
    match stored
    case Missing => fallback
    case Item(text, parsed) =>
      if text == "" then fallback
      else match parsed
        case None => fallback
        case Some(list) => list
  }
}

=== FILE: strings.dfy ===
/**
 * String operations with JavaScript semantics: prefix/suffix tests,
 * `indexOf`, `replace` with a string pattern (first occurrence only),
 * ASCII `toUpperCase`, and the code-unit order `Array.prototype.sort` uses.
 */
module Strings {
  import opened Wrappers

  predicate StartsWith(s: string, p: string) {
    |p| <= |s| && s[..|p|] == p
  }

  predicate EndsWith(s: string, p: string) {
    |p| <= |s| && s[|s| - |p|..] == p
  }

  /** `p` occurs in `s` starting at index `i`. */
  predicate OccursAt(s: string, p: string, i: nat) {
    i + |p| <= |s| && s[i..i + |p|] == p
  }

  /** Index of the first occurrence of `p` in `s` at or after `from` (`s.indexOf(p, from)`). */
  function IndexOfFrom(s: string, p: string, from: nat): (r: Option<nat>)
    ensures r.Some? ==> from <= r.value && OccursAt(s, p, r.value)
    ensures r.Some? ==> forall j: nat :: from <= j < r.value ==> !OccursAt(s, p, j)
    ensures r.None? ==> forall j: nat :: from <= j ==> !OccursAt(s, p, j)
    decreases |s| - from
  {
    if from + |p| > |s| then None
    else if s[from..from + |p|] == p then Some(from)
    else IndexOfFrom(s, p, from + 1)
  }

  /** `s.indexOf(p)`: the first occurrence of `p` anywhere in `s`. */
  function IndexOf(s: string, p: string): (r: Option<nat>)
    ensures r.Some? ==> OccursAt(s, p, r.value) && forall j: nat :: j < r.value ==> !OccursAt(s, p, j)
    ensures r.None? ==> forall j: nat :: !OccursAt(s, p, j)
  {
    IndexOfFrom(s, p, 0)
  }

  /** `s.replace(p, rep)` with a string pattern: only the FIRST occurrence is replaced. */
  function ReplaceFirst(s: string, p: string, rep: string): (r: string)
    ensures (forall j: nat :: !OccursAt(s, p, j)) ==> r == s
    ensures forall i: nat :: OccursAt(s, p, i) && (forall j: nat :: j < i ==> !OccursAt(s, p, j))
              ==> r == s[..i] + rep + s[i + |p|..]
  {
    match IndexOf(s, p)
    case None => s
    case Some(i) =>
      assert OccursAt(s, p, i);
      s[..i] + rep + s[i + |p|..]
  }

  /** A prefix is its own first occurrence, so `replace` drops exactly that prefix. */
  lemma ReplacePrefix(s: string, p: string)
    requires StartsWith(s, p)
    ensures ReplaceFirst(s, p, "") == s[|p|..]
  {
    assert OccursAt(s, p, 0);
    assert s[..0] + "" + s[|p|..] == s[|p|..];
  }

  /** Removing an occurrence shortens the string by the pattern's length. */
  lemma ReplaceFirstLength(s: string, p: string)
    requires exists i: nat :: OccursAt(s, p, i)
    ensures |ReplaceFirst(s, p, "")| == |s| - |p|
  {
    var i := IndexOf(s, p);
    assert i.Some?;
    assert OccursAt(s, p, i.value);
  }

  /** ASCII `toUpperCase` of one character. */
  function UpperChar(c: char): (r: char)
    ensures 'a' <= c <= 'z' ==> r as int == c as int - 32
    ensures !('a' <= c <= 'z') ==> r == c
  {
    if 'a' <= c <= 'z' then (c as int - 32) as char else c
  }

  /** ASCII `toUpperCase` of a string. */
  function ToUpper(s: string): (r: string)
    ensures |r| == |s|
    ensures forall i :: 0 <= i < |s| ==> r[i] == UpperChar(s[i])
  {
    seq(|s|, i requires 0 <= i < |s| => UpperChar(s[i]))
  }

  /** Upper-casing twice is upper-casing once. */
  lemma ToUpperIdempotent(s: string)
    ensures ToUpper(ToUpper(s)) == ToUpper(s)
  {
    var u := ToUpper(s);
    forall i | 0 <= i < |u|
      ensures UpperChar(u[i]) == u[i]
    {
      assert u[i] == UpperChar(s[i]);
    }
  }

  /**
   * The default order of `Array.prototype.sort` on strings: lexicographic by
   * character code, a proper prefix sorting first.
   */
  predicate LexLe(a: string, b: string)
    decreases |a|
  {
    |a| == 0 || (|b| > 0 && (a[0] < b[0] || (a[0] == b[0] && LexLe(a[1..], b[1..]))))
  }

  lemma {:induction false} LexLeTotal(a: string, b: string)
    ensures LexLe(a, b) || LexLe(b, a)
    decreases |a|
  {
    if |a| > 0 && |b| > 0 && a[0] == b[0] {
      LexLeTotal(a[1..], b[1..]);
    }
  }

  lemma {:induction false} LexLeAntisymmetric(a: string, b: string)
    requires LexLe(a, b) && LexLe(b, a)
    ensures a == b
    decreases |a|
  {
    if |a| > 0 && |b| > 0 {
      LexLeAntisymmetric(a[1..], b[1..]);
      assert a == [a[0]] + a[1..];
      assert b == [b[0]] + b[1..];
    }
  }

  lemma {:induction false} LexLeTransitive(a: string, b: string, c: string)
    requires LexLe(a, b) && LexLe(b, c)
    ensures LexLe(a, c)
    decreases |a|
  {
    if |a| > 0 && a[0] == b[0] && b[0] == c[0] {
      LexLeTransitive(a[1..], b[1..], c[1..]);
    }
  }
}

=== FILE: symbol_matcher.dfy ===
/**
 * The symbol matcher used by `UnifiedExchangeService`: it pairs Upbit `KRW-XXX`
 * markets with Binance `XXXUSDT` contracts, and merges both exchanges' tickers
 * into one list sorted by trade volume.
 */
module SymbolMatcher {
  import opened Wrappers
  import opened Js
  import opened Types
  import Strings
  import Seqs
  import Sorting

  /** Binance-only coins need more than this 24-hour quote volume (USDT) to be listed. */
  const BinanceOnlyMinVolume: real := 1000000.0

  /** At most this many Binance-only coins are listed. */
  const BinanceOnlyLimit: nat := 50

  datatype MatchedPair = MatchedPair(coin: string, upbit: string, binance: string, name: string)
  datatype UpbitOnlyCoin = UpbitOnlyCoin(coin: string, upbit: string, name: string)
  datatype BinanceOnlyCoin = BinanceOnlyCoin(coin: string, binance: string)
  datatype MatchResult = MatchResult(
    matched: seq<MatchedPair>,
    upbitOnly: seq<UpbitOnlyCoin>,
    binanceOnly: seq<BinanceOnlyCoin>)

  /** A Binance-only coin together with the ticker found for it, if any. */
  datatype BinanceItem = BinanceItem(coin: BinanceOnlyCoin, ticker: Option<Ticker>)

  /**
   * This module's `extractCoinSymbol`: `replace('KRW-', '')`, which deletes
   * the first `KRW-` wherever it stands and does nothing about `USDT`.
   */
  function ExtractCoinSymbol(upbitSymbol: string): string {
    Strings.ReplaceFirst(upbitSymbol, "KRW-", "")
  }

  /** The first `KRW-` goes, wherever it stands; without one the symbol is unchanged. */
  lemma ExtractCoinSymbolCases(upbitSymbol: string)
    ensures Strings.StartsWith(upbitSymbol, "KRW-") ==> ExtractCoinSymbol(upbitSymbol) == upbitSymbol[4..]
    ensures (forall j: nat :: !Strings.OccursAt(upbitSymbol, "KRW-", j)) ==> ExtractCoinSymbol(upbitSymbol) == upbitSymbol
    ensures forall i: nat ::
              Strings.OccursAt(upbitSymbol, "KRW-", i) && (forall j: nat :: j < i ==> !Strings.OccursAt(upbitSymbol, "KRW-", j))
              ==> ExtractCoinSymbol(upbitSymbol) == upbitSymbol[..i] + upbitSymbol[i + 4..]
  {
    if Strings.StartsWith(upbitSymbol, "KRW-") {
      Strings.ReplacePrefix(upbitSymbol, "KRW-");
    }
  }

  predicate HasSymbol(m: SymbolInfo, symbol: string) {
    m.symbol == symbol
  }

  /** `findBinanceSymbol`: `coin + "USDT"` when Binance lists that symbol, otherwise null. */
  function FindBinanceSymbol(coin: string, binanceMarkets: seq<SymbolInfo>): (r: Option<string>)
    ensures r.Some? <==> exists m :: m in binanceMarkets && m.symbol == coin + "USDT"
    ensures r.Some? ==> r.value == coin + "USDT"
  {
    var target := coin + "USDT";
    match Seqs.Find(binanceMarkets, m => HasSymbol(m, target))
    case None => None
    case Some(m) => Some(m.symbol)
  }

  function MarketCodes(ms: seq<UpbitMarket>): (r: seq<string>)
    ensures |r| == |ms| && forall i :: 0 <= i < |ms| ==> r[i] == ms[i].market
  {
    if |ms| == 0 then [] else [ms[0].market] + MarketCodes(ms[1..])
  }

  function PairUpbits(ps: seq<MatchedPair>): (r: seq<string>)
    ensures |r| == |ps| && forall i :: 0 <= i < |ps| ==> r[i] == ps[i].upbit
  {
    if |ps| == 0 then [] else [ps[0].upbit] + PairUpbits(ps[1..])
  }

  function OnlyUpbits(us: seq<UpbitOnlyCoin>): (r: seq<string>)
    ensures |r| == |us| && forall i :: 0 <= i < |us| ==> r[i] == us[i].upbit
  {
    if |us| == 0 then [] else [us[0].upbit] + OnlyUpbits(us[1..])
  }

  /** The set of Binance symbols already claimed by a matched pair. */
  function MatchedBinance(ps: seq<MatchedPair>): set<string> {
    set p | p in ps :: p.binance
  }

  /** `matchSymbols`, first loop: each Upbit market lands in `matched` or in `upbitOnly`. */
  function SplitUpbit(upbitMarkets: seq<UpbitMarket>, binanceMarkets: seq<SymbolInfo>)
    : (r: (seq<MatchedPair>, seq<UpbitOnlyCoin>))
    ensures |r.0| + |r.1| == |upbitMarkets|
  {
    if |upbitMarkets| == 0 then ([], [])
    else
      var u := upbitMarkets[0];
      var rest := SplitUpbit(upbitMarkets[1..], binanceMarkets);
      var coin := ExtractCoinSymbol(u.market);
      match FindBinanceSymbol(coin, binanceMarkets)
      case Some(b) =>
        var p := MatchedPair(coin, u.market, b, u.koreanName);
        ([p] + rest.0, rest.1)
      case None =>
        var o := UpbitOnlyCoin(coin, u.market, u.koreanName);
        (rest.0, [o] + rest.1)
  }

  /** One step of the loop: the first market goes to the front of its bucket. */
  lemma SplitUpbitStep(upbitMarkets: seq<UpbitMarket>, binanceMarkets: seq<SymbolInfo>)
    requires |upbitMarkets| > 0
    ensures var u := upbitMarkets[0];
            var coin := ExtractCoinSymbol(u.market);
            var found := FindBinanceSymbol(coin, binanceMarkets);
            var r := SplitUpbit(upbitMarkets, binanceMarkets);
            var rest := SplitUpbit(upbitMarkets[1..], binanceMarkets);
            && (found.Some? ==> r == ([MatchedPair(coin, u.market, found.value, u.koreanName)] + rest.0, rest.1))
            && (found.None? ==> r == (rest.0, [UpbitOnlyCoin(coin, u.market, u.koreanName)] + rest.1))
  {
  }

  /** Putting `x` in front of either of two buckets that split `codes[1..]` splits `codes`. */
  lemma PartitionStep(x: string, a: seq<string>, b: seq<string>, a': seq<string>, b': seq<string>, codes: seq<string>)
    requires |codes| > 0 && codes[0] == x
    requires multiset(a') + multiset(b') == multiset(codes[1..])
    requires (a == [x] + a' && b == b') || (a == a' && b == [x] + b')
    ensures multiset(a) + multiset(b) == multiset(codes)
  {
    assert codes == [x] + codes[1..];
  }

  /** Every Upbit market lands in exactly one bucket. */
  lemma {:induction false} SplitUpbitPartitions(upbitMarkets: seq<UpbitMarket>, binanceMarkets: seq<SymbolInfo>)
    ensures var r := SplitUpbit(upbitMarkets, binanceMarkets);
            multiset(PairUpbits(r.0)) + multiset(OnlyUpbits(r.1)) == multiset(MarketCodes(upbitMarkets))
  {
    if |upbitMarkets| > 0 {
      var u, tail := upbitMarkets[0], upbitMarkets[1..];
      var rest := SplitUpbit(tail, binanceMarkets);
      var r := SplitUpbit(upbitMarkets, binanceMarkets);
      var a, b := PairUpbits(r.0), OnlyUpbits(r.1);
      var a', b' := PairUpbits(rest.0), OnlyUpbits(rest.1);
      assert (a == [u.market] + a' && b == b') || (a == a' && b == [u.market] + b') by {
        SplitUpbitStep(upbitMarkets, binanceMarkets);
        if |r.0| > |rest.0| {
          assert r.0[1..] == rest.0 && r.1 == rest.1;
        } else {
          assert r.1[1..] == rest.1 && r.0 == rest.0;
        }
      }
      var codes := MarketCodes(upbitMarkets);
      assert codes[0] == u.market && codes[1..] == MarketCodes(tail);
      SplitUpbitPartitions(tail, binanceMarkets);
      PartitionStep(u.market, a, b, a', b', codes);
    }
  }

  /** Both buckets keep the Upbit listing order. */
  lemma {:induction false} SplitUpbitKeepsOrder(upbitMarkets: seq<UpbitMarket>, binanceMarkets: seq<SymbolInfo>)
    ensures var r := SplitUpbit(upbitMarkets, binanceMarkets);
            Seqs.IsSubseq(PairUpbits(r.0), MarketCodes(upbitMarkets))
            && Seqs.IsSubseq(OnlyUpbits(r.1), MarketCodes(upbitMarkets))
  {
    if |upbitMarkets| > 0 {
      var u, tail := upbitMarkets[0], upbitMarkets[1..];
      SplitUpbitKeepsOrder(tail, binanceMarkets);
      var rest := SplitUpbit(tail, binanceMarkets);
      var r := SplitUpbit(upbitMarkets, binanceMarkets);
      var codes := MarketCodes(upbitMarkets);
      assert codes == [u.market] + MarketCodes(tail);
      assert codes[1..] == MarketCodes(tail);
      if FindBinanceSymbol(ExtractCoinSymbol(u.market), binanceMarkets).Some? {
        var p := r.0[0];
        assert r.0 == [p] + rest.0 && r.1 == rest.1;
        assert PairUpbits(r.0)[1..] == PairUpbits(rest.0);
        assert Seqs.IsSubseq(PairUpbits(r.0), codes);
        assert Seqs.IsSubseq(OnlyUpbits(r.1), codes);
      } else {
        var o := r.1[0];
        assert r.1 == [o] + rest.1 && r.0 == rest.0;
        assert OnlyUpbits(r.1)[1..] == OnlyUpbits(rest.1);
        assert Seqs.IsSubseq(PairUpbits(r.0), codes);
        assert Seqs.IsSubseq(OnlyUpbits(r.1), codes);
      }
    }
  }

  /** A pair records its Upbit listing's name and the Binance symbol that made it a match. */
  predicate PairFrom(p: MatchedPair, upbitMarkets: seq<UpbitMarket>, binanceMarkets: seq<SymbolInfo>) {
    && p.coin == ExtractCoinSymbol(p.upbit)
    && p.binance == p.coin + "USDT"
    && (exists m :: m in binanceMarkets && m.symbol == p.binance)
    && (exists u :: u in upbitMarkets && u.market == p.upbit && u.koreanName == p.name)
  }

  /** An Upbit-only coin records its listing's name, and Binance has no `coin + "USDT"` symbol. */
  predicate OnlyFrom(o: UpbitOnlyCoin, upbitMarkets: seq<UpbitMarket>, binanceMarkets: seq<SymbolInfo>) {
    && o.coin == ExtractCoinSymbol(o.upbit)
    && (forall m :: m in binanceMarkets ==> m.symbol != o.coin + "USDT")
    && (exists v :: v in upbitMarkets && v.market == o.upbit && v.koreanName == o.name)
  }

  /** A market is matched exactly when Binance lists its coin against USDT; names come from the listing. */
  lemma {:induction false} SplitUpbitClassifies(upbitMarkets: seq<UpbitMarket>, binanceMarkets: seq<SymbolInfo>)
    ensures var r := SplitUpbit(upbitMarkets, binanceMarkets);
            && (forall p :: p in r.0 ==> PairFrom(p, upbitMarkets, binanceMarkets))
            && (forall o :: o in r.1 ==> OnlyFrom(o, upbitMarkets, binanceMarkets))
  {
    if |upbitMarkets| > 0 {
      var u, tail := upbitMarkets[0], upbitMarkets[1..];
      SplitUpbitClassifies(tail, binanceMarkets);
      var rest := SplitUpbit(tail, binanceMarkets);
      var r := SplitUpbit(upbitMarkets, binanceMarkets);
      assert u in upbitMarkets;
      forall p | p in rest.0
        ensures PairFrom(p, upbitMarkets, binanceMarkets)
      {
        assert PairFrom(p, tail, binanceMarkets);
        var v :| v in tail && v.market == p.upbit && v.koreanName == p.name;
        assert v in upbitMarkets;
      }
      forall o | o in rest.1
        ensures OnlyFrom(o, upbitMarkets, binanceMarkets)
      {
        assert OnlyFrom(o, tail, binanceMarkets);
        var v :| v in tail && v.market == o.upbit && v.koreanName == o.name;
        assert v in upbitMarkets;
      }
      if FindBinanceSymbol(ExtractCoinSymbol(u.market), binanceMarkets).Some? {
        assert PairFrom(r.0[0], upbitMarkets, binanceMarkets);
        assert r.0 == [r.0[0]] + rest.0 && r.1 == rest.1;
      } else {
        assert OnlyFrom(r.1[0], upbitMarkets, binanceMarkets);
        assert r.1 == [r.1[0]] + rest.1 && r.0 == rest.0;
      }
    }
  }

  function ToBinanceOnly(m: SymbolInfo): BinanceOnlyCoin {
    BinanceOnlyCoin(m.baseAsset, m.symbol)
  }

  function AllBinanceOnly(ms: seq<SymbolInfo>): (r: seq<BinanceOnlyCoin>)
    ensures |r| == |ms| && forall i :: 0 <= i < |ms| ==> r[i] == ToBinanceOnly(ms[i])
  {
    seq(|ms|, i requires 0 <= i < |ms| => ToBinanceOnly(ms[i]))
  }

  predicate Unclaimed(b: BinanceOnlyCoin, claimed: set<string>) {
    b.binance !in claimed
  }

  /** `matchSymbols`, second loop: the Binance markets no pair claimed, in listing order, keyed by base asset. */
  function UnclaimedBinance(binanceMarkets: seq<SymbolInfo>, matched: seq<MatchedPair>): (r: seq<BinanceOnlyCoin>)
    ensures Seqs.IsSubseq(r, AllBinanceOnly(binanceMarkets))
    ensures forall b :: b in r ==>
              b.binance !in MatchedBinance(matched)
              && exists m :: m in binanceMarkets && m.symbol == b.binance && m.baseAsset == b.coin
    ensures forall m :: m in binanceMarkets && m.symbol !in MatchedBinance(matched) ==> ToBinanceOnly(m) in r
    ensures forall b :: multiset(r)[b] ==
              if b.binance !in MatchedBinance(matched) then multiset(AllBinanceOnly(binanceMarkets))[b] else 0
  {
    var claimed := MatchedBinance(matched);
    var all := AllBinanceOnly(binanceMarkets);
    assert forall m :: m in binanceMarkets ==> ToBinanceOnly(m) in all;
    Seqs.Filter(all, b => Unclaimed(b, claimed))
  }

  /** `matchSymbols`: the three buckets. */
  function MatchSymbols(upbitMarkets: seq<UpbitMarket>, binanceMarkets: seq<SymbolInfo>): (r: MatchResult)
    ensures |r.matched| + |r.upbitOnly| == |upbitMarkets|
    ensures multiset(PairUpbits(r.matched)) + multiset(OnlyUpbits(r.upbitOnly)) == multiset(MarketCodes(upbitMarkets))
    ensures Seqs.IsSubseq(PairUpbits(r.matched), MarketCodes(upbitMarkets))
    ensures Seqs.IsSubseq(OnlyUpbits(r.upbitOnly), MarketCodes(upbitMarkets))
    ensures forall p :: p in r.matched ==> PairFrom(p, upbitMarkets, binanceMarkets)
    ensures forall o :: o in r.upbitOnly ==> OnlyFrom(o, upbitMarkets, binanceMarkets)
    ensures Seqs.IsSubseq(r.binanceOnly, AllBinanceOnly(binanceMarkets))
    ensures forall b :: b in r.binanceOnly ==>
              b.binance !in MatchedBinance(r.matched)
              && exists m :: m in binanceMarkets && m.symbol == b.binance && m.baseAsset == b.coin
    ensures forall m :: m in binanceMarkets && m.symbol !in MatchedBinance(r.matched) ==>
              ToBinanceOnly(m) in r.binanceOnly
    ensures forall b :: multiset(r.binanceOnly)[b] ==
              if b.binance !in MatchedBinance(r.matched) then multiset(AllBinanceOnly(binanceMarkets))[b] else 0
  {
    var (matched, upbitOnly) := SplitUpbit(upbitMarkets, binanceMarkets);
    SplitUpbitPartitions(upbitMarkets, binanceMarkets);
    SplitUpbitKeepsOrder(upbitMarkets, binanceMarkets);
    SplitUpbitClassifies(upbitMarkets, binanceMarkets);
    MatchResult(matched, upbitOnly, UnclaimedBinance(binanceMarkets, matched))
  }

  // ---------------------------------------------------------------------------
  // combineExchangeData

  function UpbitSide(t: Ticker): (s: Side)
    ensures s.symbol == t.market && s.tradeVolume == t.accTradePrice24h
  {
    Side(t.market, t.tradePrice, t.change, t.changeRate, t.changePrice, t.accTradePrice24h)
  }

  function BinanceSide(t: Ticker): (s: Side)
    ensures s.symbol == t.market && s.tradeVolume == t.accTradePrice
  {
    Side(t.market, t.tradePrice, t.change, t.changeRate, t.changePrice, t.accTradePrice)
  }

  /** A matched pair always yields an entry, with whichever tickers were found (possibly none). */
  function MatchedEntry(pair: MatchedPair, upbitTickers: seq<Ticker>, binanceTickers: seq<Ticker>): (c: Coin)
    ensures c.coinSymbol == pair.coin && c.name == pair.name
    ensures c.upbit.Some? <==> FindTicker(upbitTickers, pair.upbit).Some?
    ensures c.binance.Some? <==> FindTicker(binanceTickers, pair.binance).Some?
    ensures c.upbit.Some? ==> c.upbit.value.symbol == pair.upbit
    ensures c.binance.Some? ==> c.binance.value.symbol == pair.binance
    ensures c.maxTradeVolume == Max(
              OrZero(match FindTicker(upbitTickers, pair.upbit) case Some(t) => t.accTradePrice24h case None => None),
              OrZero(match FindTicker(binanceTickers, pair.binance) case Some(t) => t.accTradePrice case None => None))
  {
    var ut := FindTicker(upbitTickers, pair.upbit);
    var bt := FindTicker(binanceTickers, pair.binance);
    var upbitVolume := OrZero(match ut case Some(t) => t.accTradePrice24h case None => None);
    var binanceVolume := OrZero(match bt case Some(t) => t.accTradePrice case None => None);
    Coin(
      coinSymbol := pair.coin,
      name := pair.name,
      upbit := match ut case Some(t) => Some(UpbitSide(t)) case None => None,
      binance := match bt case Some(t) => Some(BinanceSide(t)) case None => None,
      maxTradeVolume := Max(upbitVolume, binanceVolume))
  }

  function MatchedEntries(matched: seq<MatchedPair>, upbitTickers: seq<Ticker>, binanceTickers: seq<Ticker>)
    : (r: seq<Coin>)
    ensures |r| == |matched|
    ensures forall i :: 0 <= i < |r| ==> r[i] == MatchedEntry(matched[i], upbitTickers, binanceTickers)
  {
    seq(|matched|, i requires 0 <= i < |matched| => MatchedEntry(matched[i], upbitTickers, binanceTickers))
  }

  function UpbitOnlyEntry(u: UpbitOnlyCoin, t: Ticker): Coin {
    Coin(u.coin, u.name, Some(UpbitSide(t)), None, OrZero(t.accTradePrice24h))
  }

  /** The Upbit-only coins that have a ticker, in listing order. */
  function FoundUpbitOnly(upbitOnly: seq<UpbitOnlyCoin>, upbitTickers: seq<Ticker>): (r: seq<UpbitOnlyCoin>)
    ensures |r| <= |upbitOnly|
    ensures Seqs.IsSubseq(r, upbitOnly)
    ensures forall i :: 0 <= i < |r| ==> r[i] in upbitOnly && FindTicker(upbitTickers, r[i].upbit).Some?
    ensures forall u :: u in upbitOnly && FindTicker(upbitTickers, u.upbit).Some? ==> u in r
  {
    if |upbitOnly| == 0 then []
    else
      var rest := FoundUpbitOnly(upbitOnly[1..], upbitTickers);
      assert forall v :: v in upbitOnly[1..] ==> v in upbitOnly;
      if FindTicker(upbitTickers, upbitOnly[0].upbit).Some? then [upbitOnly[0]] + rest else rest
  }

  /** The `forEach` over the Upbit-only coins: one row per coin with a ticker, pushed in turn. */
  function UpbitOnlyRows(upbitOnly: seq<UpbitOnlyCoin>, upbitTickers: seq<Ticker>): (r: seq<Coin>)
    ensures var found := FoundUpbitOnly(upbitOnly, upbitTickers);
            |r| == |found|
            && forall i :: 0 <= i < |r| ==> r[i] == UpbitOnlyEntry(found[i], FindTicker(upbitTickers, found[i].upbit).value)
  {
    if |upbitOnly| == 0 then []
    else
      var rest := UpbitOnlyRows(upbitOnly[1..], upbitTickers);
      match FindTicker(upbitTickers, upbitOnly[0].upbit)
      case Some(t) => [UpbitOnlyEntry(upbitOnly[0], t)] + rest
      case None => rest
  }

  /** Upbit-only coins whose ticker was found, in input order; the others are dropped. */
  function UpbitOnlyEntries(upbitOnly: seq<UpbitOnlyCoin>, upbitTickers: seq<Ticker>): (r: seq<Coin>)
    ensures |r| <= |upbitOnly|
    ensures var found := FoundUpbitOnly(upbitOnly, upbitTickers);
            |r| == |found|
            && forall i :: 0 <= i < |r| ==> r[i] == UpbitOnlyEntry(found[i], FindTicker(upbitTickers, found[i].upbit).value)
    ensures forall c :: c in r ==>
              exists u :: u in upbitOnly && FindTicker(upbitTickers, u.upbit).Some?
                && c == UpbitOnlyEntry(u, FindTicker(upbitTickers, u.upbit).value)
    ensures forall u :: u in upbitOnly && FindTicker(upbitTickers, u.upbit).Some? ==>
              UpbitOnlyEntry(u, FindTicker(upbitTickers, u.upbit).value) in r
  {
    var r := UpbitOnlyRows(upbitOnly, upbitTickers);
    UpbitOnlyRowsMembers(upbitOnly, upbitTickers, r);
    r
  }

  lemma UpbitOnlyRowsMembers(upbitOnly: seq<UpbitOnlyCoin>, upbitTickers: seq<Ticker>, r: seq<Coin>)
    requires r == UpbitOnlyRows(upbitOnly, upbitTickers)
    ensures forall c :: c in r ==>
              exists u :: u in upbitOnly && FindTicker(upbitTickers, u.upbit).Some?
                && c == UpbitOnlyEntry(u, FindTicker(upbitTickers, u.upbit).value)
    ensures forall u :: u in upbitOnly && FindTicker(upbitTickers, u.upbit).Some? ==>
              UpbitOnlyEntry(u, FindTicker(upbitTickers, u.upbit).value) in r
  {
    var found := FoundUpbitOnly(upbitOnly, upbitTickers);
    forall c | c in r
      ensures exists u :: u in upbitOnly && FindTicker(upbitTickers, u.upbit).Some?
                && c == UpbitOnlyEntry(u, FindTicker(upbitTickers, u.upbit).value)
    {
      var k :| 0 <= k < |r| && r[k] == c;
      assert found[k] in upbitOnly;
    }
    forall u | u in upbitOnly && FindTicker(upbitTickers, u.upbit).Some?
      ensures UpbitOnlyEntry(u, FindTicker(upbitTickers, u.upbit).value) in r
    {
      var k :| 0 <= k < |found| && found[k] == u;
      assert r[k] == UpbitOnlyEntry(u, FindTicker(upbitTickers, u.upbit).value);
    }
  }

  /** `item.ticker.acc_trade_price` of a Binance-only item (0 when missing). */
  function ItemVolume(item: BinanceItem): real {
    match item.ticker
    case Some(t) => OrZero(t.accTradePrice)
    case None => 0.0
  }

  /** `item.ticker && item.ticker.acc_trade_price > 1000000`. */
  predicate Qualifies(item: BinanceItem) {
    item.ticker.Some? && item.ticker.value.accTradePrice.Some?
    && item.ticker.value.accTradePrice.value > BinanceOnlyMinVolume
  }

  /** The order of `(a, b) => b.ticker.acc_trade_price - a.ticker.acc_trade_price`. */
  predicate ItemVolumeGe(a: BinanceItem, b: BinanceItem) {
    ItemVolume(a) >= ItemVolume(b)
  }

  function ToItem(b: BinanceOnlyCoin, binanceTickers: seq<Ticker>): BinanceItem {
    BinanceItem(b, FindTicker(binanceTickers, b.binance))
  }

  /** The entry of a Binance-only coin; only items with a ticker reach it. */
  function BinanceOnlyEntry(item: BinanceItem): Coin {
    match item.ticker
    case Some(t) => Coin(item.coin.coin, item.coin.coin, None, Some(BinanceSide(t)), OrZero(t.accTradePrice))
    case None => Coin(item.coin.coin, item.coin.coin, None, None, 0.0)
  }

  /** `binanceOnly.map(...)`: each Binance-only coin with its ticker, if one was found. */
  function Items(binanceOnly: seq<BinanceOnlyCoin>, binanceTickers: seq<Ticker>): (r: seq<BinanceItem>)
    ensures |r| == |binanceOnly|
    ensures forall i :: 0 <= i < |r| ==> r[i] == ToItem(binanceOnly[i], binanceTickers)
  {
    seq(|binanceOnly|, i requires 0 <= i < |binanceOnly| => ToItem(binanceOnly[i], binanceTickers))
  }

  /** The items that pass the volume filter, in listing order. */
  function QualifyingItems(binanceOnly: seq<BinanceOnlyCoin>, binanceTickers: seq<Ticker>): (r: seq<BinanceItem>)
    ensures forall item :: item in r ==> Qualifies(item)
  {
    Seqs.Filter(Items(binanceOnly, binanceTickers), Qualifies)
  }

  /** The qualifying Binance-only items, highest volume first, cut to the first fifty. */
  function TopBinanceItems(binanceOnly: seq<BinanceOnlyCoin>, binanceTickers: seq<Ticker>): (r: seq<BinanceItem>)
    ensures |r| <= BinanceOnlyLimit && |r| <= |binanceOnly|
    ensures var q := QualifyingItems(binanceOnly, binanceTickers);
            && multiset(r) <= multiset(q)
            && |r| == (if |q| < BinanceOnlyLimit then |q| else BinanceOnlyLimit)
    ensures Sorting.Sorted(r, ItemVolumeGe)
    ensures forall item :: item in r ==> Qualifies(item) && item.coin in binanceOnly
    ensures forall item :: item in r ==> item == ToItem(item.coin, binanceTickers)
    ensures forall b, item ::
              (b in binanceOnly && Qualifies(ToItem(b, binanceTickers)) && item in r
               && ItemVolume(ToItem(b, binanceTickers)) > ItemVolume(item))
              ==> ToItem(b, binanceTickers) in r
    ensures |r| < BinanceOnlyLimit ==>
              forall b :: b in binanceOnly && Qualifies(ToItem(b, binanceTickers)) ==> ToItem(b, binanceTickers) in r
  {
    var items := Items(binanceOnly, binanceTickers);
    forall b | b in binanceOnly
      ensures ToItem(b, binanceTickers) in items
    {
      var i :| 0 <= i < |binanceOnly| && binanceOnly[i] == b;
      assert items[i] == ToItem(b, binanceTickers);
    }
    var kept := Seqs.Filter(items, Qualifies);
    assert Sorting.TotalPreorder(ItemVolumeGe);
    Sorting.SortSorted(kept, ItemVolumeGe);
    var sorted := Sorting.Sort(kept, ItemVolumeGe);
    var top := Seqs.Take(sorted, BinanceOnlyLimit);
    TopIsHighest(kept, sorted, top);
    top
  }

  lemma TopIsHighest(kept: seq<BinanceItem>, sorted: seq<BinanceItem>, top: seq<BinanceItem>)
    requires multiset(sorted) == multiset(kept)
    requires Sorting.Sorted(sorted, ItemVolumeGe)
    requires top == Seqs.Take(sorted, BinanceOnlyLimit)
    ensures forall x :: x in top ==> x in kept
    ensures forall x, y :: x in kept && y in top && ItemVolume(x) > ItemVolume(y) ==> x in top
    ensures |top| < BinanceOnlyLimit ==> forall x :: x in kept ==> x in top
    ensures multiset(top) <= multiset(kept)
    ensures |top| == (if |kept| < BinanceOnlyLimit then |kept| else BinanceOnlyLimit)
    ensures Sorting.Sorted(top, ItemVolumeGe)
  {
    assert |sorted| == |multiset(sorted)| == |kept|;
    if |top| < |sorted| {
      assert sorted == top + sorted[|top|..];
    }
    forall x | x in top
      ensures x in kept
    {
      assert x in multiset(sorted);
    }
    forall x, y | x in kept && y in top && ItemVolume(x) > ItemVolume(y)
      ensures x in top
    {
      assert x in multiset(sorted);
      var j :| 0 <= j < |sorted| && sorted[j] == x;
      var k :| 0 <= k < |top| && top[k] == y;
      assert sorted[k] == y;
    }
    if |top| < BinanceOnlyLimit {
      assert top == sorted;
      forall x | x in kept
        ensures x in top
      {
        assert x in multiset(sorted);
      }
    }
  }

  /**
   * The stable sort followed by the cut to fifty: the kept items of any one
   * volume are the first of that volume in listing order, and keep that order.
   */
  lemma TopBinanceItemsStable(binanceOnly: seq<BinanceOnlyCoin>, binanceTickers: seq<Ticker>, x: BinanceItem)
    ensures Sorting.Ties(TopBinanceItems(binanceOnly, binanceTickers), ItemVolumeGe, x)
         <= Sorting.Ties(QualifyingItems(binanceOnly, binanceTickers), ItemVolumeGe, x)
  {
    var q := QualifyingItems(binanceOnly, binanceTickers);
    var sorted := Sorting.Sort(q, ItemVolumeGe);
    assert Sorting.TotalPreorder(ItemVolumeGe);
    Sorting.SortStable(q, ItemVolumeGe, x);
    assert TopBinanceItems(binanceOnly, binanceTickers) == Seqs.Take(sorted, BinanceOnlyLimit);
    Sorting.TiesTake(sorted, BinanceOnlyLimit, ItemVolumeGe, x);
  }

  function EntriesOf(items: seq<BinanceItem>): (r: seq<Coin>)
    ensures |r| == |items|
    ensures forall i :: 0 <= i < |r| ==> r[i] == BinanceOnlyEntry(items[i])
  {
    seq(|items|, i requires 0 <= i < |items| => BinanceOnlyEntry(items[i]))
  }

  lemma EntryVolume(item: BinanceItem)
    requires Qualifies(item)
    ensures BinanceOnlyEntry(item).maxTradeVolume == ItemVolume(item) > BinanceOnlyMinVolume
  {
  }

  lemma MultisetCancel<T>(a: multiset<T>, b: multiset<T>, x: T)
    requires a + multiset{x} <= b + multiset{x}
    ensures a <= b
  {
    forall y | y in a
      ensures a[y] <= b[y]
    {
      assert (a + multiset{x})[y] <= (b + multiset{x})[y];
    }
  }

  lemma EntriesOfAppend(p: seq<BinanceItem>, q: seq<BinanceItem>)
    ensures EntriesOf(p + q) == EntriesOf(p) + EntriesOf(q)
  {
  }

  /** Turning items into entries keeps a sub-multiset a sub-multiset. */
  lemma {:induction false} EntriesOfSubMultiset(a: seq<BinanceItem>, b: seq<BinanceItem>)
    requires multiset(a) <= multiset(b)
    ensures multiset(EntriesOf(a)) <= multiset(EntriesOf(b))
    decreases |a|
  {
    if |a| > 0 {
      var init, x := a[..|a| - 1], a[|a| - 1];
      assert a == init + [x];
      assert x in multiset(b);
      var k :| 0 <= k < |b| && b[k] == x;
      var left, right := b[..k], b[k + 1..];
      var rest := left + right;
      assert multiset(init) <= multiset(rest) by {
        assert b == left + [x] + right;
        assert multiset(b) == multiset(rest) + multiset{x};
        MultisetCancel(multiset(init), multiset(rest), x);
      }
      EntriesOfSubMultiset(init, rest);
      EntriesOfAppend(init, [x]);
      EntriesOfAppend(left, right);
      EntriesOfAppend(left, [x]);
      EntriesOfAppend(left + [x], right);
      assert b == left + [x] + right;
    }
  }

  lemma EntriesOfMembers(top: seq<BinanceItem>, r: seq<Coin>)
    requires r == EntriesOf(top)
    ensures forall c :: c in r ==> exists item :: item in top && c == BinanceOnlyEntry(item)
    ensures forall item :: item in top ==> BinanceOnlyEntry(item) in r
  {
    forall c | c in r
      ensures exists item :: item in top && c == BinanceOnlyEntry(item)
    {
      var k :| 0 <= k < |r| && r[k] == c;
      assert top[k] in top;
    }
    forall item | item in top
      ensures BinanceOnlyEntry(item) in r
    {
      var k :| 0 <= k < |top| && top[k] == item;
      assert r[k] == BinanceOnlyEntry(item);
    }
  }

  /** Rows of qualifying items sorted by volume: Binance-only rows above one million, sorted by volume. */
  lemma EntriesOfQualifying(top: seq<BinanceItem>)
    requires forall item :: item in top ==> Qualifies(item)
    requires Sorting.Sorted(top, ItemVolumeGe)
    ensures SortedByVolume(EntriesOf(top))
    ensures forall c :: c in EntriesOf(top) ==>
              && c.upbit.None? && c.binance.Some?
              && c.maxTradeVolume > BinanceOnlyMinVolume
              && c.binance.value.tradeVolume == Some(c.maxTradeVolume)
              && c.name == c.coinSymbol
  {
    var r := EntriesOf(top);
    forall i | 0 <= i < |top|
      ensures r[i].maxTradeVolume == ItemVolume(top[i]) > BinanceOnlyMinVolume
      ensures r[i].binance.Some? && r[i].binance.value.tradeVolume == Some(r[i].maxTradeVolume)
    {
      assert top[i] in top;
      EntryVolume(top[i]);
    }
  }

  /** The Binance-only entries: at most fifty, each above one million USDT, and the highest ones. */
  function BinanceOnlyEntries(binanceOnly: seq<BinanceOnlyCoin>, binanceTickers: seq<Ticker>): (r: seq<Coin>)
    ensures |r| <= BinanceOnlyLimit && |r| <= |binanceOnly|
    ensures forall c :: c in r ==>
              && c.upbit.None? && c.binance.Some?
              && c.maxTradeVolume > BinanceOnlyMinVolume
              && c.binance.value.tradeVolume == Some(c.maxTradeVolume)
              && c.name == c.coinSymbol
    ensures forall b, c ::
              (b in binanceOnly && Qualifies(ToItem(b, binanceTickers)) && c in r
               && ItemVolume(ToItem(b, binanceTickers)) > c.maxTradeVolume)
              ==> BinanceOnlyEntry(ToItem(b, binanceTickers)) in r
    ensures |r| < BinanceOnlyLimit ==>
              forall b :: b in binanceOnly && Qualifies(ToItem(b, binanceTickers)) ==>
                BinanceOnlyEntry(ToItem(b, binanceTickers)) in r
    ensures var q := QualifyingItems(binanceOnly, binanceTickers);
            && multiset(r) <= multiset(EntriesOf(q))
            && |r| == (if |q| < BinanceOnlyLimit then |q| else BinanceOnlyLimit)
    ensures SortedByVolume(r)
    ensures var top := TopBinanceItems(binanceOnly, binanceTickers);
            |r| == |top| && forall i :: 0 <= i < |r| ==> r[i] == BinanceOnlyEntry(top[i])
  {
    var top := TopBinanceItems(binanceOnly, binanceTickers);
    var r := EntriesOf(top);
    EntriesOfMembers(top, r);
    EntriesOfSubMultiset(top, QualifyingItems(binanceOnly, binanceTickers));
    EntriesOfQualifying(top);
    forall b, c | b in binanceOnly && Qualifies(ToItem(b, binanceTickers)) && c in r
                  && ItemVolume(ToItem(b, binanceTickers)) > c.maxTradeVolume
      ensures BinanceOnlyEntry(ToItem(b, binanceTickers)) in r
    {
      var item :| item in top && c == BinanceOnlyEntry(item);
      EntryVolume(item);
    }
    r
  }

  /** Among qualifying items, the rows that tie with `c` are the rows of the items that tie with `x`, in order. */
  lemma {:induction false} TiesEntriesOf(s: seq<BinanceItem>, x: BinanceItem, c: Coin)
    requires forall i :: 0 <= i < |s| ==> Qualifies(s[i])
    requires ItemVolume(x) == c.maxTradeVolume
    ensures Sorting.Ties(EntriesOf(s), VolumeGe, c) == EntriesOf(Sorting.Ties(s, ItemVolumeGe, x))
  {
    if |s| > 0 {
      EntryVolume(s[0]);
      TiesEntriesOf(s[1..], x, c);
      assert EntriesOf(s)[1..] == EntriesOf(s[1..]);
      var head := if ItemVolumeGe(s[0], x) && ItemVolumeGe(x, s[0]) then [s[0]] else [];
      EntriesOfAppend(head, Sorting.Ties(s[1..], ItemVolumeGe, x));
    }
  }

  lemma EntriesOfPrefix(a: seq<BinanceItem>, b: seq<BinanceItem>)
    requires a <= b
    ensures EntriesOf(a) <= EntriesOf(b)
  {
  }

  /**
   * Binance-only rows of equal volume: the kept ones are the first such rows
   * in listing order, in that order.
   */
  lemma BinanceOnlyEntriesStable(binanceOnly: seq<BinanceOnlyCoin>, binanceTickers: seq<Ticker>, c: Coin)
    ensures Sorting.Ties(BinanceOnlyEntries(binanceOnly, binanceTickers), VolumeGe, c)
         <= Sorting.Ties(EntriesOf(QualifyingItems(binanceOnly, binanceTickers)), VolumeGe, c)
  {
    var v := c.maxTradeVolume;
    var x := BinanceItem(BinanceOnlyCoin("", ""), Some(Ticker("", 0.0, 0.0, Even, 0.0, 0.0, 0.0, Some(v), Some(v))));
    var q := QualifyingItems(binanceOnly, binanceTickers);
    var top := TopBinanceItems(binanceOnly, binanceTickers);
    assert BinanceOnlyEntries(binanceOnly, binanceTickers) == EntriesOf(top);
    assert Sorting.Ties(EntriesOf(top), VolumeGe, c) == EntriesOf(Sorting.Ties(top, ItemVolumeGe, x)) by {
      assert forall i :: 0 <= i < |top| ==> top[i] in top;
      TiesEntriesOf(top, x, c);
    }
    assert Sorting.Ties(EntriesOf(q), VolumeGe, c) == EntriesOf(Sorting.Ties(q, ItemVolumeGe, x)) by {
      assert forall i :: 0 <= i < |q| ==> q[i] in q;
      TiesEntriesOf(q, x, c);
    }
    TopBinanceItemsStable(binanceOnly, binanceTickers, x);
    EntriesOfPrefix(Sorting.Ties(top, ItemVolumeGe, x), Sorting.Ties(q, ItemVolumeGe, x));
  }

  /** `combineExchangeData`: every pair, the Upbit-only coins with a ticker, the top Binance-only coins, by volume. */
  function CombineExchangeData(
    matched: seq<MatchedPair>,
    upbitOnly: seq<UpbitOnlyCoin>,
    binanceOnly: seq<BinanceOnlyCoin>,
    upbitTickers: seq<Ticker>,
    binanceTickers: seq<Ticker>): (r: seq<Coin>)
    ensures SortedByVolume(r)
    ensures multiset(r) == multiset(MatchedEntries(matched, upbitTickers, binanceTickers)
                                    + UpbitOnlyEntries(upbitOnly, upbitTickers)
                                    + BinanceOnlyEntries(binanceOnly, binanceTickers))
    ensures |matched| <= |r| <= |matched| + |upbitOnly| + (if |binanceOnly| < BinanceOnlyLimit then |binanceOnly| else BinanceOnlyLimit)
    ensures forall p :: p in matched ==> MatchedEntry(p, upbitTickers, binanceTickers) in r
  {
    var all := MatchedEntries(matched, upbitTickers, binanceTickers)
               + UpbitOnlyEntries(upbitOnly, upbitTickers)
               + BinanceOnlyEntries(binanceOnly, binanceTickers);
    var r := SortByVolume(all);
    assert forall p :: p in matched ==> MatchedEntry(p, upbitTickers, binanceTickers) in multiset(all);
    r
  }

  /**
   * Rows of equal volume keep their build order: matched rows first, then
   * Upbit-only rows, then Binance-only rows, each group in its own order.
   */
  lemma CombineExchangeDataStable(
    matched: seq<MatchedPair>,
    upbitOnly: seq<UpbitOnlyCoin>,
    binanceOnly: seq<BinanceOnlyCoin>,
    upbitTickers: seq<Ticker>,
    binanceTickers: seq<Ticker>,
    c: Coin)
    ensures Sorting.Ties(CombineExchangeData(matched, upbitOnly, binanceOnly, upbitTickers, binanceTickers), VolumeGe, c)
         == Sorting.Ties(MatchedEntries(matched, upbitTickers, binanceTickers), VolumeGe, c)
            + Sorting.Ties(UpbitOnlyEntries(upbitOnly, upbitTickers), VolumeGe, c)
            + Sorting.Ties(BinanceOnlyEntries(binanceOnly, binanceTickers), VolumeGe, c)
  {
    var a := MatchedEntries(matched, upbitTickers, binanceTickers);
    var b := UpbitOnlyEntries(upbitOnly, upbitTickers);
    var d := BinanceOnlyEntries(binanceOnly, binanceTickers);
    SortByVolumeStable(a + b + d, c);
    Sorting.TiesAppend(a + b, d, VolumeGe, c);
    Sorting.TiesAppend(a, b, VolumeGe, c);
  }

  /** A pair whose tickers are both missing still yields an entry, with neither side and volume 0. */
  lemma MatchedEntryMayHaveNoSide(pair: MatchedPair)
    ensures var c := MatchedEntry(pair, [], []);
            c.upbit.None? && c.binance.None? && c.maxTradeVolume == 0.0
  {
  }

  lemma MatchedEntriesConsistent(matched: seq<MatchedPair>, upbitTickers: seq<Ticker>, binanceTickers: seq<Ticker>)
    ensures forall c :: c in MatchedEntries(matched, upbitTickers, binanceTickers) ==> VolumeConsistent(c)
  {
  }

  lemma UpbitOnlyEntriesConsistent(upbitOnly: seq<UpbitOnlyCoin>, upbitTickers: seq<Ticker>)
    requires forall t :: t in upbitTickers ==> NonNegativeVolumes(t)
    ensures forall c :: c in UpbitOnlyEntries(upbitOnly, upbitTickers) ==> VolumeConsistent(c)
  {
    forall c | c in UpbitOnlyEntries(upbitOnly, upbitTickers)
      ensures VolumeConsistent(c)
    {
      var u :| u in upbitOnly && FindTicker(upbitTickers, u.upbit).Some?
               && c == UpbitOnlyEntry(u, FindTicker(upbitTickers, u.upbit).value);
      assert NonNegativeVolumes(FindTicker(upbitTickers, u.upbit).value);
    }
  }

  /** With non-negative volumes, every combined entry's `maxTradeVolume` agrees with its sides. */
  lemma CombinedVolumesConsistent(
    matched: seq<MatchedPair>,
    upbitOnly: seq<UpbitOnlyCoin>,
    binanceOnly: seq<BinanceOnlyCoin>,
    upbitTickers: seq<Ticker>,
    binanceTickers: seq<Ticker>)
    requires forall t :: t in upbitTickers ==> NonNegativeVolumes(t)
    ensures forall c :: c in CombineExchangeData(matched, upbitOnly, binanceOnly, upbitTickers, binanceTickers)
              ==> VolumeConsistent(c)
  {
    var me := MatchedEntries(matched, upbitTickers, binanceTickers);
    var ue := UpbitOnlyEntries(upbitOnly, upbitTickers);
    var be := BinanceOnlyEntries(binanceOnly, binanceTickers);
    var r := CombineExchangeData(matched, upbitOnly, binanceOnly, upbitTickers, binanceTickers);
    MatchedEntriesConsistent(matched, upbitTickers, binanceTickers);
    UpbitOnlyEntriesConsistent(upbitOnly, upbitTickers);
    forall c | c in r
      ensures VolumeConsistent(c)
    {
      assert c in multiset(me + ue + be);
    }
  }
}

=== FILE: types.dfy ===
/**
 * The data the unification layer passes around: exchange market listings,
 * tickers in Upbit's shape (Binance tickers are converted into it), and the
 * unified coin entry with one optional side per exchange.
 */
module Types {
  import opened Wrappers
  import opened Js
  import Seqs
  import Sorting

  /** Upbit's `change` field; Binance tickers derive it from the sign of the price change. */
  datatype Change = Rise | Fall | Even

  /** An Upbit market listing (`KRW-BTC`, `비트코인`). */
  datatype UpbitMarket = UpbitMarket(market: string, koreanName: string)

  /** A Binance futures symbol listing. `contractType` is optional in the exchange's payload. */
  datatype SymbolInfo = SymbolInfo(
    symbol: string,
    status: string,
    baseAsset: string,
    quoteAsset: string,
    contractType: Option<string>)

  /**
   * A ticker in Upbit's REST shape. For an Upbit push message `market` holds
   * the message's `code`. The two volume fields may be missing.
   */
  datatype Ticker = Ticker(
    market: string,
    tradePrice: real,
    prevClosingPrice: real,
    change: Change,
    changePrice: real,
    changeRate: real,
    signedChangeRate: real,
    accTradePrice: MaybeNum,
    accTradePrice24h: MaybeNum)

  /**
   * A Binance 24-hour ticker stream message (`s`, `P`, `p`, `c`, `x`, `q`,
   * `h`, `l`, `v`, `E`), its numeric strings already parsed.
   */
  datatype StreamTicker = StreamTicker(
    symbol: string,
    priceChangePercent: real,
    priceChange: real,
    lastPrice: real,
    prevClosePrice: real,
    quoteVolume: real,
    highPrice: real,
    lowPrice: real,
    volume: real,
    eventTime: int)

  /** One exchange's view of one coin inside a unified entry. */
  datatype Side = Side(
    symbol: string,
    price: real,
    change: Change,
    changeRate: real,
    changePrice: real,
    tradeVolume: MaybeNum)

  /** `UnifiedCoinData`: one row of the unified table. */
  datatype Coin = Coin(
    coinSymbol: string,
    name: string,
    upbit: Option<Side>,
    binance: Option<Side>,
    maxTradeVolume: real)

  /** The sign rule both Binance converters use: RISE above 0, FALL below, EVEN at 0. */
  function ChangeOf(priceChange: real): (r: Change)
    ensures r == Rise <==> priceChange > 0.0
    ensures r == Fall <==> priceChange < 0.0
    ensures r == Even <==> priceChange == 0.0
  {
    if priceChange > 0.0 then Rise else if priceChange < 0.0 then Fall else Even
  }

  /** Recovers the signed price change from the `change` direction and the absolute amount. */
  function SignedAmount(change: Change, amount: real): real {
    match change
    case Rise => amount
    case Fall => -amount
    case Even => 0.0
  }

  function Abs(x: real): (r: real)
    ensures r >= 0.0 && (r == x || r == -x)
  {
    if x < 0.0 then -x else x
  }

  /** The direction and absolute amount together keep the signed change. */
  lemma ChangeRoundTrip(priceChange: real)
    ensures SignedAmount(ChangeOf(priceChange), Abs(priceChange)) == priceChange
  {
  }

  /** `side?.tradeVolume || 0`. */
  function SideVolume(side: Option<Side>): (r: real)
    ensures side.None? ==> r == 0.0
    ensures side.Some? && side.value.tradeVolume.Some? ==> r == side.value.tradeVolume.value
  {
    match side
    case None => 0.0
    case Some(s) => OrZero(s.tradeVolume)
  }

  /** `Math.max(upbit?.tradeVolume || 0, binance?.tradeVolume || 0)`. */
  function DerivedMaxVolume(upbit: Option<Side>, binance: Option<Side>): (r: real)
    ensures r >= SideVolume(upbit) && r >= SideVolume(binance)
    ensures r == SideVolume(upbit) || r == SideVolume(binance)
  {
    Max(SideVolume(upbit), SideVolume(binance))
  }

  /** The derived `maxTradeVolume` agrees with the two sides it was computed from. */
  predicate VolumeConsistent(c: Coin) {
    c.maxTradeVolume == DerivedMaxVolume(c.upbit, c.binance)
  }

  /** Every listed volume is non-negative. */
  predicate NonNegativeVolumes(t: Ticker) {
    (t.accTradePrice.Some? ==> t.accTradePrice.value >= 0.0)
    && (t.accTradePrice24h.Some? ==> t.accTradePrice24h.value >= 0.0)
  }

  predicate MarketIs(t: Ticker, market: string) {
    t.market == market
  }

  /** `tickers.find((t) => t.market === market)`. */
  function FindTicker(tickers: seq<Ticker>, market: string): (r: Option<Ticker>)
    ensures r.Some? ==> r.value in tickers && r.value.market == market
    ensures r.Some? ==> exists i :: 0 <= i < |tickers| && tickers[i] == r.value && forall j :: 0 <= j < i ==> tickers[j].market != market
    ensures r.None? ==> forall t :: t in tickers ==> t.market != market
  {
    Seqs.Find(tickers, t => MarketIs(t, market))
  }

  /** The order `(a, b) => b.maxTradeVolume - a.maxTradeVolume` sorts by: larger volume first. */
  predicate VolumeGe(a: Coin, b: Coin) {
    a.maxTradeVolume >= b.maxTradeVolume
  }

  lemma VolumeGeIsPreorder()
    ensures Sorting.TotalPreorder(VolumeGe)
  {
  }

  /** Coins sorted non-increasing by `maxTradeVolume`, ties in input order. */
  predicate SortedByVolume(coins: seq<Coin>) {
    forall i, j :: 0 <= i < j < |coins| ==> coins[i].maxTradeVolume >= coins[j].maxTradeVolume
  }

  function CoinSymbolOf(c: Coin): string {
    c.coinSymbol
  }

  /** `coins.sort((a, b) => b.maxTradeVolume - a.maxTradeVolume)` (stable). */
  function SortByVolume(coins: seq<Coin>): (r: seq<Coin>)
    ensures SortedByVolume(r)
    ensures multiset(r) == multiset(coins)
  {
    VolumeGeIsPreorder();
    Sorting.SortSorted(coins, VolumeGe);
    Sorting.Sort(coins, VolumeGe)
  }

  /** Coins of equal volume leave the sort in the order they entered it. */
  lemma SortByVolumeStable(coins: seq<Coin>, c: Coin)
    ensures Sorting.Ties(SortByVolume(coins), VolumeGe, c) == Sorting.Ties(coins, VolumeGe, c)
  {
    VolumeGeIsPreorder();
    Sorting.SortStable(coins, VolumeGe, c);
  }

  /** Sorting by volume keeps coin symbols unique. */
  lemma SortByVolumeDistinct(coins: seq<Coin>)
    requires Seqs.DistinctBy(coins, CoinSymbolOf)
    ensures Seqs.DistinctBy(SortByVolume(coins), CoinSymbolOf)
  {
    Sorting.SortDistinct(coins, VolumeGe, CoinSymbolOf);
  }
}

=== FILE: unified_service.dfy ===
/**
 * `UnifiedExchangeService`: it caches both exchanges' market listings and
 * their matching, re-matches when the cache is missing or older than thirty
 * seconds, and serves the merged ticker table, the socket symbol lists and a
 * per-coin lookup. The clock is a parameter (`now`, in milliseconds) and
 * every HTTP response is an optional parameter (`None` when the request fails).
 */
module UnifiedExchange {
  import opened Wrappers
  import opened Types
  import Seqs
  import UpbitApi
  import BinanceApi
  import SymbolMatcher

  /** A matching older than this many milliseconds is rebuilt. */
  const UpdateIntervalMs: int := 30000

  /** Only this many Binance-only coins are quoted and subscribed to. */
  const BinanceOnlySlice: nat := 50

  datatype Service = Service(
    upbitMarkets: seq<UpbitMarket>,
    binanceMarkets: seq<SymbolInfo>,
    matching: Option<SymbolMatcher.MatchResult>,
    lastUpdateTime: int)

  /** `getCoinInfo`'s answer: the bucket entry, with `null` for the exchange that lacks the coin. */
  datatype CoinInfo = CoinInfo(coin: string, upbit: Option<string>, binance: Option<string>, name: string)

  /** The state right after construction. */
  function Initial(): (s: Service)
    ensures s.upbitMarkets == [] && s.binanceMarkets == []
    ensures s.matching.None? && s.lastUpdateTime == 0
  {
    Service([], [], None, 0)
  }

  /** The cached matching is the matching of the cached listings (or there is none yet). */
  predicate Coherent(s: Service) {
    s.matching.None? || s.matching == Some(SymbolMatcher.MatchSymbols(s.upbitMarkets, s.binanceMarkets))
  }

  /** The guard of `getUnifiedTickers`: no matching yet, or the last one is stale. */
  predicate NeedsReinit(s: Service, now: int) {
    s.matching.None? || now - s.lastUpdateTime > UpdateIntervalMs
  }

  /** `initializeMarkets`: fetch both listings (a failed fetch lists nothing), match them, stamp the time. */
  function InitializeMarkets(
    s: Service,
    upbitResponse: Option<seq<UpbitMarket>>,
    binanceResponse: Option<seq<SymbolInfo>>,
    now: int): (r: Service)
    ensures Coherent(r) && r.matching.Some?
    ensures r.lastUpdateTime == now
    ensures forall m :: m in r.upbitMarkets ==> UpbitApi.IsKrwMarket(m)
    ensures forall m :: m in r.binanceMarkets ==> BinanceApi.IsUsdtPerpetual(m)
    ensures upbitResponse.None? ==> r.upbitMarkets == []
    ensures binanceResponse.None? ==> r.binanceMarkets == []
    ensures r.upbitMarkets == UpbitApi.FetchMarkets(upbitResponse)
    ensures r.binanceMarkets == BinanceApi.FetchBinanceMarkets(binanceResponse)
  {
    var upbitMarkets := UpbitApi.FetchMarkets(upbitResponse);
    var binanceMarkets := BinanceApi.FetchBinanceMarkets(binanceResponse);
    Service(upbitMarkets, binanceMarkets, Some(SymbolMatcher.MatchSymbols(upbitMarkets, binanceMarkets)), now)
  }

  /** A fresh matching is served for exactly thirty seconds, then rebuilt. */
  lemma ReinitExactlyWhenStale(
    s: Service,
    upbitResponse: Option<seq<UpbitMarket>>,
    binanceResponse: Option<seq<SymbolInfo>>,
    t: int,
    now: int)
    ensures NeedsReinit(InitializeMarkets(s, upbitResponse, binanceResponse, t), now) <==> now > t + UpdateIntervalMs
  {
  }

  /** The first step of `forceUpdate`: the cache is marked as arbitrarily old. */
  function ResetClock(s: Service): (r: Service)
    ensures r.lastUpdateTime == 0
    ensures r.upbitMarkets == s.upbitMarkets && r.binanceMarkets == s.binanceMarkets && r.matching == s.matching
  {
    s.(lastUpdateTime := 0)
  }

  /** Should re-initialisation not complete, the reset clock alone makes the next read rebuild the matching. */
  lemma ResetClockForcesReinit(s: Service, now: int)
    requires now > UpdateIntervalMs
    ensures NeedsReinit(ResetClock(s), now)
  {
  }

  /** `forceUpdate`: reset the clock, then re-initialise. */
  function ForceUpdate(
    s: Service,
    upbitResponse: Option<seq<UpbitMarket>>,
    binanceResponse: Option<seq<SymbolInfo>>,
    now: int): (r: Service)
    ensures Coherent(r) && r.matching.Some? && r.lastUpdateTime == now
    ensures r.upbitMarkets == UpbitApi.FetchMarkets(upbitResponse)
    ensures r.binanceMarkets == BinanceApi.FetchBinanceMarkets(binanceResponse)
    ensures forall later :: now <= later <= now + UpdateIntervalMs ==> !NeedsReinit(r, later)
  {
    InitializeMarkets(ResetClock(s), upbitResponse, binanceResponse, now)
  }

  function PairBinances(ps: seq<SymbolMatcher.MatchedPair>): (r: seq<string>)
    ensures |r| == |ps| && forall i :: 0 <= i < |ps| ==> r[i] == ps[i].binance
  {
    seq(|ps|, i requires 0 <= i < |ps| => ps[i].binance)
  }

  function OnlyBinances(bs: seq<SymbolMatcher.BinanceOnlyCoin>): (r: seq<string>)
    ensures |r| == |bs| && forall i :: 0 <= i < |bs| ==> r[i] == bs[i].binance
  {
    seq(|bs|, i requires 0 <= i < |bs| => bs[i].binance)
  }

  /** The Binance symbols the service quotes and subscribes to: every pair, then the first fifty Binance-only coins. */
  function BinanceSymbols(m: SymbolMatcher.MatchResult): (r: seq<string>)
    ensures |m.matched| <= |r| <= |m.matched| + BinanceOnlySlice
    ensures forall i :: 0 <= i < |m.matched| ==> r[i] == m.matched[i].binance
    ensures forall j :: |m.matched| <= j < |r| ==> j - |m.matched| < |m.binanceOnly| && r[j] == m.binanceOnly[j - |m.matched|].binance
    ensures |r| == |m.matched| + (if |m.binanceOnly| < BinanceOnlySlice then |m.binanceOnly| else BinanceOnlySlice)
  {
    PairBinances(m.matched) + OnlyBinances(Seqs.Take(m.binanceOnly, BinanceOnlySlice))
  }

  /** The Upbit symbols the service subscribes to: every pair, then every Upbit-only coin. */
  function UpbitSymbols(m: SymbolMatcher.MatchResult): (r: seq<string>)
    ensures |r| == |m.matched| + |m.upbitOnly|
    ensures forall i :: 0 <= i < |m.matched| ==> r[i] == m.matched[i].upbit
    ensures forall j :: |m.matched| <= j < |r| ==> r[j] == m.upbitOnly[j - |m.matched|].upbit
  {
    SymbolMatcher.PairUpbits(m.matched) + SymbolMatcher.OnlyUpbits(m.upbitOnly)
  }

  /** `getWebSocketSymbols`: two empty lists before the first matching. */
  function GetWebSocketSymbols(s: Service): (r: (seq<string>, seq<string>))
    ensures s.matching.None? ==> r == ([], [])
    ensures s.matching.Some? ==>
              && |r.0| == |s.matching.value.matched| + |s.matching.value.upbitOnly|
              && |r.1| <= |s.matching.value.matched| + BinanceOnlySlice
    ensures s.matching.Some? ==> r == (UpbitSymbols(s.matching.value), BinanceSymbols(s.matching.value))
  {
    match s.matching
    case None => ([], [])
    case Some(m) => (UpbitSymbols(m), BinanceSymbols(m))
  }

  /** Under a coherent cache, the Upbit list is a reordering of the cached Upbit market codes. */
  lemma UpbitSymbolsArePermutation(s: Service)
    requires Coherent(s) && s.matching.Some?
    ensures multiset(GetWebSocketSymbols(s).0) == multiset(SymbolMatcher.MarketCodes(s.upbitMarkets))
  {
  }

  /** Binance lists a market with this symbol. */
  predicate IsListed(symbol: string, binanceMarkets: seq<SymbolInfo>) {
    exists b :: b in binanceMarkets && b.symbol == symbol
  }

  /** Every pair's and every Binance-only coin's symbol being listed makes every quoted symbol listed. */
  lemma {:induction false} BucketsListed(m: SymbolMatcher.MatchResult, binanceMarkets: seq<SymbolInfo>)
    requires forall p :: p in m.matched ==> IsListed(p.binance, binanceMarkets)
    requires forall o :: o in m.binanceOnly ==> IsListed(o.binance, binanceMarkets)
    ensures forall sym :: sym in BinanceSymbols(m) ==> IsListed(sym, binanceMarkets)
  {
    var r := BinanceSymbols(m);
    forall j | 0 <= j < |r|
      ensures IsListed(r[j], binanceMarkets)
    {
      if j < |m.matched| {
        assert m.matched[j] in m.matched;
      } else {
        assert m.binanceOnly[j - |m.matched|] in m.binanceOnly;
      }
    }
  }

  /** Under a coherent cache, each Binance symbol the service subscribes to is a cached Binance market. */
  lemma BinanceSymbolsListed(s: Service)
    requires Coherent(s) && s.matching.Some?
    ensures forall sym :: sym in GetWebSocketSymbols(s).1 ==> IsListed(sym, s.binanceMarkets)
  {
    var m := s.matching.value;
    forall p | p in m.matched
      ensures IsListed(p.binance, s.binanceMarkets)
    {
      assert SymbolMatcher.PairFrom(p, s.upbitMarkets, s.binanceMarkets);
    }
    forall o | o in m.binanceOnly
      ensures IsListed(o.binance, s.binanceMarkets)
    {
    }
    BucketsListed(m, s.binanceMarkets);
  }

  /** Under a coherent cache, the pair part and the Binance-only part of the Binance list share no symbol. */
  lemma {:induction false} BinanceSymbolsDisjoint(s: Service)
    requires Coherent(s) && s.matching.Some?
    ensures var m := s.matching.value;
            var r := GetWebSocketSymbols(s).1;
            forall i, j :: 0 <= i < |m.matched| <= j < |r| ==> r[i] != r[j]
  {
    var m := s.matching.value;
    var r := BinanceSymbols(m);
    assert GetWebSocketSymbols(s).1 == r;
    forall i, j | 0 <= i < |m.matched| <= j < |r|
      ensures r[i] != r[j]
    {
      assert m.matched[i] in m.matched;
      assert m.binanceOnly[j - |m.matched|] in m.binanceOnly;
    }
  }

  /**
   * `getUnifiedTickers`: rebuild a missing or stale matching, quote the Upbit
   * markets and the Binance symbols, and merge. Every fetch already answers a
   * failure with an empty list, so a failure shows as missing tickers.
   */
  function GetUnifiedTickers(
    s: Service,
    now: int,
    upbitMarketsResponse: Option<seq<UpbitMarket>>,
    binanceMarketsResponse: Option<seq<SymbolInfo>>,
    upbitTickersResponse: Option<seq<Ticker>>,
    binanceTickersResponse: Option<BinanceApi.TickerPayload>): (r: (Service, seq<Coin>))
    ensures NeedsReinit(s, now) ==> r.0 == InitializeMarkets(s, upbitMarketsResponse, binanceMarketsResponse, now)
    ensures !NeedsReinit(s, now) ==> r.0 == s
    ensures r.0.matching.Some? && (Coherent(s) ==> Coherent(r.0))
    ensures SortedByVolume(r.1)
    ensures var m := r.0.matching.value;
            |m.matched| <= |r.1| <= |m.matched| + |m.upbitOnly| + BinanceOnlySlice
    ensures forall p :: p in r.0.matching.value.matched ==> exists c :: c in r.1 && c.coinSymbol == p.coin && c.name == p.name
  {
    var s1 := if NeedsReinit(s, now) then InitializeMarkets(s, upbitMarketsResponse, binanceMarketsResponse, now) else s;
    var m := s1.matching.value;
    var upbitTickers := upbitTickersResponse.GetOr([]);
    var raw := BinanceApi.FetchBinanceTickers(binanceTickersResponse, Some(BinanceSymbols(m)));
    var binanceTickers := BinanceApi.ConvertAll(raw);
    var coins := SymbolMatcher.CombineExchangeData(m.matched, m.upbitOnly, m.binanceOnly, upbitTickers, binanceTickers);
    assert forall p :: p in m.matched ==> SymbolMatcher.MatchedEntry(p, upbitTickers, binanceTickers) in coins;
    (s1, coins)
  }

  /** With every request failing, the first read yields an empty table. */
  lemma AllFetchesFailingGiveEmptyTable(now: int)
    ensures GetUnifiedTickers(Initial(), now, None, None, None, None).1 == []
  {
    var r := GetUnifiedTickers(Initial(), now, None, None, None, None);
    assert r.0.matching.value.matched == [];
  }

  predicate PairHasCoin(p: SymbolMatcher.MatchedPair, coin: string) {
    p.coin == coin
  }

  predicate UpbitOnlyHasCoin(u: SymbolMatcher.UpbitOnlyCoin, coin: string) {
    u.coin == coin
  }

  predicate BinanceOnlyHasCoin(b: SymbolMatcher.BinanceOnlyCoin, coin: string) {
    b.coin == coin
  }

  /** `getCoinInfo`: the first pair with the coin, else the first Upbit-only coin, else the first Binance-only coin. */
  function GetCoinInfo(s: Service, coinSymbol: string): (r: Option<CoinInfo>)
    ensures r.Some? ==> s.matching.Some? && r.value.coin == coinSymbol
    ensures s.matching.None? ==> r.None?
    ensures s.matching.Some? ==>
              var m := s.matching.value;
              && (r.None? <==> (forall p :: p in m.matched ==> p.coin != coinSymbol)
                               && (forall u :: u in m.upbitOnly ==> u.coin != coinSymbol)
                               && (forall b :: b in m.binanceOnly ==> b.coin != coinSymbol))
              && ((exists p :: p in m.matched && p.coin == coinSymbol) ==>
                    exists p :: p in m.matched && p.coin == coinSymbol
                      && r == Some(CoinInfo(p.coin, Some(p.upbit), Some(p.binance), p.name)))
              && ((forall p :: p in m.matched ==> p.coin != coinSymbol)
                  && (exists u :: u in m.upbitOnly && u.coin == coinSymbol) ==>
                    exists u :: u in m.upbitOnly && u.coin == coinSymbol
                      && r == Some(CoinInfo(u.coin, Some(u.upbit), None, u.name)))
              && ((forall p :: p in m.matched ==> p.coin != coinSymbol)
                  && (forall u :: u in m.upbitOnly ==> u.coin != coinSymbol)
                  && (exists b :: b in m.binanceOnly && b.coin == coinSymbol) ==>
                    exists b :: b in m.binanceOnly && b.coin == coinSymbol
                      && r == Some(CoinInfo(b.coin, None, Some(b.binance), coinSymbol)))
  {
    match s.matching
    case None => None
    case Some(m) =>
      match Seqs.Find(m.matched, p => PairHasCoin(p, coinSymbol))
      case Some(p) => Some(CoinInfo(p.coin, Some(p.upbit), Some(p.binance), p.name))
      case None =>
        match Seqs.Find(m.upbitOnly, u => UpbitOnlyHasCoin(u, coinSymbol))
        case Some(u) => Some(CoinInfo(u.coin, Some(u.upbit), None, u.name))
        case None =>
          match Seqs.Find(m.binanceOnly, b => BinanceOnlyHasCoin(b, coinSymbol))
          case Some(b) => Some(CoinInfo(b.coin, None, Some(b.binance), coinSymbol))
          case None => None
  }

  /** Under a coherent cache, an Upbit code in the answer is a cached market whose canonical symbol is the coin. */
  lemma CoinInfoUpbitIsListed(s: Service, coinSymbol: string)
    requires Coherent(s)
    ensures var r := GetCoinInfo(s, coinSymbol);
            r.Some? && r.value.upbit.Some? ==>
              && SymbolMatcher.ExtractCoinSymbol(r.value.upbit.value) == coinSymbol
              && exists u :: u in s.upbitMarkets && u.market == r.value.upbit.value
  {
    var r := GetCoinInfo(s, coinSymbol);
    if r.Some? && r.value.upbit.Some? {
      var m := s.matching.value;
      if exists p :: p in m.matched && p.coin == coinSymbol {
        var p :| p in m.matched && p.coin == coinSymbol && r == Some(CoinInfo(p.coin, Some(p.upbit), Some(p.binance), p.name));
        assert SymbolMatcher.PairFrom(p, s.upbitMarkets, s.binanceMarkets);
      } else {
        var u :| u in m.upbitOnly && u.coin == coinSymbol && r == Some(CoinInfo(u.coin, Some(u.upbit), None, u.name));
        assert SymbolMatcher.OnlyFrom(u, s.upbitMarkets, s.binanceMarkets);
      }
    }
  }
}

=== FILE: upbit_api.dfy ===
/**
 * The pure part of the Upbit REST client: the market listing keeps the KRW
 * markets. A request that fails is an absent response (`None`); the client
 * then returns an empty list.
 */
module UpbitApi {
  import opened Wrappers
  import opened Types
  import Strings
  import Seqs

  /** `market.startsWith('KRW')`: note the missing dash. */
  predicate IsKrwMarket(m: UpbitMarket) {
    Strings.StartsWith(m.market, "KRW")
  }

  /** `fetchMarkets`: the listing's KRW markets in listing order, or nothing when the request fails. */
  function FetchMarkets(response: Option<seq<UpbitMarket>>): (r: seq<UpbitMarket>)
    ensures response.None? ==> r == []
    ensures response.Some? ==> Seqs.IsSubseq(r, response.value)
    ensures forall m :: m in r ==> Strings.StartsWith(m.market, "KRW")
    ensures response.Some? ==>
              forall i :: 0 <= i < |response.value| && IsKrwMarket(response.value[i]) ==> response.value[i] in r
    ensures response.Some? ==>
              forall m :: multiset(r)[m] == if IsKrwMarket(m) then multiset(response.value)[m] else 0
  {
    match response
    case None => []
    case Some(markets) => Seqs.Filter(markets, IsKrwMarket)
  }
}

=== FILE: wrappers.dfy ===
/** The optional-value type used wherever the source has `T | null | undefined`. */
module Wrappers {

  datatype Option<+T> = None | Some(value: T) {

    /** Returns the value held by Some, or `default` for None. */
    function GetOr(default: T): T {
      match this
      case Some(v) => v
      case None => default
    }
  }
}
